=== FILE: README.md ===
# LLM File Organizer — a verified model of its sandboxed core

LLM File Organizer lets a language model reorganise one directory tree. The
model answers a user in text. That text may embed a JSON action object, and
the assistant runs the object against a sandboxed set of filesystem
operations. This project models three pieces of it in Dafny and proves what
they guarantee:

- **The sandboxed operations** (`SafeFilesystemOperations`). The filesystem
  is an immutable map from resolved absolute paths (`seq<string>`, `[]` being
  "/") to `File(content) | Dir`. Each operation is a pure function from the
  tree and its arguments to the result dictionary and the new tree. Modules:
  - `Paths`: path confinement. This covers `_safe_path`, `relative_to` and
    the pathlib stem/suffix split.
  - `Naming`: the conflict-free name search, `name (k).ext` for
    k = 1..9999, then an unchecked timestamp name.
  - `Tree`: `mkdir(parents=True)`, `os.rename`, `shutil.move` and `rmdir`
    on the map.
  - `FsOps`: the eleven operations.
  - `Guarantees`: what the operations promise. This includes well-formedness
    of the tree, no overwrite, nothing changed on error, the auto-rename
    outcome, the preview agreeing with the real move, and the bulk-move
    accounting.
- **The safety validator** (`SafetyValidator`). Modules:
  - `Patterns`: the eight case-insensitive dangerous patterns, hand-coded
    as predicates. An executable scanner is proved equal to them.
  - `Safety`: action, parameter, root-path and file-path validation.
  - `SafetyFacts`: consequences of that validation. For instance, the
    renamer's own `name (1).txt` is rejected, `/binary` is rejected as a
    root, and `/` is accepted.
- **The assistant's non-network logic** (`FilesystemLLM`). Modules:
  - `Assistant`:
    - the ten-entry history window;
    - the `{ … }` span extraction from a reply;
    - the name-to-operation dispatch with Python's keyword binding and
      exception behaviour;
    - the assembly of the answer text.
  - `AssistantFacts`: how those pieces fit together.

The model's reply, the JSON decoder (`json.loads`), the listing renderer,
`json.dumps` and `int(time.time())` are parameters of the model.

Supporting modules:
- `Results`: `Option` and `Result`.
- `Text`: strip, find, lower, join.
- `Errors`: the exceptions as values, with their `str(e)` texts.
- `Json`: JSON values, Python truthiness, `dict.get`, `or`.

## Model

| member | source | states |
|---|---|---|
| Paths.SafePath | src/filesystem_operations.py:24-36 | Succeeds exactly when the resolved path is the root or below it. The result is then that resolved, canonical path. Otherwise the error is the ValueError quoting the input string. |
| Paths.RelativeStaysInside | src/filesystem_operations.py:24-36 | A relative path with no `..` component is always accepted. |
| Paths.AbsoluteOutsideFails | src/filesystem_operations.py:26-34 | An absolute path that is not below the root is refused. |
| Paths.ParentTraversalRejected | tests/test_filesystem_operations.py:134-138 | `../outside_directory` is refused under any root whose last component is not `outside_directory`. |
| Paths.AbsoluteOutsideRejected | tests/test_filesystem_operations.py:139-140 | `/absolute/path/outside` is refused unless the root lies on that path. |
| Paths.SafePathAbsolute | src/filesystem_operations.py:26-27 | Rendering a path below the root as an absolute string and resolving it again gives the same path. This is the absolute destination that bulk_move_files passes. |
| Paths.SafePathRelative | src/filesystem_operations.py:28-31 | A root-relative rendering resolves to root + the relative path. This is the round trip of `str(relative_to(root))`. |
| Paths.SplitJoin | src/filesystem_operations.py:25 | Splitting a `/`-joined list of slash-free components gives the list back. |
| Paths.RelativeTo | src/filesystem_operations.py:119 | `relative_to(root)` succeeds exactly for paths below the root, and root + result is the path. |
| Paths.Suffix | src/filesystem_operations.py:41-42 | stem + suffix is the name. The suffix is empty, or a dot followed by no further dot. |
| Naming.FirstFree | src/filesystem_operations.py:44-56 | The counter found is the smallest k from the start up to 9999 whose `stem (k)suffix` sibling is free. No result means all of them are taken. |
| Naming.SafeName | src/filesystem_operations.py:38-61 | The name is either the first free `stem (k)suffix` with every smaller k taken, or, when all 9999 are taken, the unchecked `stem_ts suffix` name. |
| Naming.SafeNameSibling | src/filesystem_operations.py:40-48 | The generated name has the original's parent and differs from it. |
| Naming.SafeNameCanonical | src/filesystem_operations.py:47-48 | The generated path is a valid resolved path. |
| Tree.MakeDirs | src/filesystem_operations.py:111 | `mkdir(parents=True, exist_ok=True)` fails exactly when an ancestor (or the path itself) is a file. On success, the path is a directory, every old entry is kept, and only directories on the path are added. |
| Tree.MakeDirsWellFormed | src/filesystem_operations.py:111 | Creating the missing parents keeps the tree well formed. |
| Tree.ShutilRename | src/filesystem_operations.py:114 | The rename step of shutil.move. A success is the transplant of the source subtree to the target. A directory moved into its own subtree gives "Cannot move a directory into itself". Every failure is an OS error. |
| Tree.ShutilRenameCanTransplant | src/filesystem_operations.py:114 | On a well-formed tree, the rename step succeeds exactly under the transplant side conditions: an existing source, an existing parent directory, no directory moved into itself, and only a file replacing a file. |
| Tree.ShutilMove | src/filesystem_operations.py:114 | A success leaves the tree unchanged or transplants the source to its target. For an existing directory destination, the target is inside it, and a taken name there gives "Destination path already exists". Every failure is an OS error. |
| Tree.WayBlocked | src/filesystem_operations.py:178 | The lookup of a path's parent fails exactly when some proper prefix is not a directory. An ENOTDIR stop implies a file on the way. |
| Tree.WayBlockedByFile | src/filesystem_operations.py:178 | In a well-formed tree, the lookup stops with ENOTDIR exactly when some proper prefix of the path is a file. |
| Tree.OsRename | src/filesystem_operations.py:178 | A bare `os.rename` onto a free target. A success is the transplant of the source subtree to the target. Every failure is an OS error. |
| Tree.OsRenameCanTransplant | src/filesystem_operations.py:178 | On a well-formed tree, os.rename onto a free target succeeds exactly under the transplant side conditions. |
| Tree.OsRenameIntoItself | src/filesystem_operations.py:178 | A directory renamed to a free path inside itself fails with EINVAL, "[Errno 22] Invalid argument" (EBUSY for "/"). |
| Tree.OsRenameUnderFile | src/filesystem_operations.py:178 | A rename to a path below a file fails with ENOTDIR. |
| Tree.ShutilMoveWellFormed | src/filesystem_operations.py:114 | A successful `shutil.move` keeps the tree well formed. |
| Tree.RemoveLeaf | src/filesystem_operations.py:214 | `rmdir` removes exactly that one path. |
| FsOps.FinalTarget | src/filesystem_operations.py:101-107 | The target equals the requested destination exactly when that destination is free. Otherwise the target is a sibling of it. |
| FsOps.Relocate | src/filesystem_operations.py:107-114 | A completed move lands at the requested destination exactly when it was free. A renamed target is the generated name and lies below the root. An aborted move has added only directories. |
| FsOps.MoveFile | src/filesystem_operations.py:89-126 | A path outside the root, a missing source, a directory source, or an existing destination without auto-rename each give an error and leave the tree as it was. Any error leaves at most new parent directories. Success implies a file source, and a reported `final_path` exactly when the destination existed. |
| FsOps.MoveDirectory | src/filesystem_operations.py:128-165 | The same as move_file with the kind check inverted: a file source gives "Use move_file for files". |
| FsOps.RenameFile | src/filesystem_operations.py:167-184 | An error leaves the tree unchanged. Success implies that the old path existed and the new one did not. |
| FsOps.CreateDirectory | src/filesystem_operations.py:186-199 | An error leaves the tree unchanged. Success implies that the path was free and is now a directory, and that only directories on that path were added. |
| FsOps.RemoveEmptyDirectory | src/filesystem_operations.py:201-220 | Succeeds exactly for an existing, empty directory inside the root other than `/` itself, and removes only it. Every other case leaves the tree unchanged. |
| FsOps.ListDirectory | src/filesystem_operations.py:63-87 | Raises exactly when the path is outside the root, because `_safe_path` runs outside the `try`. A listing implies a directory; an error dictionary implies not a directory. |
| FsOps.GetFileInfo | src/filesystem_operations.py:222-250 | Info is given exactly for an existing path inside the root. It carries the entry's kind, and a child count exactly for directories, equal to the number of children. |
| FsOps.GetMovePreview | src/filesystem_operations.py:311-342 | A preview implies a source that exists. `conflict` holds exactly when the destination exists, and exactly when an auto-rename name is shown. `will_create_dirs` holds exactly when the destination's parent is missing. |
| FsOps.BulkMoveFiles | src/filesystem_operations.py:252-309 | The whole call fails exactly when the destination is outside the root, the destination cannot be created, or a pattern's glob raises. A bad destination leaves the tree unchanged. A raising glob answers "Bulk move failed: " with the first such exception, and the moves made for the earlier patterns stay done. A completed call has at most one entry per match, and every entry names a match. |
| FsOps.BulkPatterns | src/filesystem_operations.py:264-309 | Over the patterns, the call fails exactly when some glob raised, with the first exception's text. Either way the tree is what the match loop leaves over all matches globbed before the failure. A completed call's entries are those of that loop. |
| FsOps.BulkLoopAppend | src/filesystem_operations.py:264-294 | Looping over two match lists in turn is looping over their concatenation. |
| FsOps.BulkTurn | src/filesystem_operations.py:269-294 | A match that is not a file when its turn comes is skipped with nothing changed. A file adds exactly one moved, renamed or error entry, and that entry names the match. |
| FsOps.BulkLoop | src/filesystem_operations.py:264-294 | The loop always completes: no match aborts it. It adds at most one entry per match, each new entry names a match, and the entries already there are kept. |
| Guarantees.RelocateWellFormed | src/filesystem_operations.py:110-114 | The shared move tail keeps the tree well formed. |
| Guarantees.MoveFileWellFormed | src/filesystem_operations.py:89-126 | move_file keeps the tree well formed, on every path. |
| Guarantees.MoveDirectoryWellFormed | src/filesystem_operations.py:128-165 | move_directory keeps the tree well formed. |
| Guarantees.RenameFileWellFormed | src/filesystem_operations.py:167-184 | rename_file keeps the tree well formed. |
| Guarantees.CreateDirectoryWellFormed | src/filesystem_operations.py:186-199 | create_directory keeps the tree well formed. |
| Guarantees.RemoveEmptyDirectoryWellFormed | src/filesystem_operations.py:201-220 | remove_empty_directory keeps the tree well formed. |
| Guarantees.RelocateFree | src/filesystem_operations.py:110-114 | With a free target and no file on its way, the whole source subtree moves there with its contents. Everything else that existed is unchanged, and the only new entries outside the target are its missing parent directories. |
| Guarantees.RelocateFileFree | src/filesystem_operations.py:110-114 | For a file, the moved content is at the target, the source is gone, and the target's parent is a directory. Nothing else that existed changes, and new entries are only the target and its parents. |
| Guarantees.MoveFileNoConflict | src/filesystem_operations.py:110-122 | A move to a free destination reports "Moved s to d" without a renamed key. It moves the content unchanged, creates the missing parents, and changes nothing else. |
| Guarantees.RenamedTarget | src/filesystem_operations.py:101-107 | When some counter is free, the renamed target is free, resolved, inside the root, and a sibling of the destination in an existing directory. |
| Guarantees.ShownResolves | src/filesystem_operations.py:117-119 | The reported `final_path` resolves back to the path actually written. |
| Guarantees.RelocateFileBesideTaken | src/filesystem_operations.py:100-114 | A file moved beside a taken destination lands on the generated free sibling with its content. Every other entry is kept, and the set of paths changes by exactly the source out and the new name in. |
| Guarantees.MoveFileAutoRename | src/filesystem_operations.py:100-119 | On a taken destination with auto-rename, the message names the generated path and the `final_path` resolves to it. The original destination keeps its content and the source content is at the new name. The set of paths changes by exactly source out, new name in. |
| Guarantees.MoveDirectoryNoConflict | src/filesystem_operations.py:149-161 | A directory moved to a free destination carries its whole subtree. Everything else is kept, and the reply has no renamed key. |
| Guarantees.RelocateBesideTaken | src/filesystem_operations.py:139-153 | A subtree moved beside a taken destination arrives intact under the new name. The existing destination subtree is never merged into. |
| Guarantees.MoveDirectoryAutoRename | src/filesystem_operations.py:139-158 | On a taken destination with auto-rename, the directory arrives intact at the generated name. This includes a destination that is the source itself or an ancestor of it. The destination subtree receives nothing new and keeps every old entry outside the moved directory. |
| Guarantees.MoveDirectoryOntoItself | src/filesystem_operations.py:133-158 | A directory moved onto itself with auto-rename goes to its first free numbered sibling, such as "x (1)". The reply reports the rename, and the old name is gone. |
| Guarantees.RenameFileMoves | src/filesystem_operations.py:167-180 | A rename to a free path in an existing directory moves the subtree and keeps everything else. |
| Guarantees.RenameFileIntoItself | src/filesystem_operations.py:167-184 | Renaming a directory to a free name inside itself reports "Failed to rename: [Errno 22] Invalid argument" ("[Errno 16] …" for "/") and changes nothing. |
| Guarantees.RenameFileUnderFile | src/filesystem_operations.py:167-184 | Renaming to a free name below a file reports "Failed to rename: [Errno 20] Not a directory" and changes nothing. |
| Guarantees.CreateDirectoryCreates | src/filesystem_operations.py:186-195 | Creating a free path adds exactly its missing ancestors and itself, all as directories, and keeps every old entry. |
| Guarantees.CreateDirectoryTwice | src/filesystem_operations.py:190-191 | Creating the same directory again is refused with "Directory already exists" and changes nothing. |
| Guarantees.EmptyCountMatchesRemoval | src/filesystem_operations.py:201-242 | For a directory inside the root, get_file_info reports zero contents exactly when remove_empty_directory succeeds. |
| Guarantees.ListingRoundTrip | src/filesystem_operations.py:72-84 | The listing holds one item per child and nothing else, and each item's path resolves back to that child. |
| Guarantees.PreviewMatchesMoveFile | src/filesystem_operations.py:311-338 | When both succeed, the preview reports a conflict exactly when move_file renames, and its auto-rename name is the `final_path` move_file reports. |
| Guarantees.PreviewMatchesMoveDirectory | src/filesystem_operations.py:311-338 | The same agreement for move_directory. |
| Guarantees.BulkStep | src/filesystem_operations.py:269-276 | One turn on a file outside the destination, with a proper name, keeps the tree well formed and the destination a directory. It changes no file outside the destination other than the match itself. |
| Guarantees.BulkLoopCounts | src/filesystem_operations.py:264-294 | For any matches, repeated or outside the root included, the loop adds exactly one entry per match that is a file when its turn comes, and keeps the tree well formed. |
| Guarantees.BulkOutsideRecorded | src/filesystem_operations.py:269-294 | A matched file outside the root gets the error entry "Failed to move file: Path outside allowed directory: …" naming it. The tree is unchanged and the loop carries on. |
| Guarantees.BulkLoopDistinct | src/filesystem_operations.py:264-294 | For matches resolving to distinct paths outside the destination, a match is a file at its turn exactly when it was one at the start. The destination stays a directory. |
| Guarantees.BulkAccounting | src/filesystem_operations.py:252-309 | For any glob outcomes, a completed bulk_move_files has exactly one entry per match that is a file when its turn comes. The tree stays well formed on every path, including a glob that raises partway. |
| Guarantees.MadeDirsDistinct | src/filesystem_operations.py:258-294 | Creating the destination changes no match's file-ness. Over distinct matches outside it, the loop counts the files present at the start and leaves the destination a directory. |
| Guarantees.BulkAccountingDistinct | src/filesystem_operations.py:252-305 | For matches resolving to distinct paths outside the destination, a completed call has exactly one entry per matched file and leaves the destination a directory. |
| Guarantees.BulkSingleMove | src/filesystem_operations.py:269-276 | A single matched file inside the root, whose place in the existing destination directory is free, is moved there and is gone from its old place. |
| Guarantees.BulkGlobFailureKeepsMove | src/filesystem_operations.py:264-309 | When a glob raises after an earlier pattern's file was moved, the reply is "Bulk move failed: " with the glob's message. The file still sits in the destination directory and is gone from its old place. |
| Patterns.Fold | src/safety_validator.py:24 | IGNORECASE folding makes an ASCII letter exactly from an ASCII letter or one of the four non-ASCII characters that fold to one, and leaves every other character alone. |
| Patterns.DangerousIgnoresCase | src/safety_validator.py:24 | Folding the text changes nothing about whether a pattern matches. |
| Patterns.DangerHereExact | src/safety_validator.py:12-21 | The scanner's per-position test, which jumps to the end of each whitespace run, agrees with the pattern definitions. |
| Patterns.ContainsDangerousPatterns | src/safety_validator.py:181-185 | Reports a match exactly when some position of the text starts one of the eight patterns. |
| Safety.ValidateAction | src/safety_validator.py:107-159 | An action outside the seven allowed names, or a string parameter with a dangerous pattern, gives False. For the two-path actions, True holds exactly when no parameter is dangerous, the source is truthy, and the destination is a non-empty string that names no system file. The other actions give True exactly when no parameter is dangerous. The call raises exactly when a truthy non-string destination reaches `.lower()`. |
| Safety.ValidateUserInput | src/safety_validator.py:161-179 | Every input is accepted, whether dangerous or long. |
| Safety.ValidateRootPath | src/safety_validator.py:32-73 | Accepts exactly an existing directory whose lower-cased string starts with no system directory and matches no dangerous pattern. |
| Safety.ValidateFilePath | src/safety_validator.py:75-105 | Accepts exactly a path that resolves inside the root and whose text matches no dangerous pattern. |
| SafetyFacts.ParenthesisDangerous | src/safety_validator.py:15 | Any text containing `(` or `)` matches the shell-character pattern. |
| SafetyFacts.NumberedNameDangerous | src/safety_validator.py:15 | Every `stem (k)suffix` name the renamer produces is dangerous. |
| SafetyFacts.NumberedNameRejected | src/safety_validator.py:128-138 | Any action whose parameters carry such a name is refused. |
| SafetyFacts.TraversalTextRejected | src/safety_validator.py:95-99 | A file path containing `../` is refused even when it resolves inside the root. |
| SafetyFacts.SystemNamePrefixRejected | src/safety_validator.py:55-60 | The system-directory test is a plain string prefix. A root whose first component starts, in any case, with a Unix system directory's name is refused. |
| SafetyFacts.BinaryRejected | src/safety_validator.py:55-60 | `/binary` is refused as a root. |
| SafetyFacts.SlashNotUnderSystemDir | src/safety_validator.py:46-60 | `/` starts with none of the system directories. |
| SafetyFacts.RootDirectoryAccepted | src/safety_validator.py:32-69 | The filesystem root `/` is accepted as a root directory. |
| Assistant.AddToHistory | src/llm_interface.py:103-107 | The history grows by one up to ten entries and then stays at ten. It ends with the new entry and is a suffix of old + [new]. |
| AssistantFacts.AddAllWindow | src/llm_interface.py:103-107 | Adding entries one at a time equals keeping the last ten of the whole sequence. |
| Assistant.ParseResponse | src/llm_interface.py:109-130 | An object is produced exactly when the first-`{`-to-last-`}` span of the stripped reply decodes. It is then that span's decoding, with the stripped remainder (or None) as conversation. Otherwise the stripped reply is the conversation. |
| Assistant.SpanIsFound | src/llm_interface.py:113-116 | A span that starts at a `{` with none before it, and ends at a later `}` with none after it, is the one the search finds. |
| Assistant.ExtractAt | src/llm_interface.py:116-125 | For such a span, the extraction decodes exactly that slice and keeps the text around it. |
| AssistantFacts.EmbeddedAction | src/llm_interface.py:109-130 | For a reply `pre + {…} + post` with no `{` before and no `}` after, the object is the decoding of the braces span. When it decodes, the conversation is the stripped `pre + post` (None if empty). When it does not, the conversation is the whole stripped reply. |
| AssistantFacts.PlainReply | src/llm_interface.py:113-130 | A reply without `{` yields no object and the stripped reply as conversation. |
| Assistant.ParseAction | src/llm_interface.py:141-151 | A name maps to an operation exactly when it is that operation's key in the action map. |
| AssistantFacts.ActionMapIsAllowlist | src/llm_interface.py:141-149 | The action map's keys are exactly the validator's seven allowed actions. |
| Assistant.Bind | src/llm_interface.py:157 | Keyword binding succeeds exactly when every key names a parameter and every parameter without a default is given. Given values land in their parameters' places, and an unknown key raises the unexpected-keyword TypeError. |
| Assistant.FirstFault | src/filesystem_operations.py:90-92 | A non-string path argument always yields an error; the error is a TypeError or a confinement error. |
| Assistant.Run | src/llm_interface.py:157-159 | Only list_directory can raise out of an operation. list_directory and get_file_info never change the tree. |
| Assistant.Dispatch | src/llm_interface.py:156-163 | Nothing escapes the `try`. A run needs an object of parameters, the read-only operations keep the tree, and an error reads "Error executing <action>: …". |
| Assistant.ExecutionError | src/llm_interface.py:160-163 | The caught-exception text starts with "Error executing <action>: ". |
| Assistant.ExecuteAction | src/llm_interface.py:132-163 | An unhashable action escapes as a TypeError, and nothing else does. An unknown name gives "Unknown action: …" and runs nothing. A run implies an allowed name and an object of parameters. Listing and info keep the tree. Every refusal starts with one of the two error texts. |
| AssistantFacts.ParametersDefault | src/llm_interface.py:134 | A missing "parameters" behaves exactly as an empty object. |
| AssistantFacts.MoveRequestBinds | src/filesystem_operations.py:89 | A move request with only source and destination binds `auto_rename=True`. |
| AssistantFacts.MoveFileDispatched | src/llm_interface.py:141-159 | A move_file action object runs `move_file(source, destination, True)` and returns exactly its result and tree. |
| AssistantFacts.MoveDirectoryDispatched | src/llm_interface.py:141-159 | The same for move_directory. |
| AssistantFacts.PathRequestBinds | src/llm_interface.py:157 | A one-path request binds its string to the operation's `path`. |
| AssistantFacts.ListOutsideRootRefused | src/llm_interface.py:156-163 | list_directory outside the root is reported as "Error executing list_directory: Path outside allowed directory: …". |
| AssistantFacts.InfoOutsideRootCaught | src/filesystem_operations.py:222-250 | get_file_info outside the root returns its own "Failed to get file info" dictionary instead. |
| AssistantFacts.UnexpectedKeywordRefused | src/llm_interface.py:156-163 | Parameters naming an unknown keyword are refused with the TypeError and run nothing. |
| AssistantFacts.ExecuteActionWellFormed | src/llm_interface.py:132-163 | Executing any action keeps the tree well formed. |
| Assistant.ResultPart | src/llm_interface.py:189-192 | A refusal or an error dictionary becomes the error line with its text, and a success becomes the done line with its message. |
| Assistant.Answer | src/llm_interface.py:172-211 | Without a non-empty decoded object, the tree is unchanged. A failing model call gives "Error processing request: …". |
| Assistant.ProcessUserInput | src/llm_interface.py:165-211 | The history stays within ten entries and ends with the user's input followed by the answer. The tree changes only when an action was requested, and a failing model call gives the request error. |
| AssistantFacts.ResultIsLastPart | src/llm_interface.py:186-202 | The answer ends with the error line of a refusal or failure, or with the done line of a success. A run's tree is the session's new tree. An escaped exception turns the whole answer into the request error. |
| AssistantFacts.PlainReplyAnswered | src/llm_interface.py:178-205 | A reply without `{` is answered with the stripped reply and changes nothing. |
| AssistantFacts.ProcessWellFormed | src/llm_interface.py:165-211 | A whole request keeps the tree well formed. |
| Json.Or | src/safety_validator.py:143-144 | `a or b` is truthy exactly when one of them is, and is `a` when `a` is truthy. |
| Text.StripPadded | src/llm_interface.py:122 | Whitespace added at either end does not change the stripped text. |
| Text.JoinWithEnds | src/llm_interface.py:202 | A `"\n\n".join` of parts ends with the last part. |

## Left out

- Logging, `_log_security_event` and `get_safety_report` are not modelled. The logging system is not part of this model, and every logger call is treated as a no-op.
- The LLM provider classes, `generate_response` and the interactive CLI are not part of this model. The model's reply is an input `Result<string, string>`, where the error carries the text of the exception the provider raised.
- `json.loads` is a parameter (`Decoder`). It returns the decoded object or nothing. A `{`…`}` span that decodes always decodes to an object, so no other JSON kind needs modelling.
- The listing text and `json.dumps(result, indent=2)` are renderer parameters. Only their position in the answer is modelled, not the icons per item or the JSON layout.
- The icons of the error and done lines are kept exactly as the source text holds them, `âŒ` and `âœ…`. That is UTF-8 read as Latin-1/CP1252.
- File sizes, modification times and the `PermissionError` branch of `contents_count` are not modelled. Files carry only their content, and the info result carries only name, path, kind and child count.
- Symlinks, `..` through symlinks, Windows path semantics, drive letters and NUL characters in paths are left out. Resolution is POSIX `.` and `..` handling on `/`-separated components, with `..` at `/` staying at `/`.
- `Path.glob` is not modelled. bulk_move_files takes, per pattern, the outcome of globbing it when its turn comes. That outcome is either the list of matches or the exception glob raised. Which patterns glob rejects is left to that input: a pattern with no parts ("Unacceptable pattern"), an absolute one ("Non-relative patterns are unsupported"), and, before Python 3.13, "**" inside a part. The reply quotes an unacceptable pattern as `repr` does for a text without quotes or backslashes.
- Each match is its text relative to the root, `str(match.relative_to(root))`. Glob joins a match to the root lexically, so the text may contain `..` and may resolve outside the root.
- `shutil.move` across devices is not modelled.
- Guarantees.MoveDirectoryNoConflict and Guarantees.MoveDirectoryAutoRename: stated only for a destination that is not strictly inside the source. There shutil.move refuses with "Cannot move a directory into itself", as `Tree.ShutilRename` states, after the missing parents were created.
- `int(time.time())` is the parameter `ts`.
- `str.lower` handles only ASCII, KELVIN SIGN and LATIN CAPITAL LETTER I WITH DOT ABOVE. Every other non-ASCII character is kept, which cannot change whether an ASCII pattern or system-directory prefix matches.
- The regular-expression engine is not modelled. The eight patterns are hand-written predicates, and IGNORECASE folding covers ASCII plus the four non-ASCII characters that fold to ASCII letters.
- Exception texts other than the confinement and glob errors are paraphrased. The errno messages omit the quoted paths. The unexpected-keyword TypeError omits the function and keyword names. Passing `self` as a keyword ("got multiple values for argument") is treated as an unknown keyword.
- The `reasoning` field of the action object is only logged by the source and is not modelled.
- `validate_file_path` and `validate_root_path` take an already-resolved path. Whether the root exists is looked up in the same tree model.
- `_execute_action` does not call the safety validator, so the model has no gate between them. `SafetyFacts.NumberedNameRejected` shows what such a gate would refuse.
- Guarantees.BulkAccountingDistinct and Guarantees.BulkLoopDistinct: the count of matched files at the start is stated only for matches that resolve to distinct paths outside the destination, each named by a proper component. Otherwise a file can be counted twice, or moved into the way of a later match. `Guarantees.BulkAccounting` covers every case by counting the matches that are files when their turn comes.
- Tree.OsRename: modelled only onto a target that does not exist. rename_file checks `new_path.exists()` first, so os.rename's replacement of an existing entry is never reached from it.
- JSON numbers are integers (`JNum(n: int)`). Floats are not modelled, so neither the truthiness of `0.0` nor the `str()` of a float appears.
- Guarantees.MoveFileAutoRename and Guarantees.MoveDirectoryAutoRename: stated only when some counter up to 9999 is free. The timestamp fallback is unchecked in the source and may land on an existing entry; `Naming.SafeName` states that fallback.

=== FILE: assistant.dfy ===
/** FilesystemLLM without the model provider: the 10-entry conversation
    window, the extraction of an action object from a reply, the dispatch
    of an action to the filesystem operations, and the assembly of the
    answer shown to the user. */
module Assistant {
  import opened Results
  import opened Text
  import opened Errors
  import opened Json
  import opened Paths
  import opened Tree
  import Ops = FsOps
  import Safety

  // ---------------------------------------------------------------------
  // Conversation history

  datatype Entry = Entry(role: string, content: string)

  /** How many messages `_add_to_history` keeps. */
  const HistoryWindow: nat := 10

  /** The last `HistoryWindow` entries of `h` (all of them when fewer). */
  function Window(h: seq<Entry>): seq<Entry>
  {
    if |h| <= HistoryWindow then h else h[|h| - HistoryWindow..]
  }

  /** `_add_to_history(role, content)`: append, then keep the last ten. */
  function AddToHistory(history: seq<Entry>, e: Entry): (r: seq<Entry>)
    ensures |r| == if |history| < HistoryWindow then |history| + 1 else HistoryWindow
    ensures r[|r| - 1] == e
    ensures r == (history + [e])[|history| + 1 - |r|..]
  {
    var h := history + [e];
    if |h| > HistoryWindow then h[|h| - HistoryWindow..] else h
  }

  /** Adding several entries, one call at a time. */
  function AddAll(history: seq<Entry>, es: seq<Entry>): seq<Entry>
    decreases |es|
  {
    if es == [] then history else AddAll(AddToHistory(history, es[0]), es[1..])
  }

  // ---------------------------------------------------------------------
  // Extracting the action object

  /** The text that `json.loads` is given decodes to an object or fails;
      the decoder itself is a parameter. */
  type Decoder = string -> Option<map<string, Json>>

  /** `s[i..j]` (inclusive) runs from the first '{' to the last '}'. */
  ghost predicate ActionSpan(s: string, i: nat, j: nat)
  {
    && i < j < |s|
    && s[i] == '{' && s[j] == '}'
    && '{' !in s[..i] && '}' !in s[j + 1..]
  }

  /** `x if x else None` for a string. */
  function NonEmpty(s: string): (r: Option<string>)
    ensures r.Some? <==> s != ""
    ensures r.Some? ==> r.value == s
  {
    if s == "" then None else Some(s)
  }

  /** Both searches agree with any span that exists. */
  lemma SpanIsFound(s: string, i: nat, j: nat)
    requires ActionSpan(s, i, j)
    ensures Find(s, '{') == i && RFind(s, '}') == j
  {
    FindIs(s, '{', i);
    RFindIs(s, '}', j);
  }

  /** The span the two searches find, when they find one. */
  predicate Located(s: string)
  {
    var start, end := Find(s, '{'), RFind(s, '}');
    start != -1 && end != -1 && end > start
  }

  /** Some span of `s` decodes. */
  ghost predicate SomeSpanDecodes(s: string, decode: Decoder)
  {
    exists i: nat, j: nat :: ActionSpan(s, i, j) && decode(s[i..j + 1]).Some?
  }

  /** `r` is the object decoded from the span `s[i..j]` and the stripped
      text around it. */
  ghost predicate ParsedAt(s: string, decode: Decoder, i: nat, j: nat,
                           r: (Option<map<string, Json>>, Option<string>))
  {
    && ActionSpan(s, i, j)
    && r.0 == decode(s[i..j + 1])
    && r.1 == Around(s, i, j)
  }

  /** The stripped text before and after `s[i..j]`, or None if it is empty. */
  function Around(s: string, i: nat, j: nat): Option<string>
    requires i < j < |s|
  {
    NonEmpty(Strip(s[..i] + s[j + 1..]))
  }

  /** The object and the conversation for a located span. */
  function Extract(s: string, decode: Decoder): (Option<map<string, Json>>, Option<string>)
    requires Located(s)
  {
    var start, end := Find(s, '{'), RFind(s, '}');
    (decode(s[start..end + 1]), Around(s, start, end))
  }

  /** A located span that decodes is a span that decodes. */
  lemma LocatedSpan(s: string, decode: Decoder)
    requires Located(s) && Extract(s, decode).0.Some?
    ensures SomeSpanDecodes(s, decode)
    ensures exists i: nat, j: nat :: ParsedAt(s, decode, i, j, Extract(s, decode))
  {
    var i: nat, j: nat := Find(s, '{'), RFind(s, '}');
    LocatedIsSpan(s);
    ExtractAt(s, decode, i, j);
    SpanDecodes(s, decode, i, j);
    assert ParsedAt(s, decode, i, j, Extract(s, decode));
  }

  /** The searches' results form the span. */
  lemma LocatedIsSpan(s: string)
    requires Located(s)
    ensures ActionSpan(s, Find(s, '{'), RFind(s, '}'))
  {
  }

  /** What `Extract` returns at the span. */
  lemma ExtractAt(s: string, decode: Decoder, i: nat, j: nat)
    requires ActionSpan(s, i, j)
    ensures Located(s)
    ensures Extract(s, decode) == (decode(s[i..j + 1]), Around(s, i, j))
  {
    SpanIsFound(s, i, j);
  }

  /** A span that decodes witnesses `SomeSpanDecodes`. */
  lemma SpanDecodes(s: string, decode: Decoder, i: nat, j: nat)
    requires ActionSpan(s, i, j) && decode(s[i..j + 1]).Some?
    ensures SomeSpanDecodes(s, decode)
  {
  }

  /** Without a located span that decodes, no span decodes. */
  lemma NoSpanDecodes(s: string, decode: Decoder)
    requires !(Located(s) && Extract(s, decode).0.Some?)
    ensures !SomeSpanDecodes(s, decode)
  {
    forall i: nat, j: nat | ActionSpan(s, i, j)
      ensures decode(s[i..j + 1]).None?
    {
      ExtractAt(s, decode, i, j);
    }
  }

  /** `_parse_llm_response(response)`: the decoded action object, if any,
      and the conversation text around it. */
  function ParseResponse(response: string, decode: Decoder): (r: (Option<map<string, Json>>, Option<string>))
    ensures r.0.Some? <==> SomeSpanDecodes(Strip(response), decode)
    ensures r.0.Some? ==> exists i: nat, j: nat :: ParsedAt(Strip(response), decode, i, j, r)
    ensures r.0.None? ==> r.1 == Some(Strip(response))
  {
    var s := Strip(response);
    if Located(s) && Extract(s, decode).0.Some? then
      LocatedSpan(s, decode);
      Extract(s, decode)
    else
      NoSpanDecodes(s, decode);
      (None, Some(s))
  }

  // ---------------------------------------------------------------------
  // Dispatch

  /** The names `_execute_action` maps to an operation. */
  datatype Action =
    | ListDirectory
    | MoveFile
    | MoveDirectory
    | RenameFile
    | CreateDirectory
    | RemoveEmptyDirectory
    | GetFileInfo

  function ActionName(a: Action): string
  {
    match a
    case ListDirectory => "list_directory"
    case MoveFile => "move_file"
    case MoveDirectory => "move_directory"
    case RenameFile => "rename_file"
    case CreateDirectory => "create_directory"
    case RemoveEmptyDirectory => "remove_empty_directory"
    case GetFileInfo => "get_file_info"
  }

  /** Looking a name up in `action_map`. */
  function ParseAction(s: string): (r: Option<Action>)
    ensures r.Some? ==> ActionName(r.value) == s
    ensures forall a: Action :: ActionName(a) == s ==> r == Some(a)
  {
    if s == "list_directory" then Some(ListDirectory)
    else if s == "move_file" then Some(MoveFile)
    else if s == "move_directory" then Some(MoveDirectory)
    else if s == "rename_file" then Some(RenameFile)
    else if s == "create_directory" then Some(CreateDirectory)
    else if s == "remove_empty_directory" then Some(RemoveEmptyDirectory)
    else if s == "get_file_info" then Some(GetFileInfo)
    else None
  }

  /** A parameter of an operation, with its default value if it has one. */
  datatype Param = Param(name: string, default: Option<Json>)

  /** The keyword parameters of each operation, in declaration order. */
  function Signature(a: Action): seq<Param>
  {
    match a
    case ListDirectory => [Param("path", Some(JStr("")))]
    case MoveFile => [Param("source", None), Param("destination", None), Param("auto_rename", Some(JBool(true)))]
    case MoveDirectory => [Param("source", None), Param("destination", None), Param("auto_rename", Some(JBool(true)))]
    case RenameFile => [Param("old_name", None), Param("new_name", None)]
    case CreateDirectory => [Param("path", None)]
    case RemoveEmptyDirectory => [Param("path", None)]
    case GetFileInfo => [Param("path", None)]
  }

  /** The names of the required parameters absent from `kwargs`, in order. */
  function Missing(ps: seq<Param>, kwargs: map<string, Json>): (r: seq<string>)
    ensures r == [] <==> forall i | 0 <= i < |ps| :: ps[i].default.Some? || ps[i].name in kwargs
    decreases |ps|
  {
    if ps == [] then []
    else (if ps[0].default.None? && ps[0].name !in kwargs then [ps[0].name] else [])
         + Missing(ps[1..], kwargs)
  }

  /** The argument values: given ones, else the defaults. */
  function Fill(ps: seq<Param>, kwargs: map<string, Json>): (r: seq<Json>)
    requires forall i | 0 <= i < |ps| :: ps[i].default.Some? || ps[i].name in kwargs
    ensures |r| == |ps|
    ensures forall i | 0 <= i < |ps| ::
      r[i] == if ps[i].name in kwargs then kwargs[ps[i].name] else ps[i].default.value
    decreases |ps|
  {
    if ps == [] then []
    else [if ps[0].name in kwargs then kwargs[ps[0].name] else ps[0].default.value]
         + Fill(ps[1..], kwargs)
  }

  /** The names an operation accepts as keywords. */
  function Names(ps: seq<Param>): set<string>
  {
    set i | 0 <= i < |ps| :: ps[i].name
  }

  /** Binding `**kwargs` to an operation's parameters: an unknown keyword
      is reported before a missing argument. */
  function Bind(a: Action, kwargs: map<string, Json>): (r: Result<seq<Json>, Exc>)
    ensures r.Ok? <==>
      && kwargs.Keys <= Names(Signature(a))
      && forall i | 0 <= i < |Signature(a)| :: Signature(a)[i].default.Some? || Signature(a)[i].name in kwargs
    ensures r.Ok? ==> |r.value| == |Signature(a)|
    ensures r.Ok? ==> forall i | 0 <= i < |Signature(a)| :: Signature(a)[i].name in kwargs ==>
      r.value[i] == kwargs[Signature(a)[i].name]
    ensures !(kwargs.Keys <= Names(Signature(a))) ==>
      r == Err(TypeFailure(UnexpectedKeywords(kwargs.Keys - Names(Signature(a)))))
  {
    var ps := Signature(a);
    var extra := kwargs.Keys - Names(ps);
    assert extra == {} <==> kwargs.Keys <= Names(ps) by {
      if extra == {} {
        forall k | k in kwargs.Keys
          ensures k in Names(ps)
        {
          assert k !in extra;
        }
      }
    }
    if extra != {} then Err(TypeFailure(UnexpectedKeywords(extra)))
    else
      var missing := Missing(ps, kwargs);
      if missing != [] then Err(TypeFailure(MissingArguments(missing)))
      else Ok(Fill(ps, kwargs))
  }

  /** What calling `Path(v)` and `_safe_path` on each argument in turn
      raises first, if anything. */
  function FirstFault(root: Path, args: seq<Json>): (r: Option<Exc>)
    requires Canonical(root)
    ensures (exists i | 0 <= i < |args| :: !args[i].JStr?) ==> r.Some?
    ensures r.Some? ==> r.value == TypeFailure(NotAPath) || r.value.OutsideRoot?
    decreases |args|
  {
    if args == [] then None
    else if !args[0].JStr? then Some(TypeFailure(NotAPath))
    else match SafePath(root, args[0].s)
      case Err(e) => Some(e)
      case Ok(_) =>
        assert forall i | 1 <= i < |args| :: args[1..][i - 1] == args[i];
        FirstFault(root, args[1..])
  }

  /** The error dictionary an operation's own `except` clause returns. */
  function Caught(failed: string, e: Exc): Ops.Outcome
  {
    Ops.Failure(Ops.Raised(e), failed + Describe(e))
  }

  /** Calling the operation with bound arguments. Every operation except
      list_directory resolves its paths inside its `try`, so a non-string
      argument becomes its own error dictionary; list_directory raises. */
  function Run(fs: FS, root: Path, ts: nat, a: Action, args: seq<Json>): (r: Result<(Ops.Outcome, FS), Exc>)
    requires Canonical(root) && |args| == |Signature(a)|
    ensures r.Err? ==> a == ListDirectory
    ensures a in {ListDirectory, GetFileInfo} && r.Ok? ==> r.value.1 == fs
  {
    match a
    case ListDirectory =>
      if !args[0].JStr? then Err(TypeFailure(NotAPath))
      else (match Ops.ListDirectory(fs, root, args[0].s)
            case Err(e) => Err(e)
            case Ok(o) => Ok((o, fs)))
    case MoveFile =>
      if args[0].JStr? && args[1].JStr? then
        Ok(Ops.MoveFile(fs, root, ts, args[0].s, args[1].s, Truthy(args[2])))
      else Ok((Caught("Failed to move file: ", FirstFault(root, args[..2]).value), fs))
    case MoveDirectory =>
      if args[0].JStr? && args[1].JStr? then
        Ok(Ops.MoveDirectory(fs, root, ts, args[0].s, args[1].s, Truthy(args[2])))
      else Ok((Caught("Failed to move directory: ", FirstFault(root, args[..2]).value), fs))
    case RenameFile =>
      if args[0].JStr? && args[1].JStr? then Ok(Ops.RenameFile(fs, root, args[0].s, args[1].s))
      else Ok((Caught("Failed to rename: ", FirstFault(root, args).value), fs))
    case CreateDirectory =>
      if args[0].JStr? then Ok(Ops.CreateDirectory(fs, root, args[0].s))
      else Ok((Caught("Failed to create directory: ", TypeFailure(NotAPath)), fs))
    case RemoveEmptyDirectory =>
      if args[0].JStr? then Ok(Ops.RemoveEmptyDirectory(fs, root, args[0].s))
      else Ok((Caught("Failed to remove directory: ", TypeFailure(NotAPath)), fs))
    case GetFileInfo =>
      if args[0].JStr? then Ok((Ops.GetFileInfo(fs, root, args[0].s), fs))
      else Ok((Caught("Failed to get file info: ", TypeFailure(NotAPath)), fs))
  }

  /** What `_execute_action` produces: the operation's own dictionary and
      the tree after it, an error dictionary built by `_execute_action`
      itself, or an exception that escapes it. */
  datatype Executed =
    | Ran(outcome: Ops.Outcome, fs: FS)
    | Refused(error: string)
    | Crashed(exc: Exc)

  /** `action_data.get("parameters", {})` */
  function ParametersOf(data: map<string, Json>): Json
  {
    if "parameters" in data then data["parameters"] else JObj(map[])
  }

  /** The `try` block of `_execute_action` for a known action `a`. */
  function Dispatch(fs: FS, root: Path, ts: nat, a: Action, parameters: Json): (r: Executed)
    requires Canonical(root)
    ensures !r.Crashed?
    ensures r.Ran? ==> parameters.JObj?
    ensures r.Ran? && a in {ListDirectory, GetFileInfo} ==> r.fs == fs
    ensures r.Refused? ==> StartsWith(r.error, "Error executing " + ActionName(a) + ": ")
  {
    if !parameters.JObj? then Refused(ExecutionError(a, TypeFailure(NotAMapping)))
    else match Bind(a, parameters.fields)
      case Err(e) => Refused(ExecutionError(a, e))
      case Ok(args) =>
        match Run(fs, root, ts, a, args)
        case Err(e) => Refused(ExecutionError(a, e))
        case Ok(res) => Ran(res.0, res.1)
  }

  /** The error dictionary `_execute_action` builds from an exception. */
  function ExecutionError(a: Action, e: Exc): (r: string)
    ensures StartsWith(r, "Error executing " + ActionName(a) + ": ")
  {
    var p := "Error executing " + ActionName(a) + ": ";
    assert (p + Describe(e))[..|p|] == p;
    p + Describe(e)
  }

  /** `_execute_action(action_data)`. The membership test in `action_map`
      runs before the `try`, so an unhashable action escapes. */
  function ExecuteAction(fs: FS, root: Path, ts: nat, data: map<string, Json>): (r: Executed)
    requires Canonical(root)
    ensures r.Crashed? <==> !Hashable(Get(data, "action"))
    ensures r.Crashed? ==> r.exc == TypeFailure(Unhashable)
    ensures var action := Get(data, "action");
      Hashable(action) && !(action.JStr? && action.s in Safety.AllowedActions) ==>
        r == Refused("Unknown action: " + Show(action))
    ensures r.Ran? ==>
      && Get(data, "action").JStr? && Get(data, "action").s in Safety.AllowedActions
      && ParametersOf(data).JObj?
    ensures r.Ran? && Get(data, "action") in {JStr("list_directory"), JStr("get_file_info")} ==> r.fs == fs
    ensures r.Refused? ==> StartsWith(r.error, "Unknown action: ") || StartsWith(r.error, "Error executing ")
  {
    var action := Get(data, "action");
    if !Hashable(action) then Crashed(TypeFailure(Unhashable))
    else if !action.JStr? || ParseAction(action.s).None? then
      assert action.JStr? ==> action.s !in Safety.AllowedActions;
      Refused("Unknown action: " + Show(action))
    else
      var a := ParseAction(action.s).value;
      var r := Dispatch(fs, root, ts, a, ParametersOf(data));
      assert r.Refused? ==> StartsWith(r.error, "Error executing ") by {
        if r.Refused? {
          var p := "Error executing " + ActionName(a) + ": ";
          assert r.error[..|p|] == p;
          assert p[..|"Error executing "|] == "Error executing ";
        }
      }
      r
  }

  // ---------------------------------------------------------------------
  // Answer assembly

  /** The two icons, as the characters the source text holds: "❌" and
      "✅" as they read after a UTF-8/cp1252 mix-up. */
  const ErrorMark: string := "\U{E2}\U{152} Error: "
  const DoneMark: string := "\U{E2}\U{153}\U{2026} "

  /** The separator between the parts of an answer. */
  const PartSeparator: string := "\n\n"

  /** The per-item lines of a listing and `json.dumps(result, indent=2)`
      are rendered by functions given as parameters. */
  type ListingRenderer = set<Ops.Item> -> string
  type ResultRenderer = Ops.Outcome -> string

  /** The answer part for an action that did not crash. */
  function ResultPart(ex: Executed, listing: ListingRenderer, dumps: ResultRenderer): (r: string)
    requires !ex.Crashed?
    ensures ex.Refused? ==> r == ErrorMark + ex.error
    ensures ex.Ran? && ex.outcome.Failure? ==> r == ErrorMark + ex.outcome.error
    ensures ex.Ran? && ex.outcome.Success? ==> r == DoneMark + ex.outcome.message
  {
    match ex
    case Refused(e) => ErrorMark + e
    case Ran(o, _) =>
      match o
      case Failure(_, e) => ErrorMark + e
      case Success(m, _) => DoneMark + m
      case Listing(items) => "Directory contents:\n" + listing(items)
      case Info(_, _, _, _) => "Result: " + dumps(o)
  }

  /** The tree and the conversation window between two requests. */
  datatype Session = Session(fs: FS, history: seq<Entry>)

  /** The reply contains an object that is not empty, so an action runs. */
  predicate Requested(reply: Result<string, string>, decode: Decoder)
  {
    reply.Ok? && ParseResponse(reply.value, decode).0.Some?
    && ParseResponse(reply.value, decode).0.value != map[]
  }

  /** The conversation part, when it is a non-empty string. */
  function ConversationParts(c: Option<string>): seq<string>
  {
    if c.Some? && c.value != "" then [c.value] else []
  }

  /** The answer `process_user_input` gives when an exception reaches it. */
  function RequestError(msg: string): string
  {
    "Error processing request: " + msg
  }

  /** The answer and the tree for a parsed reply. */
  function Respond(fs: FS, root: Path, ts: nat, parsed: (Option<map<string, Json>>, Option<string>),
                   listing: ListingRenderer, dumps: ResultRenderer): (r: (string, FS))
    requires Canonical(root)
    ensures parsed.0.None? || parsed.0.value == map[] ==> r.1 == fs
  {
    var parts := ConversationParts(parsed.1);
    if parsed.0.None? || parsed.0.value == map[] then (JoinWith(PartSeparator, parts), fs)
    else
      var ex := ExecuteAction(fs, root, ts, parsed.0.value);
      if ex.Crashed? then (RequestError(Describe(ex.exc)), fs)
      else (JoinWith(PartSeparator, parts + [ResultPart(ex, listing, dumps)]), if ex.Ran? then ex.fs else fs)
  }

  /** The answer and the tree for a model reply, before the history is updated. */
  function Answer(fs: FS, root: Path, ts: nat, reply: Result<string, string>, decode: Decoder,
                  listing: ListingRenderer, dumps: ResultRenderer): (r: (string, FS))
    requires Canonical(root)
    ensures !Requested(reply, decode) ==> r.1 == fs
    ensures reply.Err? ==> r.0 == RequestError(reply.error)
  {
    match reply
    case Err(msg) => (RequestError(msg), fs)
    case Ok(text) => Respond(fs, root, ts, ParseResponse(text, decode), listing, dumps)
  }

  /** `process_user_input(user_input)` with the model's reply (or the text of
      the exception its provider raised) given as `reply`. */
  function ProcessUserInput(session: Session, root: Path, ts: nat, userInput: string,
                            reply: Result<string, string>, decode: Decoder,
                            listing: ListingRenderer, dumps: ResultRenderer): (r: (string, Session))
    requires Canonical(root)
    ensures |r.1.history| <= HistoryWindow
    ensures |r.1.history| >= 2
    ensures r.1.history[|r.1.history| - 2..] == [Entry("user", userInput), Entry("assistant", r.0)]
    ensures !Requested(reply, decode) ==> r.1.fs == session.fs
    ensures reply.Err? ==> r.0 == RequestError(reply.error)
  {
    var h := AddToHistory(session.history, Entry("user", userInput));
    var (text, fs') := Answer(session.fs, root, ts, reply, decode, listing, dumps);
    var h' := AddToHistory(h, Entry("assistant", text));
    assert h'[|h'| - 2] == h[|h| - 1];
    (text, Session(fs', h'))
  }
}

=== FILE: assistant_facts.dfy ===
/** What the assistant layer guarantees: the history window, the action
    extraction, the dispatch table and the answer. */
module AssistantFacts {
  import opened Results
  import opened Text
  import opened Errors
  import opened Json
  import opened Paths
  import opened Tree
  import Ops = FsOps
  import Guarantees
  import Safety
  import opened Assistant

  // ---------------------------------------------------------------------
  // History

  /** Dropping entries from the front changes no window that still has ten. */
  lemma WindowDrop(z: seq<Entry>, d: nat)
    requires d <= |z| && (d == 0 || |z| - d >= HistoryWindow)
    ensures Window(z[d..]) == Window(z)
  {
  }

  /** One call, then the window over what follows. */
  lemma AddOneWindow(history: seq<Entry>, e: Entry, rest: seq<Entry>)
    ensures Window(AddToHistory(history, e) + rest) == Window(history + ([e] + rest))
  {
    var x := history + [e];
    var h1 := AddToHistory(history, e);
    var d := |x| - |h1|;
    assert h1 + rest == (x + rest)[d..];
    assert x + rest == history + ([e] + rest);
    WindowDrop(x + rest, d);
  }

  /** Any number of `_add_to_history` calls leave exactly the last ten
      entries of everything added, in order. */
  lemma {:induction false} AddAllWindow(history: seq<Entry>, es: seq<Entry>)
    requires |history| <= HistoryWindow
    ensures AddAll(history, es) == Window(history + es)
    decreases |es|
  {
    if es == [] {
      assert history + es == history;
    } else {
      AddAllWindow(AddToHistory(history, es[0]), es[1..]);
      AddOneWindow(history, es[0], es[1..]);
      assert [es[0]] + es[1..] == es;
    }
  }

  // ---------------------------------------------------------------------
  // Extraction

  /** Stripping keeps every non-space character. */
  lemma StrippedCovers(s: string, full: string, i: nat, x: nat)
    requires StrippedAt(s, full, i) && x < |full| && !IsSpace(full[x])
    ensures i <= x < i + |s|
  {
  }

  /** A slice of `pre + span + post` that covers `span`. */
  lemma SliceAround(pre: string, span: string, post: string, i: nat, k: nat)
    requires i <= |pre| && k <= |post|
    ensures (pre + span + post)[i..|pre| + |span| + k] == pre[i..] + span + post[..k]
  {
  }

  /** The parts of `pre + span + post` outside a slice are parts of `pre`
      and `post`. */
  lemma OutsideSlice(pre: string, span: string, post: string, i: nat, k: nat)
    requires i <= |pre| && k <= |post|
    requires forall j | 0 <= j < i :: IsSpace((pre + span + post)[j])
    requires forall j | |pre| + |span| + k <= j < |pre + span + post| :: IsSpace((pre + span + post)[j])
    ensures forall j | 0 <= j < i :: IsSpace(pre[j])
    ensures forall j | k <= j < |post| :: IsSpace(post[j])
  {
    var full := pre + span + post;
    forall j | 0 <= j < i
      ensures IsSpace(pre[j])
    {
      assert full[j] == pre[j];
    }
    forall j | k <= j < |post|
      ensures IsSpace(post[j])
    {
      assert full[|pre| + |span| + j] == post[j];
    }
  }

  /** Where the stripped text sits inside `pre + span + post` when `span`
      starts and ends with a non-space. */
  lemma StripAround(pre: string, span: string, post: string) returns (i: nat, k: nat)
    requires |span| >= 1 && !IsSpace(span[0]) && !IsSpace(span[|span| - 1])
    ensures i <= |pre| && k <= |post|
    ensures Strip(pre + span + post) == pre[i..] + span + post[..k]
    ensures forall j | 0 <= j < i :: IsSpace(pre[j])
    ensures forall j | k <= j < |post| :: IsSpace(post[j])
  {
    var full := pre + span + post;
    var s := Strip(full);
    var i0: nat :| StrippedAt(s, full, i0);
    assert full[|pre|] == span[0];
    assert full[|pre| + |span| - 1] == span[|span| - 1];
    StrippedCovers(s, full, i0, |pre|);
    StrippedCovers(s, full, i0, |pre| + |span| - 1);
    i, k := i0, i0 + |s| - |pre| - |span|;
    SliceAround(pre, span, post, i, k);
    OutsideSlice(pre, span, post, i, k);
  }

  /** The braces of `a + span + b` that the parser looks for. */
  lemma SpanOf(a: string, span: string, b: string)
    requires '{' !in a && '}' !in b
    requires |span| >= 2 && span[0] == '{' && span[|span| - 1] == '}'
    ensures ActionSpan(a + span + b, |a|, |a| + |span| - 1)
    ensures (a + span + b)[|a|..|a| + |span|] == span
    ensures (a + span + b)[..|a|] + (a + span + b)[|a| + |span|..] == a + b
  {
    var s := a + span + b;
    assert s[..|a|] == a;
    assert s[|a| + |span|..] == b;
  }

  /** Cutting two strings at `i` and `k` and regrouping. */
  lemma Resplit(pre: string, post: string, i: nat, k: nat)
    requires i <= |pre| && k <= |post|
    ensures pre + post == pre[..i] + (pre[i..] + post[..k]) + post[k..]
  {
    assert pre == pre[..i] + pre[i..];
    assert post == post[..k] + post[k..];
  }

  /** Parsing a reply whose stripped text is `a + span + b`. */
  lemma ParseFramed(response: string, a: string, span: string, b: string, decode: Decoder)
    requires Strip(response) == a + span + b
    requires '{' !in a && '}' !in b
    requires |span| >= 2 && span[0] == '{' && span[|span| - 1] == '}'
    ensures ParseResponse(response, decode).0 == decode(span)
    ensures decode(span).Some? ==> ParseResponse(response, decode).1 == NonEmpty(Strip(a + b))
    ensures decode(span).None? ==> ParseResponse(response, decode).1 == Some(Strip(response))
  {
    var s := a + span + b;
    SpanOf(a, span, b);
    ExtractAt(s, decode, |a|, |a| + |span| - 1);
  }

  /** A slice holds no character its string lacks. */
  lemma SliceLacks(t: string, c: char, i: nat, k: nat)
    requires i <= k <= |t| && c !in t
    ensures c !in t[i..k]
  {
    assert forall j | 0 <= j < k - i :: t[i..k][j] == t[i + j];
  }

  /** An object embedded in a reply, with no '{' before it and no '}' after
      it, is what the parser decodes; when it decodes, the conversation is
      the text around it, stripped. */
  lemma EmbeddedAction(pre: string, span: string, post: string, decode: Decoder)
    requires '{' !in pre && '}' !in post
    requires |span| >= 2 && span[0] == '{' && span[|span| - 1] == '}'
    ensures ParseResponse(pre + span + post, decode).0 == decode(span)
    ensures decode(span).Some? ==> ParseResponse(pre + span + post, decode).1 == NonEmpty(Strip(pre + post))
    ensures decode(span).None? ==> ParseResponse(pre + span + post, decode).1 == Some(Strip(pre + span + post))
  {
    var i, k := StripAround(pre, span, post);
    SliceLacks(pre, '{', i, |pre|);
    SliceLacks(post, '}', 0, k);
    assert pre[i..|pre|] == pre[i..] && post[0..k] == post[..k];
    ParseFramed(pre + span + post, pre[i..], span, post[..k], decode);
    Resplit(pre, post, i, k);
    StripPadded(pre[..i], pre[i..] + post[..k], post[k..]);
  }

  /** A reply with no '{' is all conversation. */
  lemma PlainReply(response: string, decode: Decoder)
    requires '{' !in response
    ensures ParseResponse(response, decode) == (None, Some(Strip(response)))
  {
    var s := Strip(response);
    var i: nat :| StrippedAt(s, response, i);
    assert forall j | 0 <= j < |s| :: s[j] == response[i + j];
    assert !Located(s);
  }

  // ---------------------------------------------------------------------
  // Dispatch

  /** The keys of `action_map` are exactly the names `validate_action`
      allows. */
  lemma ActionMapIsAllowlist(s: string)
    ensures ParseAction(s).Some? <==> s in Safety.AllowedActions
  {
  }

  /** A missing "parameters" entry behaves as an empty object. */
  lemma ParametersDefault(fs: FS, root: Path, ts: nat, data: map<string, Json>)
    requires Canonical(root) && "parameters" !in data
    ensures ExecuteAction(fs, root, ts, data) == ExecuteAction(fs, root, ts, data["parameters" := JObj(map[])])
  {
    var data' := data["parameters" := JObj(map[])];
    assert Get(data', "action") == Get(data, "action");
    assert ParametersOf(data') == ParametersOf(data);
  }

  /** The action object an assistant is asked to emit for a move. */
  function MoveRequest(name: string, source: string, destination: string): map<string, Json>
  {
    map["action" := JStr(name),
        "parameters" := JObj(map["source" := JStr(source), "destination" := JStr(destination)])]
  }

  /** The two-argument move request binds its two strings and the
      default `auto_rename=True`. */
  lemma MoveRequestBinds(a: Action, source: string, destination: string)
    requires a in {MoveFile, MoveDirectory}
    ensures Bind(a, map["source" := JStr(source), "destination" := JStr(destination)])
         == Ok([JStr(source), JStr(destination), JBool(true)])
  {
    var kw := map["source" := JStr(source), "destination" := JStr(destination)];
    assert kw.Keys <= Names(Signature(a)) by {
      assert Signature(a)[0].name == "source" && Signature(a)[1].name == "destination";
    }
    var args := Fill(Signature(a), kw);
    assert args == [JStr(source), JStr(destination), JBool(true)];
  }

  /** A two-argument move request reaches the operation with its strings
      and auto-rename on. */
  lemma MoveRequestDispatched(fs: FS, root: Path, ts: nat, a: Action, source: string, destination: string)
    requires Canonical(root) && a in {MoveFile, MoveDirectory}
    ensures ExecuteAction(fs, root, ts, MoveRequest(ActionName(a), source, destination))
         == Dispatch(fs, root, ts, a, JObj(map["source" := JStr(source), "destination" := JStr(destination)]))
    ensures Bind(a, map["source" := JStr(source), "destination" := JStr(destination)])
         == Ok([JStr(source), JStr(destination), JBool(true)])
  {
    var data := MoveRequest(ActionName(a), source, destination);
    assert Get(data, "action") == JStr(ActionName(a));
    assert ParseAction(ActionName(a)) == Some(a);
    MoveRequestBinds(a, source, destination);
  }

  /** `{"action": "move_file", "parameters": {"source": s, "destination": d}}`
      runs move_file(s, d) with auto-rename on, and nothing else. */
  lemma MoveFileDispatched(fs: FS, root: Path, ts: nat, source: string, destination: string)
    requires Canonical(root)
    ensures var res := Ops.MoveFile(fs, root, ts, source, destination, true);
      ExecuteAction(fs, root, ts, MoveRequest("move_file", source, destination)) == Ran(res.0, res.1)
  {
    MoveRequestDispatched(fs, root, ts, MoveFile, source, destination);
    var args := [JStr(source), JStr(destination), JBool(true)];
    assert Truthy(args[2]);
    var res := Ops.MoveFile(fs, root, ts, source, destination, true);
    assert Run(fs, root, ts, MoveFile, args) == Ok(res);
  }

  /** The same for move_directory. */
  lemma MoveDirectoryDispatched(fs: FS, root: Path, ts: nat, source: string, destination: string)
    requires Canonical(root)
    ensures var res := Ops.MoveDirectory(fs, root, ts, source, destination, true);
      ExecuteAction(fs, root, ts, MoveRequest("move_directory", source, destination)) == Ran(res.0, res.1)
  {
    MoveRequestDispatched(fs, root, ts, MoveDirectory, source, destination);
    var args := [JStr(source), JStr(destination), JBool(true)];
    assert Truthy(args[2]);
    var res := Ops.MoveDirectory(fs, root, ts, source, destination, true);
    assert Run(fs, root, ts, MoveDirectory, args) == Ok(res);
  }

  /** A one-path request. */
  function PathRequest(name: string, path: string): map<string, Json>
  {
    map["action" := JStr(name), "parameters" := JObj(map["path" := JStr(path)])]
  }

  /** A one-path request binds its string. */
  lemma PathRequestBinds(a: Action, path: string)
    requires a in {ListDirectory, CreateDirectory, RemoveEmptyDirectory, GetFileInfo}
    ensures Bind(a, map["path" := JStr(path)]) == Ok([JStr(path)])
  {
    var kw := map["path" := JStr(path)];
    assert "path" in Names(Signature(a)) by {
      assert Signature(a)[0].name == "path";
    }
    assert kw.Keys == {"path"};
    var bound := Bind(a, kw);
    assert bound.Ok?;
    assert Signature(a)[0].name in kw;
    assert bound.value[0] == JStr(path);
    assert bound.value == [JStr(path)];
  }

  /** A one-path request reaches the operation with its string. */
  lemma PathRequestDispatched(fs: FS, root: Path, ts: nat, a: Action, path: string)
    requires Canonical(root)
    requires a in {ListDirectory, CreateDirectory, RemoveEmptyDirectory, GetFileInfo}
    ensures ExecuteAction(fs, root, ts, PathRequest(ActionName(a), path))
         == Dispatch(fs, root, ts, a, JObj(map["path" := JStr(path)]))
    ensures Bind(a, map["path" := JStr(path)]) == Ok([JStr(path)])
  {
    var data := PathRequest(ActionName(a), path);
    assert Get(data, "action") == JStr(ActionName(a));
    assert ParseAction(ActionName(a)) == Some(a);
    PathRequestBinds(a, path);
  }

  /** list_directory resolves its path outside its `try`: a path outside
      the root surfaces as "Error executing list_directory: ...". */
  lemma ListOutsideRootRefused(fs: FS, root: Path, ts: nat, path: string)
    requires Canonical(root) && SafePath(root, path).Err?
    ensures ExecuteAction(fs, root, ts, PathRequest("list_directory", path))
         == Refused(ExecutionError(ListDirectory, OutsideRoot(path)))
  {
    PathRequestDispatched(fs, root, ts, ListDirectory, path);
    assert Ops.ListDirectory(fs, root, path) == Err(OutsideRoot(path));
  }

  /** get_file_info catches the same error itself and reports it in its own
      words, without touching the tree. */
  lemma InfoOutsideRootCaught(fs: FS, root: Path, ts: nat, path: string)
    requires Canonical(root) && SafePath(root, path).Err?
    ensures ExecuteAction(fs, root, ts, PathRequest("get_file_info", path))
         == Ran(Ops.Failure(Ops.Raised(OutsideRoot(path)), "Failed to get file info: " + Describe(OutsideRoot(path))), fs)
  {
    PathRequestDispatched(fs, root, ts, GetFileInfo, path);
  }

  /** A keyword the operation does not take is refused before anything runs. */
  lemma UnexpectedKeywordRefused(fs: FS, root: Path, ts: nat, data: map<string, Json>, a: Action)
    requires Canonical(root)
    requires Get(data, "action") == JStr(ActionName(a))
    requires ParametersOf(data).JObj?
    requires !(ParametersOf(data).fields.Keys <= Names(Signature(a)))
    ensures ExecuteAction(fs, root, ts, data) == Refused(ExecutionError(a,
      TypeFailure(UnexpectedKeywords(ParametersOf(data).fields.Keys - Names(Signature(a))))))
  {
    assert ParseAction(ActionName(a)) == Some(a);
  }

  /** Bound arguments of the right count keep the tree well formed, whatever
      their types. */
  lemma RunWellFormed(fs: FS, root: Path, ts: nat, a: Action, args: seq<Json>)
    requires WellFormed(fs) && Canonical(root) && |args| == |Signature(a)|
    ensures Run(fs, root, ts, a, args).Ok? ==> WellFormed(Run(fs, root, ts, a, args).value.1)
  {
    match a
    case ListDirectory =>
    case GetFileInfo =>
    case MoveFile =>
      if args[0].JStr? && args[1].JStr? {
        Guarantees.MoveFileWellFormed(fs, root, ts, args[0].s, args[1].s, Truthy(args[2]));
      }
    case MoveDirectory =>
      if args[0].JStr? && args[1].JStr? {
        Guarantees.MoveDirectoryWellFormed(fs, root, ts, args[0].s, args[1].s, Truthy(args[2]));
      }
    case RenameFile =>
      if args[0].JStr? && args[1].JStr? {
        Guarantees.RenameFileWellFormed(fs, root, args[0].s, args[1].s);
      }
    case CreateDirectory =>
      if args[0].JStr? {
        Guarantees.CreateDirectoryWellFormed(fs, root, args[0].s);
      }
    case RemoveEmptyDirectory =>
      if args[0].JStr? {
        Guarantees.RemoveEmptyDirectoryWellFormed(fs, root, args[0].s);
      }
  }

  /** Whatever the action object says, the tree stays well formed. */
  lemma ExecuteActionWellFormed(fs: FS, root: Path, ts: nat, data: map<string, Json>)
    requires WellFormed(fs) && Canonical(root)
    ensures ExecuteAction(fs, root, ts, data).Ran? ==> WellFormed(ExecuteAction(fs, root, ts, data).fs)
  {
    var action := Get(data, "action");
    if Hashable(action) && action.JStr? && ParseAction(action.s).Some? {
      var a := ParseAction(action.s).value;
      var parameters := ParametersOf(data);
      if parameters.JObj? && Bind(a, parameters.fields).Ok? {
        RunWellFormed(fs, root, ts, a, Bind(a, parameters.fields).value);
      }
    }
  }

  // ---------------------------------------------------------------------
  // Answers

  /** How a requested action's execution shapes the answer: an exception
      replaces it by the error answer, anything else is appended to the
      conversation part; only a run changes the tree. */
  lemma RespondExecuted(fs: FS, root: Path, ts: nat, parsed: (Option<map<string, Json>>, Option<string>),
                        listing: ListingRenderer, dumps: ResultRenderer)
    requires Canonical(root) && parsed.0.Some? && parsed.0.value != map[]
    ensures var ex := ExecuteAction(fs, root, ts, parsed.0.value);
      var r := Respond(fs, root, ts, parsed, listing, dumps);
      && r.1 == (if ex.Ran? then ex.fs else fs)
      && (ex.Crashed? ==> r.0 == RequestError(Describe(ex.exc)))
      && (!ex.Crashed? ==>
            r.0 == JoinWith(PartSeparator, ConversationParts(parsed.1) + [ResultPart(ex, listing, dumps)]))
  {
  }

  /** The answer ends with the error line for a refused action or an
      operation that failed, and with the message for one that succeeded. */
  lemma ResultIsLastPart(fs: FS, root: Path, ts: nat, reply: Result<string, string>, decode: Decoder,
                         listing: ListingRenderer, dumps: ResultRenderer)
    requires Canonical(root) && Requested(reply, decode)
    ensures var ex := ExecuteAction(fs, root, ts, ParseResponse(reply.value, decode).0.value);
      var text := Answer(fs, root, ts, reply, decode, listing, dumps).0;
      && (ex.Refused? ==> EndsWith(text, ErrorMark + ex.error))
      && (ex.Ran? && ex.outcome.Failure? ==> EndsWith(text, ErrorMark + ex.outcome.error))
      && (ex.Ran? && ex.outcome.Success? ==> EndsWith(text, DoneMark + ex.outcome.message))
      && (ex.Ran? ==> Answer(fs, root, ts, reply, decode, listing, dumps).1 == ex.fs)
      && (ex.Crashed? ==> text == RequestError(Describe(ex.exc)))
  {
    var parsed := ParseResponse(reply.value, decode);
    var ex := ExecuteAction(fs, root, ts, parsed.0.value);
    assert Answer(fs, root, ts, reply, decode, listing, dumps) == Respond(fs, root, ts, parsed, listing, dumps);
    RespondExecuted(fs, root, ts, parsed, listing, dumps);
    if !ex.Crashed? {
      var parts := ConversationParts(parsed.1) + [ResultPart(ex, listing, dumps)];
      JoinWithEnds(PartSeparator, parts);
    }
  }

  /** A reply with no object, or with an empty one, is passed on as
      conversation and changes nothing. */
  lemma PlainReplyAnswered(fs: FS, root: Path, ts: nat, response: string, decode: Decoder,
                           listing: ListingRenderer, dumps: ResultRenderer)
    requires Canonical(root) && '{' !in response
    ensures Answer(fs, root, ts, Ok(response), decode, listing, dumps) == (Strip(response), fs)
  {
    PlainReply(response, decode);
  }

  /** One request keeps the tree well formed. */
  lemma ProcessWellFormed(session: Session, root: Path, ts: nat, userInput: string,
                          reply: Result<string, string>, decode: Decoder,
                          listing: ListingRenderer, dumps: ResultRenderer)
    requires WellFormed(session.fs) && Canonical(root)
    ensures WellFormed(ProcessUserInput(session, root, ts, userInput, reply, decode, listing, dumps).1.fs)
  {
    var r := ProcessUserInput(session, root, ts, userInput, reply, decode, listing, dumps);
    assert r.1.fs == Answer(session.fs, root, ts, reply, decode, listing, dumps).1;
    if Requested(reply, decode) {
      var parsed := ParseResponse(reply.value, decode);
      assert Answer(session.fs, root, ts, reply, decode, listing, dumps)
          == Respond(session.fs, root, ts, parsed, listing, dumps);
      RespondExecuted(session.fs, root, ts, parsed, listing, dumps);
      ExecuteActionWellFormed(session.fs, root, ts, ParseResponse(reply.value, decode).0.value);
    }
  }
}

=== FILE: errors.dfy ===
/** The exceptions the source raises or catches, as values. */
module Errors {

  /** Why an operating-system call (mkdir, os.rename, rmdir, shutil.move) failed. */
  datatype OsReason =
    | FileExists        // EEXIST: the path is already taken
    | NotADirectory     // ENOTDIR: an ancestor of the path is a file
    | FileNotFound      // ENOENT: the source or the target's parent is missing
    | IsADirectory      // EISDIR: a file would replace a directory
    | IntoItself        // shutil.Error: a directory cannot be moved into itself
    | AlreadyThere      // shutil.Error: the entry already exists inside the target directory
    | Busy              // EBUSY: the filesystem root cannot be removed or renamed
    | InvalidArgument   // EINVAL: os.rename of a directory to a path inside itself

  /** Why a call was rejected before the operation ran (Python's TypeError). */
  datatype TypeReason =
    | UnexpectedKeywords(extra: set<string>)  // keywords the operation does not take
    | MissingArguments(missing: seq<string>) // required parameters not given, in order
    | NotAMapping       // `**parameters` where parameters is not an object
    | NotAPath          // `Path(v)` for a value that is not a string
    | Unhashable        // a list or object used as a dictionary key

  /** Why `Path.glob` refused a pattern before listing anything. */
  datatype GlobReason =
    | Unacceptable(pattern: string) // ValueError: a pattern with no parts, such as "" or "."
    | NonRelative                   // NotImplementedError: an absolute pattern such as "/etc/*"
    | PartialRecursive              // ValueError (before Python 3.13): "**" inside a part, as in "**.md"

  datatype Exc =
    | OutsideRoot(pathStr: string)   // ValueError raised by _safe_path
    | NotRelative                    // ValueError raised by Path.relative_to
    | OsFailure(reason: OsReason)
    | TypeFailure(why: TypeReason)
    | NoAttribute(name: string)      // AttributeError: a value without the method called on it
    | PatternRejected(refusal: GlobReason)

  /** `str(e)`. The confinement and glob messages are reproduced verbatim
      (a rejected pattern quoted as `repr` quotes a text without quotes or
      backslashes); the operating-system texts leave out the paths Python
      quotes in them. */
  function Describe(e: Exc): string
  {
    match e
    case OutsideRoot(p) => "Path outside allowed directory: " + p
    case NotRelative => "path is not in the subpath of the root"
    case OsFailure(r) =>
      (match r
       case FileExists => "[Errno 17] File exists"
       case NotADirectory => "[Errno 20] Not a directory"
       case FileNotFound => "[Errno 2] No such file or directory"
       case IsADirectory => "[Errno 21] Is a directory"
       case IntoItself => "Cannot move a directory into itself"
       case AlreadyThere => "Destination path already exists"
       case Busy => "[Errno 16] Device or resource busy"
       case InvalidArgument => "[Errno 22] Invalid argument")
    case TypeFailure(w) =>
      (match w
       case UnexpectedKeywords(_) => "got an unexpected keyword argument"
       case MissingArguments(ns) =>
         if |ns| == 1 then "missing 1 required positional argument: '" + ns[0] + "'"
         else if |ns| == 2 then "missing 2 required positional arguments: '" + ns[0] + "' and '" + ns[1] + "'"
         else "missing required positional arguments"
       case NotAMapping => "argument after ** must be a mapping"
       case NotAPath => "expected str, bytes or os.PathLike object"
       case Unhashable => "unhashable type")
    case NoAttribute(n) => "object has no attribute '" + n + "'"
    case PatternRejected(w) =>
      (match w
       case Unacceptable(p) => "Unacceptable pattern: '" + p + "'"
       case NonRelative => "Non-relative patterns are unsupported"
       case PartialRecursive => "Invalid pattern: '**' can only be an entire path component")
  }
}

=== FILE: fsops.dfy ===
/** SafeFilesystemOperations: every public operation as a pure function
    from the tree (and its arguments) to the returned dictionary and the
    tree afterwards. Logging calls are left out. */
module FsOps {
  import opened Results
  import opened Errors
  import opened Paths
  import opened Tree
  import opened Naming

  /** The "type" field. */
  datatype Kind = FileKind | DirKind

  function KindOf(n: Node): Kind
  {
    if n.Dir? then DirKind else FileKind
  }

  /** One listed entry: `{"name", "path", "type"}`; the size is not modelled. */
  datatype Item = Item(name: string, path: string, kind: Kind)

  /** Why an operation returned `{"error": ...}`. */
  datatype Fault =
    | Missing           // the path does not exist
    | NotADir           // a directory operation on a file
    | WrongKind         // move_file on a directory, move_directory on a file
    | Taken             // the target already exists
    | NotEmpty          // the directory still has entries
    | Raised(exc: Exc)  // an exception caught by the operation's own handler

  /** The dictionary an operation returns. */
  datatype Outcome =
      /** `{"error": error}` */
    | Failure(fault: Fault, error: string)
      /** `{"success": True, "message": message}`, plus `"renamed": True` and
          `"final_path"` exactly when `finalPath` is present */
    | Success(message: string, finalPath: Option<string>)
      /** `{"items": [...]}` */
    | Listing(items: set<Item>)
      /** the get_file_info dictionary; size and mtime are not modelled */
    | Info(name: string, path: string, kind: Kind, contentsCount: Option<nat>)

  /** Nothing that existed was lost or changed; at most directories were added. */
  ghost predicate OnlyDirsAdded(fs: FS, fs': FS)
  {
    && (forall q | q in fs :: q in fs' && fs'[q] == fs[q])
    && (forall q | q in fs' && q !in fs :: fs'[q] == Dir)
  }

  /** How the shared tail of move_file and move_directory ended. */
  datatype Relocation = Moved(final: Path, fs: FS) | Aborted(exc: Exc, fs: FS)

  /** Where a move puts the entry: the destination, or its auto-renamed
      sibling when the destination exists. */
  function FinalTarget(fs: FS, dst: Path, ts: nat): (r: Path)
    ensures r == dst <==> dst !in fs
    ensures dst in fs ==> Parent(r) == Parent(dst)
  {
    SafeNameSibling(fs, dst, ts);
    if dst in fs then SafeName(fs, dst, ts) else dst
  }

  /** The part of move_file / move_directory after the checks: take the
      auto-renamed target if the destination exists, log it relative to the
      root (which raises outside the root), create the parent directories,
      then shutil.move. */
  function Relocate(fs: FS, root: Path, ts: nat, src: Path, dst: Path): (r: Relocation)
    ensures r.Moved? ==> (r.final == dst <==> dst !in fs)
    ensures r.Moved? && dst in fs ==> Below(r.final, root) && r.final == SafeName(fs, dst, ts)
    ensures r.Aborted? ==> OnlyDirsAdded(fs, r.fs)
  {
    var final := FinalTarget(fs, dst, ts);
    if dst in fs && !Below(final, root) then Aborted(NotRelative, fs)
    else
      match MakeDirs(fs, Parent(final))
      case Err(e) => Aborted(e, fs)
      case Ok(fs1) =>
        match ShutilMove(fs1, src, final)
        case Err(e) => Aborted(e, fs1)
        case Ok(fs2) => Moved(final, fs2)
  }

  /** The move_file / move_directory reply once the entry has been moved. */
  function MovedReply(root: Path, source: string, destination: string, dst: Path,
                      final: Path, fs': FS, lead: string, why: string, failed: string): (r: (Outcome, FS))
    ensures r.1 == fs'
  {
    if final != dst then
      match RelativeTo(root, final)
      case Err(e) => (Failure(Raised(e), failed + Describe(e)), fs')
      case Ok(rel) =>
        (Success(lead + source + " to " + RenderRel(rel) + why, Some(RenderRel(rel))), fs')
    else (Success(lead + source + " to " + destination, None), fs')
  }

  /** `move_file(source, destination, auto_rename)`, with `int(time.time())` as `ts`. */
  function MoveFile(fs: FS, root: Path, ts: nat, source: string, destination: string,
                    autoRename: bool): (r: (Outcome, FS))
    requires Canonical(root)
    ensures r.0.Success? || r.0.Failure?
    ensures r.0.Failure? ==> OnlyDirsAdded(fs, r.1)
    ensures SafePath(root, source).Err? || SafePath(root, destination).Err? ==>
      r.0.Failure? && r.0.fault.Raised? && r.1 == fs
    ensures SafePath(root, source).Ok? && SafePath(root, destination).Ok? ==>
      var src, dst := SafePath(root, source).value, SafePath(root, destination).value;
      && (src !in fs ==> r == (Failure(Missing, "Source does not exist: " + source), fs))
      && (IsDir(fs, src) ==> r == (Failure(WrongKind, "Use move_directory for directories"), fs))
      && (IsFile(fs, src) && dst in fs && !autoRename ==> r.0.Failure? && r.0.fault == Taken && r.1 == fs)
      && (r.0.Success? ==> IsFile(fs, src) && (r.0.finalPath.Some? <==> dst in fs))
  {
    var failed := "Failed to move file: ";
    match SafePath(root, source)
    case Err(e) => (Failure(Raised(e), failed + Describe(e)), fs)
    case Ok(src) =>
      match SafePath(root, destination)
      case Err(e) => (Failure(Raised(e), failed + Describe(e)), fs)
      case Ok(dst) =>
        if src !in fs then (Failure(Missing, "Source does not exist: " + source), fs)
        else if fs[src] == Dir then (Failure(WrongKind, "Use move_directory for directories"), fs)
        else if dst in fs && !autoRename then
          (Failure(Taken, "Destination file already exists: " + destination
                          + ". File would be overwritten."), fs)
        else
          match Relocate(fs, root, ts, src, dst)
          case Aborted(e, fs') => (Failure(Raised(e), failed + Describe(e)), fs')
          case Moved(final, fs') =>
            MovedReply(root, source, destination, dst, final, fs', "Moved ",
                       " (renamed to avoid overwrite)", failed)
  }

  /** `move_directory(source, destination, auto_rename)`: move_file with the
      kind check inverted. */
  function MoveDirectory(fs: FS, root: Path, ts: nat, source: string, destination: string,
                         autoRename: bool): (r: (Outcome, FS))
    requires Canonical(root)
    ensures r.0.Success? || r.0.Failure?
    ensures r.0.Failure? ==> OnlyDirsAdded(fs, r.1)
    ensures SafePath(root, source).Err? || SafePath(root, destination).Err? ==>
      r.0.Failure? && r.0.fault.Raised? && r.1 == fs
    ensures SafePath(root, source).Ok? && SafePath(root, destination).Ok? ==>
      var src, dst := SafePath(root, source).value, SafePath(root, destination).value;
      && (src !in fs ==> r == (Failure(Missing, "Source does not exist: " + source), fs))
      && (IsFile(fs, src) ==> r == (Failure(WrongKind, "Use move_file for files"), fs))
      && (IsDir(fs, src) && dst in fs && !autoRename ==> r.0.Failure? && r.0.fault == Taken && r.1 == fs)
      && (r.0.Success? ==> IsDir(fs, src) && (r.0.finalPath.Some? <==> dst in fs))
  {
    var failed := "Failed to move directory: ";
    match SafePath(root, source)
    case Err(e) => (Failure(Raised(e), failed + Describe(e)), fs)
    case Ok(src) =>
      match SafePath(root, destination)
      case Err(e) => (Failure(Raised(e), failed + Describe(e)), fs)
      case Ok(dst) =>
        if src !in fs then (Failure(Missing, "Source does not exist: " + source), fs)
        else if fs[src] != Dir then (Failure(WrongKind, "Use move_file for files"), fs)
        else if dst in fs && !autoRename then
          (Failure(Taken, "Destination directory already exists: " + destination
                          + ". Directory would be merged or overwritten."), fs)
        else
          match Relocate(fs, root, ts, src, dst)
          case Aborted(e, fs') => (Failure(Raised(e), failed + Describe(e)), fs')
          case Moved(final, fs') =>
            MovedReply(root, source, destination, dst, final, fs', "Moved directory ",
                       " (renamed to avoid conflicts)", failed)
  }

  /** `rename_file(old_name, new_name)`: a bare `os.rename`, for files and
      directories alike, after refusing an existing target. Its errors are
      os.rename's own (EINVAL for a directory renamed into itself, ENOTDIR
      below a file), not shutil's. */
  function RenameFile(fs: FS, root: Path, oldName: string, newName: string): (r: (Outcome, FS))
    requires Canonical(root)
    ensures r.0.Success? || r.0.Failure?
    ensures r.0.Failure? ==> r.1 == fs
    ensures r.0.Success? ==>
      && SafePath(root, oldName).Ok? && SafePath(root, newName).Ok?
      && SafePath(root, oldName).value in fs && SafePath(root, newName).value !in fs
  {
    var failed := "Failed to rename: ";
    match SafePath(root, oldName)
    case Err(e) => (Failure(Raised(e), failed + Describe(e)), fs)
    case Ok(from) =>
      match SafePath(root, newName)
      case Err(e) => (Failure(Raised(e), failed + Describe(e)), fs)
      case Ok(to) =>
        if from !in fs then (Failure(Missing, "File does not exist: " + oldName), fs)
        else if to in fs then (Failure(Taken, "Target name already exists: " + newName), fs)
        else
          match OsRename(fs, from, to)
          case Err(e) => (Failure(Raised(e), failed + Describe(e)), fs)
          case Ok(fs') => (Success("Renamed " + oldName + " to " + newName, None), fs')
  }

  /** `create_directory(path)`: `mkdir(parents=True)` of a path that must not exist yet. */
  function CreateDirectory(fs: FS, root: Path, path: string): (r: (Outcome, FS))
    requires Canonical(root)
    ensures r.0.Success? || r.0.Failure?
    ensures r.0.Failure? ==> r.1 == fs
    ensures r.0.Success? ==>
      && SafePath(root, path).Ok?
      && SafePath(root, path).value !in fs
      && IsDir(r.1, SafePath(root, path).value)
      && OnlyDirsAdded(fs, r.1)
      && forall q | q in r.1 && q !in fs :: q <= SafePath(root, path).value
  {
    var failed := "Failed to create directory: ";
    match SafePath(root, path)
    case Err(e) => (Failure(Raised(e), failed + Describe(e)), fs)
    case Ok(target) =>
      if target in fs then (Failure(Taken, "Directory already exists: " + path), fs)
      else
        match MakeDirs(fs, target)
        case Err(e) => (Failure(Raised(e), failed + Describe(e)), fs)
        case Ok(fs') => (Success("Created directory " + path, None), fs')
  }

  /** `remove_empty_directory(path)`: removes only an existing, empty
      directory; "/" itself cannot be removed. */
  function RemoveEmptyDirectory(fs: FS, root: Path, path: string): (r: (Outcome, FS))
    requires Canonical(root)
    ensures r.0.Success? || r.0.Failure?
    ensures r.0.Failure? ==> r.1 == fs
    ensures r.0.Success? <==>
      && SafePath(root, path).Ok?
      && IsDir(fs, SafePath(root, path).value)
      && Children(fs, SafePath(root, path).value) == {}
      && SafePath(root, path).value != []
    ensures r.0.Success? ==> r.1 == fs - {SafePath(root, path).value}
  {
    var failed := "Failed to remove directory: ";
    match SafePath(root, path)
    case Err(e) => (Failure(Raised(e), failed + Describe(e)), fs)
    case Ok(target) =>
      if target !in fs then (Failure(Missing, "Directory does not exist: " + path), fs)
      else if fs[target] != Dir then (Failure(NotADir, "Path is not a directory: " + path), fs)
      else if Children(fs, target) != {} then (Failure(NotEmpty, "Directory is not empty: " + path), fs)
      else if target == [] then
        (Failure(Raised(OsFailure(Busy)), failed + Describe(OsFailure(Busy))), fs)
      else (Success("Removed empty directory " + path, None), RemoveLeaf(fs, target))
  }

  /** The listing entry for `c`. */
  function ItemOf(fs: FS, root: Path, c: Path): Item
    requires c in fs && |root| <= |c|
  {
    Item(Name(c), RenderRel(c[|root|..]), KindOf(fs[c]))
  }

  /** `list_directory(path)`. The path is resolved outside the operation's
      `try`, so a path outside the root raises (`Err`) instead of returning
      an error dictionary. */
  function ListDirectory(fs: FS, root: Path, path: string): (r: Result<Outcome, Exc>)
    requires Canonical(root)
    ensures r.Err? <==> SafePath(root, path).Err?
    ensures r.Ok? ==> r.value.Listing? || r.value.Failure?
    ensures r.Ok? && r.value.Listing? ==> IsDir(fs, SafePath(root, path).value)
    ensures r.Ok? && r.value.Failure? ==> !IsDir(fs, SafePath(root, path).value)
  {
    match SafePath(root, path)
    case Err(e) => Err(e)
    case Ok(target) =>
      if target !in fs then Ok(Failure(Missing, "Path does not exist: " + path))
      else if fs[target] != Dir then Ok(Failure(NotADir, "Path is not a directory: " + path))
      else Ok(Listing(set c | c in Children(fs, target) :: ItemOf(fs, root, c)))
  }

  /** `get_file_info(path)`: name, root-relative path, kind and, for a
      directory, the number of entries directly inside it. */
  function GetFileInfo(fs: FS, root: Path, path: string): (r: Outcome)
    requires Canonical(root)
    ensures r.Info? || r.Failure?
    ensures r.Info? <==> SafePath(root, path).Ok? && SafePath(root, path).value in fs
    ensures r.Info? ==>
      var t := SafePath(root, path).value;
      && r.kind == KindOf(fs[t])
      && (r.contentsCount.Some? <==> IsDir(fs, t))
      && (r.contentsCount.Some? ==> r.contentsCount.value == |Children(fs, t)|)
  {
    match SafePath(root, path)
    case Err(e) => Failure(Raised(e), "Failed to get file info: " + Describe(e))
    case Ok(target) =>
      if target !in fs then Failure(Missing, "Path does not exist: " + path)
      else
        Info(Name(target), RenderRel(target[|root|..]), KindOf(fs[target]),
             if fs[target] == Dir then Some(|Children(fs, target)|) else None)
  }

  /** The get_move_preview dictionary. */
  datatype Preview = Preview(
    source: string,
    destination: string,
    sourceKind: Kind,
    willCreateDirs: bool,
    conflict: bool,
    autoRenameTo: Option<string>,
    conflictKind: Option<Kind>,
    dirsToCreate: Option<string>)

  datatype PreviewOutcome = PreviewFailed(error: string) | Previewed(preview: Preview)

  /** `get_move_preview(source, destination)`, with `int(time.time())` as
      `ts`. It only reads the tree. */
  function GetMovePreview(fs: FS, root: Path, ts: nat, source: string, destination: string): (r: PreviewOutcome)
    requires Canonical(root)
    ensures r.Previewed? ==>
      && SafePath(root, source).Ok? && SafePath(root, destination).Ok?
      && SafePath(root, source).value in fs
      && (r.preview.conflict <==> SafePath(root, destination).value in fs)
      && (r.preview.conflict <==> r.preview.autoRenameTo.Some?)
      && (r.preview.willCreateDirs <==> Parent(SafePath(root, destination).value) !in fs)
  {
    var failed := "Failed to generate preview: ";
    match SafePath(root, source)
    case Err(e) => PreviewFailed(failed + Describe(e))
    case Ok(src) =>
      match SafePath(root, destination)
      case Err(e) => PreviewFailed(failed + Describe(e))
      case Ok(dst) =>
        if src !in fs then PreviewFailed("Source does not exist: " + source)
        else
          var willCreate := Parent(dst) !in fs;
          var conflict := dst in fs;
          var renameTo: Result<Option<string>, Exc> :=
            if !conflict then Ok(None)
            else
              match RelativeTo(root, SafeName(fs, dst, ts))
              case Err(e) => Err(e)
              case Ok(rel) => Ok(Some(RenderRel(rel)));
          var dirs: Result<Option<string>, Exc> :=
            if !willCreate then Ok(None)
            else
              match RelativeTo(root, Parent(dst))
              case Err(e) => Err(e)
              case Ok(rel) => Ok(Some(RenderRel(rel)));
          if renameTo.Err? then PreviewFailed(failed + Describe(renameTo.error))
          else if dirs.Err? then PreviewFailed(failed + Describe(dirs.error))
          else
            Previewed(Preview(source, destination, KindOf(fs[src]), willCreate, conflict,
                              renameTo.value, if conflict then Some(KindOf(fs[dst])) else None,
                              dirs.value))
  }

  /** One `moved_files` entry. */
  datatype MovedEntry = MovedEntry(source: string, destination: string)
  /** One `renamed_files` entry. */
  datatype RenamedEntry = RenamedEntry(original: string, intended: string, actual: string)
  /** One `errors` entry. */
  datatype ErrorEntry = ErrorEntry(file: string, error: string)

  /** The bulk_move_files dictionary. */
  datatype BulkOutcome =
    | BulkFailed(error: string)
    | BulkDone(moved: seq<MovedEntry>, renamed: seq<RenamedEntry>, errors: seq<ErrorEntry>)

  /** The number of entries of a completed bulk move. */
  function Total(r: BulkOutcome): nat
  {
    if r.BulkDone? then |r.moved| + |r.renamed| + |r.errors| else 0
  }

  /** The last part of `parts` other than "" and ".", or `otherwise` when
      there is none. */
  function LastPart(parts: seq<string>, otherwise: string): (r: string)
    ensures r == otherwise || r in parts
    ensures r != otherwise ==> r != "" && r != "."
    decreases |parts|
  {
    if parts == [] then otherwise
    else
      var c := parts[|parts| - 1];
      if c == "" || c == "." then LastPart(parts[..|parts| - 1], otherwise) else c
  }

  /** `(Path(root) / s).name`: pathlib drops "" and "." parts, so this is
      the last other part of `s`, or the name of the base path when `s` has
      none. The parts are taken as written: a trailing ".." is the name. */
  function GlobName(root: Path, s: string): string
  {
    LastPart(Split(s), if IsAbsolute(s) then "" else Name(root))
  }

  /** `str(dst_dir / name)` for a resolved destination directory. */
  function BulkTarget(dstDir: Path, name: string): string
  {
    if name == "" then Render(dstDir) else Render(dstDir + [name])
  }

  /** The accumulator after one match was handed to move_file: a renamed
      entry, a moved entry or an error entry, naming the match as given. */
  function Record(acc: BulkOutcome, source: string, dest: string, o: Outcome): (r: BulkOutcome)
    requires acc.BulkDone? && (o.Success? || o.Failure?)
    ensures r.BulkDone? && Total(r) == Total(acc) + 1
    ensures acc.moved <= r.moved && acc.renamed <= r.renamed && acc.errors <= r.errors
    ensures forall e | e in r.moved[|acc.moved|..] :: e.source == source
    ensures forall e | e in r.renamed[|acc.renamed|..] :: e.original == source
    ensures forall e | e in r.errors[|acc.errors|..] :: e.file == source
  {
    if o.Success? then
      if o.finalPath.Some? then acc.(renamed := acc.renamed + [RenamedEntry(source, dest, o.finalPath.value)])
      else acc.(moved := acc.moved + [MovedEntry(source, dest)])
    else acc.(errors := acc.errors + [ErrorEntry(source, o.error)])
  }

  /** Elements added to `a` on the way to `c` were added before `b` or after it. */
  lemma AddedSplit<T>(a: seq<T>, b: seq<T>, c: seq<T>)
    requires a <= b <= c
    ensures forall e | e in c[|a|..] :: e in b[|a|..] || e in c[|b|..]
  {
    assert c[|a|..] == b[|a|..] + c[|b|..];
  }

  /** One turn of the bulk loop, on the match `s`. A match that is not a
      file now is skipped; otherwise it is handed to move_file and its
      answer recorded. */
  function BulkTurn(fs: FS, root: Path, ts: nat, s: string, dstDir: Path,
                    autoRename: bool, acc: BulkOutcome): (r: (BulkOutcome, FS))
    requires Canonical(root) && acc.BulkDone?
    ensures r.0.BulkDone?
    ensures Total(r.0) == Total(acc) + (if IsFile(fs, Resolve(root, s)) then 1 else 0)
    ensures !IsFile(fs, Resolve(root, s)) ==> r == (acc, fs)
    ensures acc.moved <= r.0.moved && acc.renamed <= r.0.renamed && acc.errors <= r.0.errors
    ensures forall e | e in r.0.moved[|acc.moved|..] :: e.source == s
    ensures forall e | e in r.0.renamed[|acc.renamed|..] :: e.original == s
    ensures forall e | e in r.0.errors[|acc.errors|..] :: e.file == s
  {
    if !IsFile(fs, Resolve(root, s)) then (acc, fs)
    else
      var dest := BulkTarget(dstDir, GlobName(root, s));
      var (o, fs') := MoveFile(fs, root, ts, s, dest, autoRename);
      (Record(acc, s, dest, o), fs')
  }

  /** The loop of bulk_move_files over the glob matches, in order,
      accumulating into `acc`. A match is given as the text
      `str(match.relative_to(root))`: glob joins it to the root lexically, so
      `relative_to` never raises, and a match such as "../a.txt" is handed
      to move_file, whose own check turns it into an error entry. Every turn
      adds at most one entry, naming its match, and keeps what is already
      there. */
  function BulkLoop(fs: FS, root: Path, ts: nat, ms: seq<string>, dstDir: Path,
                    autoRename: bool, acc: BulkOutcome): (r: (BulkOutcome, FS))
    requires Canonical(root) && acc.BulkDone?
    ensures r.0.BulkDone?
    ensures Total(acc) <= Total(r.0) <= Total(acc) + |ms|
    ensures acc.moved <= r.0.moved && acc.renamed <= r.0.renamed && acc.errors <= r.0.errors
    ensures forall e | e in r.0.moved[|acc.moved|..] :: e.source in ms
    ensures forall e | e in r.0.renamed[|acc.renamed|..] :: e.original in ms
    ensures forall e | e in r.0.errors[|acc.errors|..] :: e.file in ms
    decreases |ms|
  {
    if ms == [] then (acc, fs)
    else
      var t := BulkTurn(fs, root, ts, ms[0], dstDir, autoRename, acc);
      var r := BulkLoop(t.1, root, ts, ms[1..], dstDir, autoRename, t.0);
      AddedSplit(acc.moved, t.0.moved, r.0.moved);
      AddedSplit(acc.renamed, t.0.renamed, r.0.renamed);
      AddedSplit(acc.errors, t.0.errors, r.0.errors);
      assert forall x | x in ms[1..] :: x in ms;
      r
  }

  /** Running the loop over two lists one after the other is running it
      over their concatenation. */
  lemma {:induction false} BulkLoopAppend(fs: FS, root: Path, ts: nat, ms1: seq<string>, ms2: seq<string>,
                                          dstDir: Path, autoRename: bool, acc: BulkOutcome)
    requires Canonical(root) && acc.BulkDone?
    ensures var m := BulkLoop(fs, root, ts, ms1, dstDir, autoRename, acc);
      BulkLoop(fs, root, ts, ms1 + ms2, dstDir, autoRename, acc)
        == BulkLoop(m.1, root, ts, ms2, dstDir, autoRename, m.0)
    decreases |ms1|
  {
    if ms1 == [] {
      assert ms1 + ms2 == ms2;
    } else {
      var t := BulkTurn(fs, root, ts, ms1[0], dstDir, autoRename, acc);
      assert (ms1 + ms2)[0] == ms1[0];
      assert (ms1 + ms2)[1..] == ms1[1..] + ms2;
      BulkLoopAppend(t.1, root, ts, ms1[1..], ms2, dstDir, autoRename, t.0);
    }
  }

  /** The matches of the patterns in order, up to the first pattern whose
      glob raised. */
  function Globbed(gs: seq<Result<seq<string>, Exc>>): seq<string>
  {
    if gs == [] || gs[0].Err? then [] else gs[0].value + Globbed(gs[1..])
  }

  /** `gs[i]` is the first glob outcome that is an exception. */
  predicate FirstRejected(gs: seq<Result<seq<string>, Exc>>, i: int)
  {
    0 <= i < |gs| && gs[i].Err? && forall j | 0 <= j < i :: gs[j].Ok?
  }

  /** Past a successful glob, the first exception is found in the rest. */
  lemma FirstRejectedTail(gs: seq<Result<seq<string>, Exc>>)
    requires gs != [] && gs[0].Ok?
    ensures (exists i | 0 <= i < |gs| :: gs[i].Err?) <==> (exists i | 0 <= i < |gs| - 1 :: gs[1..][i].Err?)
    ensures forall i | 0 <= i < |gs| - 1 :: FirstRejected(gs[1..], i) ==> FirstRejected(gs, i + 1)
  {
    forall i | 0 <= i < |gs| - 1 && FirstRejected(gs[1..], i)
      ensures FirstRejected(gs, i + 1)
    {
      forall j | 0 <= j < i + 1 ensures gs[j].Ok? {
        if j > 0 { assert gs[j] == gs[1..][j - 1]; }
      }
    }
    if exists i | 0 <= i < |gs| :: gs[i].Err? {
      var i :| 0 <= i < |gs| && gs[i].Err?;
      assert gs[1..][i - 1].Err?;
    }
  }

  /** The pattern loop of bulk_move_files. `gs[i]` is what globbing the
      i-th pattern gives when its turn comes: its matches, or the exception
      it raised. The matches go through the bulk loop; a glob that raised
      ends the call with the outer handler's reply, and the moves of the
      earlier patterns stay done. Either way the tree is the one the loop
      leaves over all matches globbed before the failure. */
  function BulkPatterns(fs: FS, root: Path, ts: nat, gs: seq<Result<seq<string>, Exc>>, dstDir: Path,
                        autoRename: bool, acc: BulkOutcome): (r: (BulkOutcome, FS))
    requires Canonical(root) && acc.BulkDone?
    ensures r.0.BulkFailed? <==> exists i | 0 <= i < |gs| :: gs[i].Err?
    ensures r.0.BulkFailed? ==>
      exists i | FirstRejected(gs, i) :: r.0.error == "Bulk move failed: " + Describe(gs[i].error)
    ensures r.1 == BulkLoop(fs, root, ts, Globbed(gs), dstDir, autoRename, acc).1
    ensures r.0.BulkDone? ==> r.0 == BulkLoop(fs, root, ts, Globbed(gs), dstDir, autoRename, acc).0
    decreases |gs|
  {
    if gs == [] then (acc, fs)
    else
      match gs[0]
      case Err(e) =>
        assert FirstRejected(gs, 0);
        (BulkFailed("Bulk move failed: " + Describe(e)), fs)
      case Ok(ms) =>
        var m := BulkLoop(fs, root, ts, ms, dstDir, autoRename, acc);
        var r := BulkPatterns(m.1, root, ts, gs[1..], dstDir, autoRename, m.0);
        assert Globbed(gs) == ms + Globbed(gs[1..]);
        BulkLoopAppend(fs, root, ts, ms, Globbed(gs[1..]), dstDir, autoRename, acc);
        FirstRejectedTail(gs);
        r
  }

  /** `bulk_move_files(patterns, destination_dir, auto_rename)`, given the
      outcome of globbing each pattern when its turn comes (its matches,
      each as its text relative to the root, or the exception glob raised).
      The call fails when the destination cannot be resolved or created,
      leaving the tree as it was, or when a glob raises, keeping the moves
      made for the earlier patterns. */
  function BulkMoveFiles(fs: FS, root: Path, ts: nat, globs: seq<Result<seq<string>, Exc>>,
                         destinationDir: string, autoRename: bool): (r: (BulkOutcome, FS))
    requires Canonical(root)
    ensures r.0.BulkFailed? <==>
      || SafePath(root, destinationDir).Err?
      || MakeDirs(fs, SafePath(root, destinationDir).value).Err?
      || exists i | 0 <= i < |globs| :: globs[i].Err?
    ensures SafePath(root, destinationDir).Err? || MakeDirs(fs, SafePath(root, destinationDir).value).Err?
      ==> r.1 == fs
    ensures SafePath(root, destinationDir).Ok? && MakeDirs(fs, SafePath(root, destinationDir).value).Ok? ==>
      var dstDir := SafePath(root, destinationDir).value;
      && r.1 == BulkLoop(MakeDirs(fs, dstDir).value, root, ts, Globbed(globs), dstDir, autoRename,
                         BulkDone([], [], [])).1
      && (r.0.BulkFailed? ==>
            exists i | FirstRejected(globs, i) :: r.0.error == "Bulk move failed: " + Describe(globs[i].error))
    ensures r.0.BulkDone? ==> Total(r.0) <= |Globbed(globs)|
    ensures r.0.BulkDone? ==>
      && (forall e | e in r.0.moved :: e.source in Globbed(globs))
      && (forall e | e in r.0.renamed :: e.original in Globbed(globs))
      && (forall e | e in r.0.errors :: e.file in Globbed(globs))
  {
    match SafePath(root, destinationDir)
    case Err(e) => (BulkFailed("Bulk move failed: " + Describe(e)), fs)
    case Ok(dstDir) =>
      match MakeDirs(fs, dstDir)
      case Err(e) => (BulkFailed("Bulk move failed: " + Describe(e)), fs)
      case Ok(fs1) =>
        var r := BulkPatterns(fs1, root, ts, globs, dstDir, autoRename, BulkDone([], [], []));
        var l := BulkLoop(fs1, root, ts, Globbed(globs), dstDir, autoRename, BulkDone([], [], []));
        assert l.0.moved[0..] == l.0.moved && l.0.renamed[0..] == l.0.renamed && l.0.errors[0..] == l.0.errors;
        r
  }
}

=== FILE: guarantees.dfy ===
/** What the file operations guarantee on a well-formed tree: they keep it
    well formed, never overwrite, move exactly what they say, and agree
    with the preview. */
module Guarantees {
  import opened Results
  import opened Errors
  import opened Paths
  import opened Tree
  import opened Naming
  import opened FsOps

  /** Outside the target subtree, a transplant keeps what was not in the
      source subtree and nothing else. */
  lemma TransplantFrame(fs: FS, src: Path, dst: Path, q: Path)
    requires !(dst <= q)
    ensures q in Transplant(fs, src, dst) <==> q in fs && !(src <= q)
    ensures q in Transplant(fs, src, dst) ==> Transplant(fs, src, dst)[q] == fs[q]
  {
    if q in fs && !(src <= q) {
      TransplantKept(fs, src, dst, q);
    }
    if q in Transplant(fs, src, dst) {
      TransplantOrigin(fs, src, dst, q);
    }
  }

  /** Renaming onto a free path of a well-formed tree: the source subtree
      reappears under the target, and everything else stays. */
  lemma TransplantToFree(fs: FS, src: Path, dst: Path)
    requires CanTransplant(fs, src, dst) && dst !in fs
    ensures forall q | q in fs && src <= q ::
      q !in Transplant(fs, src, dst)
      && dst + q[|src|..] in Transplant(fs, src, dst)
      && Transplant(fs, src, dst)[dst + q[|src|..]] == fs[q]
    ensures forall q | q in fs && !(src <= q) ::
      q in Transplant(fs, src, dst) && Transplant(fs, src, dst)[q] == fs[q]
    ensures forall q | q in Transplant(fs, src, dst) && !(dst <= q) :: q in fs
  {
    var t := Transplant(fs, src, dst);
    forall q | q in fs
      ensures !(dst <= q)
    {
      if dst <= q && dst != q {
        AncestorsAreDirs(fs, q, dst);
      }
    }
    forall q | q in fs && src <= q
      ensures q !in t
      ensures dst + q[|src|..] in t && t[dst + q[|src|..]] == fs[q]
    {
      TransplantFrame(fs, src, dst, q);
      TransplantMoved(fs, src, dst, q);
    }
    forall q | q in fs && !(src <= q)
      ensures q in t && t[q] == fs[q]
    {
      TransplantFrame(fs, src, dst, q);
    }
    forall q | q in t && !(dst <= q)
      ensures q in fs
    {
      TransplantFrame(fs, src, dst, q);
    }
  }

  /** The shared move tail keeps the tree well formed. */
  lemma RelocateWellFormed(fs: FS, root: Path, ts: nat, src: Path, dst: Path)
    requires WellFormed(fs) && Canonical(dst) && src in fs
    ensures WellFormed(Relocate(fs, root, ts, src, dst).fs)
  {
    var final := if dst in fs then SafeName(fs, dst, ts) else dst;
    SafeNameCanonical(fs, dst, ts);
    assert Canonical(Parent(final));
    if !(dst in fs && !Below(final, root)) && MakeDirs(fs, Parent(final)).Ok? {
      var fs1 := MakeDirs(fs, Parent(final)).value;
      MakeDirsWellFormed(fs, Parent(final));
      if ShutilMove(fs1, src, final).Ok? {
        ShutilMoveWellFormed(fs1, src, final);
      }
    }
  }

  /** move_file keeps the tree well formed. */
  lemma MoveFileWellFormed(fs: FS, root: Path, ts: nat, source: string, destination: string,
                           autoRename: bool)
    requires WellFormed(fs) && Canonical(root)
    ensures WellFormed(MoveFile(fs, root, ts, source, destination, autoRename).1)
  {
    if SafePath(root, source).Ok? && SafePath(root, destination).Ok? {
      var src, dst := SafePath(root, source).value, SafePath(root, destination).value;
      if src in fs {
        RelocateWellFormed(fs, root, ts, src, dst);
      }
    }
  }

  /** move_directory keeps the tree well formed. */
  lemma MoveDirectoryWellFormed(fs: FS, root: Path, ts: nat, source: string, destination: string,
                                autoRename: bool)
    requires WellFormed(fs) && Canonical(root)
    ensures WellFormed(MoveDirectory(fs, root, ts, source, destination, autoRename).1)
  {
    if SafePath(root, source).Ok? && SafePath(root, destination).Ok? {
      var src, dst := SafePath(root, source).value, SafePath(root, destination).value;
      if src in fs {
        RelocateWellFormed(fs, root, ts, src, dst);
      }
    }
  }

  /** rename_file keeps the tree well formed. */
  lemma RenameFileWellFormed(fs: FS, root: Path, oldName: string, newName: string)
    requires WellFormed(fs) && Canonical(root)
    ensures WellFormed(RenameFile(fs, root, oldName, newName).1)
  {
    if SafePath(root, oldName).Ok? && SafePath(root, newName).Ok? {
      var from, to := SafePath(root, oldName).value, SafePath(root, newName).value;
      if from in fs && to !in fs && OsRename(fs, from, to).Ok? {
        OsRenameCanTransplant(fs, from, to);
        TransplantWellFormed(fs, from, to);
      }
    }
  }

  /** create_directory keeps the tree well formed. */
  lemma CreateDirectoryWellFormed(fs: FS, root: Path, path: string)
    requires WellFormed(fs) && Canonical(root)
    ensures WellFormed(CreateDirectory(fs, root, path).1)
  {
    if SafePath(root, path).Ok? && MakeDirs(fs, SafePath(root, path).value).Ok? {
      MakeDirsWellFormed(fs, SafePath(root, path).value);
    }
  }

  /** remove_empty_directory keeps the tree well formed. */
  lemma RemoveEmptyDirectoryWellFormed(fs: FS, root: Path, path: string)
    requires WellFormed(fs) && Canonical(root)
    ensures WellFormed(RemoveEmptyDirectory(fs, root, path).1)
  {
    var r := RemoveEmptyDirectory(fs, root, path);
    if r.0.Success? {
      RemoveLeafWellFormed(fs, SafePath(root, path).value);
    }
  }

  /** No file lies on the way to `p`: creating its parents cannot fail. */
  ghost predicate ClearWay(fs: FS, p: Path)
  {
    forall i | 0 <= i < |p| :: !IsFile(fs, p[..i])
  }

  /** On a clear way, the parent directories of `p` can be created. */
  lemma ClearWayParents(fs: FS, p: Path)
    requires ClearWay(fs, p) && p != []
    ensures MakeDirs(fs, Parent(p)).Ok?
  {
    forall i | 0 <= i <= |Parent(p)|
      ensures !IsFile(fs, Parent(p)[..i])
    {
      assert Parent(p)[..i] == p[..i];
    }
  }

  /** The way to an existing entry of a well-formed tree is clear. */
  lemma ExistingWayClear(fs: FS, p: Path)
    requires WellFormed(fs) && p in fs
    ensures ClearWay(fs, p)
  {
    forall i | 0 <= i < |p|
      ensures !IsFile(fs, p[..i])
    {
      AncestorsAreDirs(fs, p, p[..i]);
    }
  }

  /** With a free target and a clear way, relocating creates the missing
      parents and then transplants the subtree. */
  lemma RelocateTransplants(fs: FS, root: Path, ts: nat, src: Path, dst: Path)
    requires WellFormed(fs) && Canonical(dst) && src in fs
    requires FinalTarget(fs, dst, ts) !in fs
    requires dst in fs ==> Below(FinalTarget(fs, dst, ts), root)
    requires ClearWay(fs, FinalTarget(fs, dst, ts))
    requires !(src <= FinalTarget(fs, dst, ts))
    ensures var final := FinalTarget(fs, dst, ts);
      && MakeDirs(fs, Parent(final)).Ok?
      && WellFormed(MakeDirs(fs, Parent(final)).value)
      && src in MakeDirs(fs, Parent(final)).value
      && final !in MakeDirs(fs, Parent(final)).value
      && CanTransplant(MakeDirs(fs, Parent(final)).value, src, final)
      && Relocate(fs, root, ts, src, dst) == Moved(final, Transplant(MakeDirs(fs, Parent(final)).value, src, final))
  {
    var final := FinalTarget(fs, dst, ts);
    SafeNameCanonical(fs, dst, ts);
    assert final != [];
    ClearWayParents(fs, final);
    var fs1 := MakeDirs(fs, Parent(final)).value;
    MakeDirsWellFormed(fs, Parent(final));
    assert final !in fs1;
    assert ShutilRename(fs1, src, final).Ok?;
    ShutilRenameCanTransplant(fs1, src, final);
  }

  /** The shared move tail when the final target is free and its way is
      clear: the source subtree moves there intact, nothing else that
      existed changes, and only the missing parents of the target are
      added. */
  lemma RelocateFree(fs: FS, root: Path, ts: nat, src: Path, dst: Path)
    requires WellFormed(fs) && Canonical(dst) && src in fs
    requires FinalTarget(fs, dst, ts) !in fs
    requires dst in fs ==> Below(FinalTarget(fs, dst, ts), root)
    requires ClearWay(fs, FinalTarget(fs, dst, ts))
    requires !(src <= FinalTarget(fs, dst, ts))
    ensures var r, final := Relocate(fs, root, ts, src, dst), FinalTarget(fs, dst, ts);
      && r.Moved? && r.final == final
      && WellFormed(r.fs)
      && MakeDirs(fs, Parent(final)).Ok?
      && r.fs == Transplant(MakeDirs(fs, Parent(final)).value, src, final)
      && (forall q | q in fs && src <= q ::
            q !in r.fs && final + q[|src|..] in r.fs && r.fs[final + q[|src|..]] == fs[q])
      && (forall q | q in fs && !(src <= q) :: q in r.fs && r.fs[q] == fs[q])
      && (forall q | q in r.fs && !(final <= q) :: q in fs || (q < final && r.fs[q] == Dir))
  {
    var final := FinalTarget(fs, dst, ts);
    RelocateTransplants(fs, root, ts, src, dst);
    var fs1 := MakeDirs(fs, Parent(final)).value;
    TransplantWellFormed(fs1, src, final);
    TransplantToFree(fs1, src, final);
    var t := Transplant(fs1, src, final);
    forall q | q in fs && src <= q
      ensures q !in t && final + q[|src|..] in t && t[final + q[|src|..]] == fs[q]
    {
      assert q in fs1;
    }
    forall q | q in t && !(final <= q)
      ensures q in fs || (q < final && t[q] == Dir)
    {
      assert q in fs1;
      if q !in fs {
        assert q <= Parent(final);
      }
    }
  }

  /** What lands under a free target is only the moved file itself. */
  lemma FileLandsAlone(fs: FS, src: Path, dst: Path, q: Path)
    requires WellFormed(fs) && IsFile(fs, src) && dst !in fs
    requires q in Transplant(fs, src, dst) && dst <= q
    ensures q == dst
  {
    TransplantOrigin(fs, src, dst, q);
    if q != dst {
      if q in fs && !(src <= q) {
        AncestorsAreDirs(fs, q, dst);
      } else {
        NothingBelowFile(fs, src, src + q[|dst|..]);
      }
    }
  }

  /** Once the checks pass, move_file's reply is the one built from the move. */
  lemma MoveFileReply(fs: FS, root: Path, ts: nat, source: string, destination: string,
                      autoRename: bool)
    requires Canonical(root)
    requires SafePath(root, source).Ok? && SafePath(root, destination).Ok?
    requires IsFile(fs, SafePath(root, source).value)
    requires SafePath(root, destination).value in fs ==> autoRename
    requires Relocate(fs, root, ts, SafePath(root, source).value, SafePath(root, destination).value).Moved?
    ensures var m := Relocate(fs, root, ts, SafePath(root, source).value, SafePath(root, destination).value);
      MoveFile(fs, root, ts, source, destination, autoRename)
      == MovedReply(root, source, destination, SafePath(root, destination).value, m.final, m.fs, "Moved ",
                    " (renamed to avoid overwrite)", "Failed to move file: ")
  {
  }

  /** Nothing in the tree but the file itself lies at or below a file, and
      a free target cannot be below it either. */
  lemma NothingUnderFile(fs: FS, src: Path, final: Path)
    requires WellFormed(fs) && IsFile(fs, src) && final !in fs && ClearWay(fs, final)
    ensures !(src <= final)
    ensures forall q | q in fs && q != src :: !(src <= q)
  {
    assert src != final;
    if |src| < |final| {
      assert !IsFile(fs, final[..|src|]);
      assert final[..|src|] != src;
    }
    forall q | q in fs && q != src
      ensures !(src <= q)
    {
      if src <= q {
        NothingBelowFile(fs, src, q);
      }
    }
  }

  /** A file moved to a free final target with a clear way: it arrives
      there unchanged, the missing parents are created, and nothing else
      changes. */
  lemma RelocateFileFree(fs: FS, root: Path, ts: nat, src: Path, dst: Path)
    requires WellFormed(fs) && Canonical(dst) && IsFile(fs, src)
    requires FinalTarget(fs, dst, ts) !in fs && ClearWay(fs, FinalTarget(fs, dst, ts))
    requires dst in fs ==> Below(FinalTarget(fs, dst, ts), root)
    ensures var m, final := Relocate(fs, root, ts, src, dst), FinalTarget(fs, dst, ts);
      && m.Moved? && m.final == final
      && final in m.fs && m.fs[final] == fs[src] && src !in m.fs
      && IsDir(m.fs, Parent(final))
      && (forall q | q in fs && q != src :: q in m.fs && m.fs[q] == fs[q])
      && (forall q | q in m.fs && q !in fs :: q == final || (q < final && m.fs[q] == Dir))
  {
    var final := FinalTarget(fs, dst, ts);
    SafeNameCanonical(fs, dst, ts);
    NothingUnderFile(fs, src, final);
    RelocateFree(fs, root, ts, src, dst);
    RelocateFileLands(fs, root, ts, src, dst);
    assert final != [];
    assert Parent(final) < final;
  }

  /** The moved file is the only entry at or below the final target. */
  lemma RelocateFileLands(fs: FS, root: Path, ts: nat, src: Path, dst: Path)
    requires WellFormed(fs) && Canonical(dst) && IsFile(fs, src)
    requires FinalTarget(fs, dst, ts) !in fs && ClearWay(fs, FinalTarget(fs, dst, ts))
    requires dst in fs ==> Below(FinalTarget(fs, dst, ts), root)
    requires !(src <= FinalTarget(fs, dst, ts))
    ensures Relocate(fs, root, ts, src, dst).Moved?
    ensures forall q | q in Relocate(fs, root, ts, src, dst).fs && FinalTarget(fs, dst, ts) <= q ::
      q == FinalTarget(fs, dst, ts)
  {
    var final := FinalTarget(fs, dst, ts);
    var m := Relocate(fs, root, ts, src, dst);
    RelocateFree(fs, root, ts, src, dst);
    var fs1 := MakeDirs(fs, Parent(final)).value;
    MakeDirsWellFormed(fs, Parent(final));
    forall q | q in m.fs && final <= q
      ensures q == final
    {
      FileLandsAlone(fs1, src, final, q);
    }
  }

  /** A move_file with no conflict: the missing parent directories are
      created, the content arrives unchanged at the destination, the source
      is gone, nothing else changes, and no `renamed` key is reported. */
  lemma MoveFileNoConflict(fs: FS, root: Path, ts: nat, source: string, destination: string,
                           autoRename: bool)
    requires WellFormed(fs) && Canonical(root)
    requires SafePath(root, source).Ok? && SafePath(root, destination).Ok?
    requires IsFile(fs, SafePath(root, source).value)
    requires SafePath(root, destination).value !in fs
    requires ClearWay(fs, SafePath(root, destination).value)
    ensures var r, src, dst := MoveFile(fs, root, ts, source, destination, autoRename),
                               SafePath(root, source).value, SafePath(root, destination).value;
      && r.0 == Success("Moved " + source + " to " + destination, None)
      && dst in r.1 && r.1[dst] == fs[src] && src !in r.1
      && IsDir(r.1, Parent(dst))
      && (forall q | q in fs && q != src :: q in r.1 && r.1[q] == fs[q])
      && (forall q | q in r.1 && q !in fs :: q == dst || (q < dst && r.1[q] == Dir))
  {
    var src, dst := SafePath(root, source).value, SafePath(root, destination).value;
    assert FinalTarget(fs, dst, ts) == dst;
    RelocateFileFree(fs, root, ts, src, dst);
    MoveFileReply(fs, root, ts, source, destination, autoRename);
    var m := Relocate(fs, root, ts, src, dst);
    var r := MoveFile(fs, root, ts, source, destination, autoRename);
    assert r == MovedReply(root, source, destination, dst, dst, m.fs, "Moved ",
                           " (renamed to avoid overwrite)", "Failed to move file: ");
    assert r == (Success("Moved " + source + " to " + destination, None), m.fs);
  }

  /** The auto-renamed sibling of an existing destination strictly inside
      the root, when a counter is free: it is free, inside the root, and
      has a clear way. */
  lemma RenamedTarget(fs: FS, root: Path, dst: Path, ts: nat)
    requires WellFormed(fs) && Canonical(dst)
    requires Below(dst, root) && dst != root && dst in fs
    requires FirstFree(fs, dst, 1).Some?
    ensures var final := SafeName(fs, dst, ts);
      && final == FinalTarget(fs, dst, ts)
      && final !in fs && Canonical(final) && Below(final, root)
      && ClearWay(fs, final)
      && final != [] && Parent(final) == Parent(dst) && Parent(dst) in fs
  {
    var final := SafeName(fs, dst, ts);
    SafeNameSibling(fs, dst, ts);
    SafeNameCanonical(fs, dst, ts);
    assert dst != [];
    assert Parent(dst) in fs;
    ExistingWayClear(fs, Parent(dst));
    forall i | 0 <= i < |final|
      ensures !IsFile(fs, final[..i])
    {
      assert final[..i] == Parent(dst)[..i];
    }
    assert root <= Parent(dst);
  }

  /** A path strictly inside the root is reported relative to it in a form
      that resolves back to it. */
  lemma ShownResolves(root: Path, p: Path)
    requires Canonical(root) && Canonical(p) && Below(p, root)
    ensures RelativeTo(root, p) == Ok(p[|root|..])
    ensures SafePath(root, RenderRel(p[|root|..])) == Ok(p)
  {
    var rel := p[|root|..];
    assert root + rel == p;
    assert Canonical(rel) by {
      forall i | 0 <= i < |rel|
        ensures IsComponent(rel[i])
      {
        assert rel[i] == p[|root| + i];
      }
    }
    SafePathRelative(root, rel);
  }

  /** The key set after a single entry moved from `src` to `final`. */
  lemma KeysAfterSingleMove(fs: FS, fs': FS, src: Path, final: Path)
    requires src in fs && src !in fs' && final !in fs && final in fs'
    requires forall q | q in fs && q != src :: q in fs'
    requires forall q | q in fs' && q !in fs :: q == final
    ensures fs'.Keys == fs.Keys - {src} + {final}
  {
  }

  /** A move_file onto an existing destination with auto-rename: the
      content goes to the first free numbered sibling, the destination
      keeps its own content (unless it is the source itself), nothing else
      changes, and the reply carries `renamed` with a root-relative
      `final_path` that resolves back to where the file went. */
  lemma MoveFileAutoRename(fs: FS, root: Path, ts: nat, source: string, destination: string)
    requires WellFormed(fs) && Canonical(root)
    requires SafePath(root, source).Ok? && SafePath(root, destination).Ok?
    requires IsFile(fs, SafePath(root, source).value)
    requires SafePath(root, destination).value in fs && SafePath(root, destination).value != root
    requires FirstFree(fs, SafePath(root, destination).value, 1).Some?
    ensures var r, src, dst := MoveFile(fs, root, ts, source, destination, true),
                               SafePath(root, source).value, SafePath(root, destination).value;
      var final := SafeName(fs, dst, ts);
      var shown := RenderRel(final[|root|..]);
      && final !in fs && Parent(final) == Parent(dst)
      && r.0 == Success("Moved " + source + " to " + shown + " (renamed to avoid overwrite)", Some(shown))
      && SafePath(root, shown) == Ok(final)
      && final in r.1 && r.1[final] == fs[src] && src !in r.1
      && (src != dst ==> dst in r.1 && r.1[dst] == fs[dst])
      && (forall q | q in fs && q != src :: q in r.1 && r.1[q] == fs[q])
      && r.1.Keys == fs.Keys - {src} + {final}
  {
    var src, dst := SafePath(root, source).value, SafePath(root, destination).value;
    RenamedTarget(fs, root, dst, ts);
    ShownResolves(root, SafeName(fs, dst, ts));
    RelocateFileBesideTaken(fs, root, ts, src, dst);
    MoveFileReply(fs, root, ts, source, destination, true);
  }

  /** The tree side of an auto-renamed file move: the content lands on the
      free sibling, and the key set changes by exactly the source and that
      sibling. */
  lemma RelocateFileBesideTaken(fs: FS, root: Path, ts: nat, src: Path, dst: Path)
    requires WellFormed(fs) && Canonical(root) && Canonical(dst) && IsFile(fs, src)
    requires Below(dst, root) && dst != root && dst in fs
    requires FirstFree(fs, dst, 1).Some?
    ensures var m, final := Relocate(fs, root, ts, src, dst), SafeName(fs, dst, ts);
      && m.Moved? && m.final == final
      && final in m.fs && m.fs[final] == fs[src] && src !in m.fs
      && (forall q | q in fs && q != src :: q in m.fs && m.fs[q] == fs[q])
      && m.fs.Keys == fs.Keys - {src} + {final}
  {
    RenamedTarget(fs, root, dst, ts);
    var final := SafeName(fs, dst, ts);
    RelocateFileFree(fs, root, ts, src, dst);
    var m := Relocate(fs, root, ts, src, dst);
    forall q | q in m.fs && q !in fs
      ensures q == final
    {
      if q != final {
        assert q <= Parent(dst);
        if q != Parent(dst) {
          AncestorsAreDirs(fs, Parent(dst), q);
        }
      }
    }
    KeysAfterSingleMove(fs, m.fs, src, final);
  }

  /** Once the checks pass, move_directory's reply is the one built from the move. */
  lemma MoveDirectoryReply(fs: FS, root: Path, ts: nat, source: string, destination: string,
                           autoRename: bool)
    requires Canonical(root)
    requires SafePath(root, source).Ok? && SafePath(root, destination).Ok?
    requires IsDir(fs, SafePath(root, source).value)
    requires SafePath(root, destination).value in fs ==> autoRename
    requires Relocate(fs, root, ts, SafePath(root, source).value, SafePath(root, destination).value).Moved?
    ensures var m := Relocate(fs, root, ts, SafePath(root, source).value, SafePath(root, destination).value);
      MoveDirectory(fs, root, ts, source, destination, autoRename)
      == MovedReply(root, source, destination, SafePath(root, destination).value, m.final, m.fs,
                    "Moved directory ", " (renamed to avoid conflicts)", "Failed to move directory: ")
  {
  }

  /** A move_directory with no conflict: the whole subtree arrives intact
      under the destination, the missing parents are created, and nothing
      else changes. */
  lemma MoveDirectoryNoConflict(fs: FS, root: Path, ts: nat, source: string, destination: string,
                                autoRename: bool)
    requires WellFormed(fs) && Canonical(root)
    requires SafePath(root, source).Ok? && SafePath(root, destination).Ok?
    requires IsDir(fs, SafePath(root, source).value)
    requires SafePath(root, destination).value !in fs
    requires ClearWay(fs, SafePath(root, destination).value)
    requires !(SafePath(root, source).value < SafePath(root, destination).value)
    ensures var r, src, dst := MoveDirectory(fs, root, ts, source, destination, autoRename),
                               SafePath(root, source).value, SafePath(root, destination).value;
      && r.0 == Success("Moved directory " + source + " to " + destination, None)
      && (forall q | q in fs && src <= q ::
            q !in r.1 && dst + q[|src|..] in r.1 && r.1[dst + q[|src|..]] == fs[q])
      && (forall q | q in fs && !(src <= q) :: q in r.1 && r.1[q] == fs[q])
      && (forall q | q in r.1 && !(dst <= q) :: q in fs || (q < dst && r.1[q] == Dir))
  {
    var src, dst := SafePath(root, source).value, SafePath(root, destination).value;
    assert FinalTarget(fs, dst, ts) == dst;
    assert src != dst;
    RelocateFree(fs, root, ts, src, dst);
    MoveDirectoryReply(fs, root, ts, source, destination, autoRename);
    var m := Relocate(fs, root, ts, src, dst);
    assert MoveDirectory(fs, root, ts, source, destination, autoRename)
      == (Success("Moved directory " + source + " to " + destination, None), m.fs);
  }

  /** The tree side of an auto-renamed directory move: the subtree lands
      intact on the free sibling and nothing lands under the destination. */
  lemma RelocateBesideTaken(fs: FS, root: Path, ts: nat, src: Path, dst: Path)
    requires WellFormed(fs) && Canonical(root) && Canonical(dst) && src in fs
    requires Below(dst, root) && dst != root && dst in fs
    requires FirstFree(fs, dst, 1).Some?
    requires !(src < dst)
    ensures var m, final := Relocate(fs, root, ts, src, dst), FinalTarget(fs, dst, ts);
      && m.Moved? && m.final == final
      && (forall q | q in fs && src <= q ::
            q !in m.fs && final + q[|src|..] in m.fs && m.fs[final + q[|src|..]] == fs[q])
      && (forall q | q in fs && !(src <= q) :: q in m.fs && m.fs[q] == fs[q])
      && (forall q | q in m.fs && dst <= q :: q in fs)
  {
    RenamedTarget(fs, root, dst, ts);
    var final := FinalTarget(fs, dst, ts);
    SiblingPrefixes(src, dst, final);
    RelocateFree(fs, root, ts, src, dst);
    var m := Relocate(fs, root, ts, src, dst);
    forall q | q in m.fs && dst <= q
      ensures q in fs
    {
      SiblingNotAbove(dst, final, q);
    }
  }

  /** A path under one of two distinct same-length paths is neither under
      nor above the other. */
  lemma SiblingNotAbove(dst: Path, final: Path, q: Path)
    requires |final| == |dst| && final != dst && dst <= q
    ensures !(final <= q) && !(q < final)
  {
    assert q[..|dst|] == dst;
  }

  /** Two distinct siblings: neither path under one is under the other, and
      what is not above the one is not above the other. */
  lemma SiblingPrefixes(src: Path, dst: Path, final: Path)
    requires dst != [] && final != [] && Parent(final) == Parent(dst)
    requires final != dst && final != src && !(src < dst)
    ensures |final| == |dst|
    ensures !(src <= final)
  {
    assert |final| == |dst|;
    if |src| < |final| {
      assert final[..|src|] == dst[..|src|];
    }
  }

  /** A move_directory onto an existing destination with auto-rename never
      merges: the subtree goes intact to the first free numbered sibling,
      the destination's own subtree keeps every entry outside the moved
      directory (which may lie inside it, as in moving "a/b" to "a") and
      receives nothing, and the reply carries `renamed` with a root-relative
      `final_path` that resolves back to where the directory went. */
  lemma MoveDirectoryAutoRename(fs: FS, root: Path, ts: nat, source: string, destination: string)
    requires WellFormed(fs) && Canonical(root)
    requires SafePath(root, source).Ok? && SafePath(root, destination).Ok?
    requires IsDir(fs, SafePath(root, source).value)
    requires SafePath(root, destination).value in fs && SafePath(root, destination).value != root
    requires FirstFree(fs, SafePath(root, destination).value, 1).Some?
    requires !(SafePath(root, source).value < SafePath(root, destination).value)
    ensures var r, src, dst := MoveDirectory(fs, root, ts, source, destination, true),
                               SafePath(root, source).value, SafePath(root, destination).value;
      var final := SafeName(fs, dst, ts);
      var shown := RenderRel(final[|root|..]);
      && final !in fs && Parent(final) == Parent(dst)
      && r.0 == Success("Moved directory " + source + " to " + shown + " (renamed to avoid conflicts)",
                        Some(shown))
      && SafePath(root, shown) == Ok(final)
      && (forall q | q in fs && src <= q ::
            q !in r.1 && final + q[|src|..] in r.1 && r.1[final + q[|src|..]] == fs[q])
      && (forall q | q in fs && dst <= q && !(src <= q) :: q in r.1 && r.1[q] == fs[q])
      && (forall q | q in r.1 && dst <= q :: q in fs)
      && (forall q | q in fs && !(src <= q) :: q in r.1 && r.1[q] == fs[q])
  {
    var src, dst := SafePath(root, source).value, SafePath(root, destination).value;
    RenamedTarget(fs, root, dst, ts);
    ShownResolves(root, SafeName(fs, dst, ts));
    RelocateBesideTaken(fs, root, ts, src, dst);
    MoveDirectoryReply(fs, root, ts, source, destination, true);
  }

  /** move_directory of a directory onto itself with auto-rename moves it
      to its first free numbered sibling, "x" becoming "x (1)" when that is
      free, and reports the rename. */
  lemma MoveDirectoryOntoItself(fs: FS, root: Path, ts: nat, source: string)
    requires WellFormed(fs) && Canonical(root)
    requires SafePath(root, source).Ok? && IsDir(fs, SafePath(root, source).value)
    requires SafePath(root, source).value != root
    requires FirstFree(fs, SafePath(root, source).value, 1).Some?
    ensures var r, src := MoveDirectory(fs, root, ts, source, source, true), SafePath(root, source).value;
      var final := SafeName(fs, src, ts);
      var shown := RenderRel(final[|root|..]);
      && final != src && Parent(final) == Parent(src)
      && r.0 == Success("Moved directory " + source + " to " + shown + " (renamed to avoid conflicts)",
                        Some(shown))
      && src !in r.1 && final in r.1 && r.1[final] == Dir
  {
    var src := SafePath(root, source).value;
    var final := SafeName(fs, src, ts);
    MoveDirectoryAutoRename(fs, root, ts, source, source);
    var r := MoveDirectory(fs, root, ts, source, source, true);
    assert src in fs && src <= src;
    assert src[|src|..] == [] && final + src[|src|..] == final;
    assert final in r.1 && r.1[final] == fs[src];
  }

  /** A rename_file onto a free name whose parent directory exists: the
      whole entry (a directory with everything under it) appears under the
      new name, the old name is gone, and nothing else changes. */
  lemma RenameFileMoves(fs: FS, root: Path, oldName: string, newName: string)
    requires WellFormed(fs) && Canonical(root)
    requires SafePath(root, oldName).Ok? && SafePath(root, newName).Ok?
    requires SafePath(root, oldName).value in fs && SafePath(root, newName).value !in fs
    requires IsDir(fs, Parent(SafePath(root, newName).value))
    requires !(SafePath(root, oldName).value <= SafePath(root, newName).value)
    ensures var r, from, to := RenameFile(fs, root, oldName, newName),
                               SafePath(root, oldName).value, SafePath(root, newName).value;
      && r.0 == Success("Renamed " + oldName + " to " + newName, None)
      && (forall q | q in fs && from <= q ::
            q !in r.1 && to + q[|from|..] in r.1 && r.1[to + q[|from|..]] == fs[q])
      && (forall q | q in fs && !(from <= q) :: q in r.1 && r.1[q] == fs[q])
      && (forall q | q in r.1 && !(to <= q) :: q in fs)
  {
    var from, to := SafePath(root, oldName).value, SafePath(root, newName).value;
    OsRenameCanTransplant(fs, from, to);
    assert OsRename(fs, from, to).Ok?;
    TransplantToFree(fs, from, to);
  }

  /** rename_file of a directory to a free name inside itself reports
      os.rename's EINVAL (EBUSY for "/") and changes nothing. */
  lemma RenameFileIntoItself(fs: FS, root: Path, oldName: string, newName: string)
    requires WellFormed(fs) && Canonical(root)
    requires SafePath(root, oldName).Ok? && SafePath(root, newName).Ok?
    requires IsDir(fs, SafePath(root, oldName).value)
    requires SafePath(root, oldName).value < SafePath(root, newName).value
    requires SafePath(root, newName).value !in fs
    requires IsDir(fs, Parent(SafePath(root, newName).value))
    ensures var r, e := RenameFile(fs, root, oldName, newName),
                        OsFailure(if SafePath(root, oldName).value == [] then Busy else InvalidArgument);
      r == (Failure(Raised(e), "Failed to rename: " + Describe(e)), fs)
  {
    var from, to := SafePath(root, oldName).value, SafePath(root, newName).value;
    OsRenameIntoItself(fs, from, to);
  }

  /** rename_file to a free name below a file reports os.rename's ENOTDIR
      and changes nothing. */
  lemma RenameFileUnderFile(fs: FS, root: Path, oldName: string, newName: string, j: nat)
    requires WellFormed(fs) && Canonical(root)
    requires SafePath(root, oldName).Ok? && SafePath(root, newName).Ok?
    requires SafePath(root, oldName).value in fs && SafePath(root, newName).value !in fs
    requires j < |SafePath(root, newName).value| && IsFile(fs, SafePath(root, newName).value[..j])
    ensures var r, e := RenameFile(fs, root, oldName, newName), OsFailure(NotADirectory);
      r == (Failure(Raised(e), "Failed to rename: " + Describe(e)), fs)
  {
    var from, to := SafePath(root, oldName).value, SafePath(root, newName).value;
    OsRenameUnderFile(fs, from, to, j);
  }

  /** create_directory of a new path with no file on its way creates the
      path and exactly its missing ancestors, all as directories, and
      changes nothing else. */
  lemma CreateDirectoryCreates(fs: FS, root: Path, path: string)
    requires WellFormed(fs) && Canonical(root)
    requires SafePath(root, path).Ok? && SafePath(root, path).value !in fs
    requires ClearWay(fs, SafePath(root, path).value)
    ensures var r, target := CreateDirectory(fs, root, path), SafePath(root, path).value;
      && r.0 == Success("Created directory " + path, None)
      && r.1.Keys == fs.Keys + Ancestry(target)
      && (forall q | q in fs :: r.1[q] == fs[q])
      && (forall q | q in r.1 && q !in fs :: r.1[q] == Dir)
  {
    var target := SafePath(root, path).value;
    assert MakeDirs(fs, target).Ok?;
    MakeDirsWellFormed(fs, target);
    var fs' := MakeDirs(fs, target).value;
    forall q | q in Ancestry(target)
      ensures q in fs'
    {
      if q != target {
        AncestorsAreDirs(fs', target, q);
      }
    }
  }

  /** Creating the same directory twice: the second call reports that it
      already exists and changes nothing. */
  lemma CreateDirectoryTwice(fs: FS, root: Path, path: string)
    requires Canonical(root)
    requires CreateDirectory(fs, root, path).0.Success?
    ensures var fs' := CreateDirectory(fs, root, path).1;
      CreateDirectory(fs', root, path) == (Failure(Taken, "Directory already exists: " + path), fs')
  {
  }

  /** get_file_info reports a contents count of zero for a directory other
      than "/" exactly when remove_empty_directory would remove it. */
  lemma EmptyCountMatchesRemoval(fs: FS, root: Path, path: string)
    requires Canonical(root)
    requires SafePath(root, path).Ok? && SafePath(root, path).value != []
    requires IsDir(fs, SafePath(root, path).value)
    ensures GetFileInfo(fs, root, path).contentsCount == Some(0)
        <==> RemoveEmptyDirectory(fs, root, path).0.Success?
  {
  }

  /** Every entry of a listed directory is listed, and every listed `path`
      is a root-relative path that resolves back to that entry. */
  lemma ListingRoundTrip(fs: FS, root: Path, path: string)
    requires WellFormed(fs) && Canonical(root)
    requires ListDirectory(fs, root, path).Ok? && ListDirectory(fs, root, path).value.Listing?
    ensures var items, t := ListDirectory(fs, root, path).value.items, SafePath(root, path).value;
      && (forall c | c in Children(fs, t) ::
            ItemOf(fs, root, c) in items && SafePath(root, ItemOf(fs, root, c).path) == Ok(c))
      && (forall it | it in items :: exists c | c in Children(fs, t) :: it == ItemOf(fs, root, c))
  {
    var t := SafePath(root, path).value;
    forall c | c in Children(fs, t)
      ensures SafePath(root, ItemOf(fs, root, c).path) == Ok(c)
    {
      assert Below(c, root) by {
        assert t <= c;
      }
      ShownResolves(root, c);
    }
  }

  /** The preview and the real move agree: with the same clock reading, a
      successful move_file reports `renamed` exactly when the preview
      reported a conflict, and lands where the preview said it would. */
  lemma PreviewMatchesMoveFile(fs: FS, root: Path, ts: nat, source: string, destination: string)
    requires Canonical(root)
    requires GetMovePreview(fs, root, ts, source, destination).Previewed?
    requires MoveFile(fs, root, ts, source, destination, true).0.Success?
    ensures var p, r := GetMovePreview(fs, root, ts, source, destination).preview,
                        MoveFile(fs, root, ts, source, destination, true).0;
      && (p.conflict <==> r.finalPath.Some?)
      && p.autoRenameTo == r.finalPath
  {
    var src, dst := SafePath(root, source).value, SafePath(root, destination).value;
    MoveFileReply(fs, root, ts, source, destination, true);
  }

  /** The same agreement for move_directory. */
  lemma PreviewMatchesMoveDirectory(fs: FS, root: Path, ts: nat, source: string, destination: string)
    requires Canonical(root)
    requires GetMovePreview(fs, root, ts, source, destination).Previewed?
    requires MoveDirectory(fs, root, ts, source, destination, true).0.Success?
    ensures var p, r := GetMovePreview(fs, root, ts, source, destination).preview,
                        MoveDirectory(fs, root, ts, source, destination, true).0;
      && (p.conflict <==> r.finalPath.Some?)
      && p.autoRenameTo == r.finalPath
  {
    var src, dst := SafePath(root, source).value, SafePath(root, destination).value;
    MoveDirectoryReply(fs, root, ts, source, destination, true);
  }

  /** How many of the matches `ms` (texts relative to `root`) are files of `fs`. */
  function FileCount(fs: FS, root: Path, ms: seq<string>): (n: nat)
    ensures n <= |ms|
    ensures n == |ms| <==> forall i | 0 <= i < |ms| :: IsFile(fs, Resolve(root, ms[i]))
  {
    if ms == [] then 0
    else (if IsFile(fs, Resolve(root, ms[0])) then 1 else 0) + FileCount(fs, root, ms[1..])
  }

  /** The count depends only on whether each match is a file. */
  lemma {:induction false} FileCountFrame(fs: FS, fs': FS, root: Path, ms: seq<string>)
    requires forall i | 0 <= i < |ms| :: IsFile(fs', Resolve(root, ms[i])) == IsFile(fs, Resolve(root, ms[i]))
    ensures FileCount(fs', root, ms) == FileCount(fs, root, ms)
    decreases |ms|
  {
    if ms != [] {
      FileCountFrame(fs, fs', root, ms[1..]);
    }
  }

  /** Once its paths resolve and the source is a file, move_file either
      leaves the tree alone or leaves it as the shared move tail did. */
  lemma MoveFileState(fs: FS, root: Path, ts: nat, source: string, destination: string,
                      autoRename: bool)
    requires Canonical(root)
    requires SafePath(root, source).Ok? && SafePath(root, destination).Ok?
    requires IsFile(fs, SafePath(root, source).value)
    ensures var r := MoveFile(fs, root, ts, source, destination, autoRename);
      r.1 == fs
      || r.1 == Relocate(fs, root, ts, SafePath(root, source).value, SafePath(root, destination).value).fs
  {
    var src, dst := SafePath(root, source).value, SafePath(root, destination).value;
    if !(dst in fs && !autoRename) {
      var m := Relocate(fs, root, ts, src, dst);
      assert MoveFile(fs, root, ts, source, destination, autoRename).1 == m.fs;
    }
  }

  /** A completed move tail is a directory creation followed by shutil.move. */
  lemma RelocateMovedSteps(fs: FS, root: Path, ts: nat, src: Path, dst: Path)
    requires Relocate(fs, root, ts, src, dst).Moved?
    ensures var final := FinalTarget(fs, dst, ts);
      && Relocate(fs, root, ts, src, dst).final == final
      && MakeDirs(fs, Parent(final)).Ok?
      && ShutilMove(MakeDirs(fs, Parent(final)).value, src, final) == Ok(Relocate(fs, root, ts, src, dst).fs)
  {
  }

  /** A successful shutil.move leaves the tree unchanged (a directory moved
      onto itself) or transplants the source to its target. */
  lemma ShutilMoveSteps(fs: FS, src: Path, dst: Path)
    requires ShutilMove(fs, src, dst).Ok?
    ensures ShutilMove(fs, src, dst).value == fs
         || ShutilMove(fs, src, dst).value == Transplant(fs, src, MoveTarget(fs, src, dst))
  {
  }

  /** A transplant to a target strictly inside `dstDir` keeps `dstDir`
      and everything outside both the source and `dstDir`, and drops the
      source subtree outside `dstDir`. */
  lemma TransplantIntoDir(fs: FS, src: Path, target: Path, dstDir: Path)
    requires IsDir(fs, dstDir) && dstDir < target && !(src <= dstDir)
    ensures IsDir(Transplant(fs, src, target), dstDir)
    ensures forall q | !(dstDir <= q) && !(src <= q) ::
      IsFile(Transplant(fs, src, target), q) == IsFile(fs, q)
    ensures forall q | !(dstDir <= q) && src <= q :: q !in Transplant(fs, src, target)
  {
    TransplantFrame(fs, src, target, dstDir);
    forall q | !(dstDir <= q)
      ensures q in Transplant(fs, src, target) <==> q in fs && !(src <= q)
      ensures q in Transplant(fs, src, target) ==> Transplant(fs, src, target)[q] == fs[q]
    {
      assert !(target <= q);
      TransplantFrame(fs, src, target, q);
    }
  }

  /** The tree side of RelocateIntoDir once the move went through. */
  lemma MovedIntoDir(fs: FS, fs1: FS, fs2: FS, m: Path, final: Path, dstDir: Path)
    requires WellFormed(fs) && IsFile(fs, m) && IsDir(fs, dstDir) && !(dstDir <= m)
    requires final != [] && Parent(final) == dstDir
    requires forall q | q in fs :: q in fs1 && fs1[q] == fs[q]
    requires forall q | q in fs1 && q !in fs :: fs1[q] == Dir
    requires fs2 == fs1 || fs2 == Transplant(fs1, m, MoveTarget(fs1, m, final))
    ensures IsDir(fs2, dstDir)
    ensures forall q | q != m && !(dstDir <= q) :: IsFile(fs2, q) == IsFile(fs, q)
  {
    assert !(m <= dstDir) by {
      if m < dstDir {
        NothingBelowFile(fs, m, dstDir);
      }
    }
    forall q | m < q
      ensures q !in fs
    {
      NothingBelowFile(fs, m, q);
    }
    assert forall q | q !in fs :: !IsFile(fs1, q);
    if fs2 != fs1 {
      var target := MoveTarget(fs1, m, final);
      assert dstDir < target;
      TransplantIntoDir(fs1, m, target, dstDir);
    }
  }

  /** Moving a file into the existing directory `dstDir` changes the
      file-ness of nothing but the file itself and paths under `dstDir`,
      and `dstDir` stays a directory. */
  lemma RelocateIntoDir(fs: FS, root: Path, ts: nat, m: Path, dst: Path, dstDir: Path)
    requires WellFormed(fs) && IsFile(fs, m) && IsDir(fs, dstDir) && !(dstDir <= m)
    requires dst != [] && Parent(dst) == dstDir
    ensures var fs' := Relocate(fs, root, ts, m, dst).fs;
      && IsDir(fs', dstDir)
      && forall q | q != m && !(dstDir <= q) :: IsFile(fs', q) == IsFile(fs, q)
  {
    var final := FinalTarget(fs, dst, ts);
    var r := Relocate(fs, root, ts, m, dst);
    if r.Moved? {
      assert Parent(final) == dstDir && final != [];
      RelocateMovedSteps(fs, root, ts, m, dst);
      var fs1 := MakeDirs(fs, Parent(final)).value;
      ShutilMoveSteps(fs1, m, final);
      MovedIntoDir(fs, fs1, r.fs, m, final, dstDir);
    }
  }

  /** One turn of the bulk loop on a match that is a file outside the
      destination directory and whose name is a proper component: move_file
      returns a success or an error dictionary, keeps the tree well formed
      and `dstDir` a directory, and changes the file-ness of nothing outside
      the match and `dstDir`. */
  lemma BulkStep(fs: FS, root: Path, ts: nat, s: string, dstDir: Path, autoRename: bool)
    requires WellFormed(fs) && Canonical(root)
    requires Canonical(dstDir) && Below(dstDir, root) && IsDir(fs, dstDir)
    requires IsFile(fs, Resolve(root, s)) && !(dstDir <= Resolve(root, s))
    requires IsComponent(GlobName(root, s))
    ensures var r := MoveFile(fs, root, ts, s, BulkTarget(dstDir, GlobName(root, s)), autoRename);
      && WellFormed(r.1) && IsDir(r.1, dstDir)
      && (r.0.Success? || r.0.Failure?)
      && forall q | q != Resolve(root, s) && !(dstDir <= q) :: IsFile(r.1, q) == IsFile(fs, q)
  {
    var m, dst := Resolve(root, s), dstDir + [GlobName(root, s)];
    assert Canonical(dst);
    assert BulkTarget(dstDir, GlobName(root, s)) == Render(dst);
    SafePathAbsolute(root, dst);
    MoveFileWellFormed(fs, root, ts, s, Render(dst), autoRename);
    if SafePath(root, s).Ok? {
      MoveFileState(fs, root, ts, s, Render(dst), autoRename);
      assert Parent(dst) == dstDir;
      RelocateIntoDir(fs, root, ts, m, dst, dstDir);
    }
  }

  /** The number of matches that are files when their turn comes: each one
      that is a file is handed to move_file, and the next match is tested
      against the tree move_file leaves. */
  ghost function FilesAtTurn(fs: FS, root: Path, ts: nat, ms: seq<string>, dstDir: Path,
                             autoRename: bool): (n: nat)
    requires Canonical(root)
    ensures n <= |ms|
    decreases |ms|
  {
    if ms == [] then 0
    else if !IsFile(fs, Resolve(root, ms[0])) then
      FilesAtTurn(fs, root, ts, ms[1..], dstDir, autoRename)
    else
      var fs' := MoveFile(fs, root, ts, ms[0], BulkTarget(dstDir, GlobName(root, ms[0])), autoRename).1;
      1 + FilesAtTurn(fs', root, ts, ms[1..], dstDir, autoRename)
  }

  /** For any matches at all (repeated, outside the root, below the
      destination), the bulk loop completes, adds exactly one moved, renamed
      or error entry per match that is a file when its turn comes, and
      keeps the tree well formed. */
  lemma {:induction false} BulkLoopCounts(fs: FS, root: Path, ts: nat, ms: seq<string>, dstDir: Path,
                                          autoRename: bool, acc: BulkOutcome)
    requires WellFormed(fs) && Canonical(root) && acc.BulkDone?
    ensures var r := BulkLoop(fs, root, ts, ms, dstDir, autoRename, acc);
      && Total(r.0) == Total(acc) + FilesAtTurn(fs, root, ts, ms, dstDir, autoRename)
      && WellFormed(r.1)
    decreases |ms|
  {
    if ms != [] {
      var s := ms[0];
      var t := BulkTurn(fs, root, ts, s, dstDir, autoRename, acc);
      assert BulkLoop(fs, root, ts, ms, dstDir, autoRename, acc)
          == BulkLoop(t.1, root, ts, ms[1..], dstDir, autoRename, t.0);
      if !IsFile(fs, Resolve(root, s)) {
        BulkLoopCounts(fs, root, ts, ms[1..], dstDir, autoRename, acc);
      } else {
        var dest := BulkTarget(dstDir, GlobName(root, s));
        MoveFileWellFormed(fs, root, ts, s, dest, autoRename);
        assert t.1 == MoveFile(fs, root, ts, s, dest, autoRename).1;
        BulkLoopCounts(t.1, root, ts, ms[1..], dstDir, autoRename, t.0);
      }
    }
  }

  /** A match outside the root that is a file gets an error entry naming it,
      with the tree unchanged, and the loop carries on: it does not abort
      the bulk move. */
  lemma BulkOutsideRecorded(fs: FS, root: Path, ts: nat, s: string, rest: seq<string>, dstDir: Path,
                            autoRename: bool, acc: BulkOutcome)
    requires Canonical(root) && acc.BulkDone?
    requires IsFile(fs, Resolve(root, s)) && !Below(Resolve(root, s), root)
    ensures BulkLoop(fs, root, ts, [s] + rest, dstDir, autoRename, acc)
         == BulkLoop(fs, root, ts, rest, dstDir, autoRename,
                     acc.(errors := acc.errors + [ErrorEntry(s, "Failed to move file: " + Describe(OutsideRoot(s)))]))
  {
    assert ([s] + rest)[1..] == rest;
  }

  /** The matches resolve to distinct paths outside `dstDir`, and each is
      named by a proper component. */
  ghost predicate DistinctOutside(root: Path, ms: seq<string>, dstDir: Path)
  {
    && (forall i | 0 <= i < |ms| :: IsComponent(GlobName(root, ms[i])) && !(dstDir <= Resolve(root, ms[i])))
    && (forall i, j | 0 <= i < j < |ms| :: Resolve(root, ms[i]) != Resolve(root, ms[j]))
  }

  /** A turn that changes the file-ness of nothing but its own match and
      paths under `dstDir` leaves the count of the remaining matches alone,
      and those remaining matches are still distinct and outside `dstDir`. */
  lemma FramedTail(fs: FS, fs': FS, root: Path, ms: seq<string>, dstDir: Path)
    requires ms != [] && DistinctOutside(root, ms, dstDir)
    requires forall q | q != Resolve(root, ms[0]) && !(dstDir <= q) :: IsFile(fs', q) == IsFile(fs, q)
    ensures FileCount(fs', root, ms[1..]) == FileCount(fs, root, ms[1..])
    ensures DistinctOutside(root, ms[1..], dstDir)
  {
    forall i | 0 <= i < |ms[1..]|
      ensures IsFile(fs', Resolve(root, ms[1..][i])) == IsFile(fs, Resolve(root, ms[1..][i]))
    {
      assert ms[1..][i] == ms[i + 1];
      assert Resolve(root, ms[i + 1]) != Resolve(root, ms[0]);
    }
    FileCountFrame(fs, fs', root, ms[1..]);
    DistinctOutsideTail(root, ms, dstDir);
  }

  lemma DistinctOutsideTail(root: Path, ms: seq<string>, dstDir: Path)
    requires ms != [] && DistinctOutside(root, ms, dstDir)
    ensures DistinctOutside(root, ms[1..], dstDir)
  {
    forall i, j | 0 <= i < j < |ms[1..]|
      ensures Resolve(root, ms[1..][i]) != Resolve(root, ms[1..][j])
    {
      assert ms[1..][i] == ms[i + 1] && ms[1..][j] == ms[j + 1];
    }
  }

  /** Over matches that resolve to distinct paths outside the destination
      directory, with proper names, being a file at one's turn is being a
      file at the start: the loop counts exactly the matched files, and the
      destination stays a directory. */
  lemma {:induction false} BulkLoopDistinct(fs: FS, root: Path, ts: nat, ms: seq<string>, dstDir: Path,
                                            autoRename: bool, acc: BulkOutcome)
    requires WellFormed(fs) && Canonical(root) && acc.BulkDone?
    requires Canonical(dstDir) && Below(dstDir, root) && IsDir(fs, dstDir)
    requires DistinctOutside(root, ms, dstDir)
    ensures FilesAtTurn(fs, root, ts, ms, dstDir, autoRename) == FileCount(fs, root, ms)
    ensures IsDir(BulkLoop(fs, root, ts, ms, dstDir, autoRename, acc).1, dstDir)
    decreases |ms|
  {
    if ms != [] {
      var s := ms[0];
      var t := BulkTurn(fs, root, ts, s, dstDir, autoRename, acc);
      assert BulkLoop(fs, root, ts, ms, dstDir, autoRename, acc)
          == BulkLoop(t.1, root, ts, ms[1..], dstDir, autoRename, t.0);
      if !IsFile(fs, Resolve(root, s)) {
        DistinctOutsideTail(root, ms, dstDir);
        BulkLoopDistinct(fs, root, ts, ms[1..], dstDir, autoRename, acc);
      } else {
        BulkStep(fs, root, ts, s, dstDir, autoRename);
        assert t.1 == MoveFile(fs, root, ts, s, BulkTarget(dstDir, GlobName(root, s)), autoRename).1;
        FramedTail(fs, t.1, root, ms, dstDir);
        BulkLoopDistinct(t.1, root, ts, ms[1..], dstDir, autoRename, t.0);
      }
    }
  }

  /** bulk_move_files accounting for any matches: a completed call holds
      one moved, renamed or error entry per match that is a file when its
      turn comes (on the tree after the destination directory was created),
      and the tree stays well formed whatever happens. */
  lemma BulkAccounting(fs: FS, root: Path, ts: nat, globs: seq<Result<seq<string>, Exc>>,
                       destinationDir: string, autoRename: bool)
    requires WellFormed(fs) && Canonical(root)
    ensures var r := BulkMoveFiles(fs, root, ts, globs, destinationDir, autoRename);
      && WellFormed(r.1)
      && (r.0.BulkDone? ==>
            var dstDir := SafePath(root, destinationDir).value;
            Total(r.0) == FilesAtTurn(MakeDirs(fs, dstDir).value, root, ts, Globbed(globs), dstDir, autoRename))
  {
    if SafePath(root, destinationDir).Ok? {
      var dstDir := SafePath(root, destinationDir).value;
      if MakeDirs(fs, dstDir).Ok? {
        MakeDirsWellFormed(fs, dstDir);
        BulkLoopCounts(MakeDirs(fs, dstDir).value, root, ts, Globbed(globs), dstDir, autoRename, BulkDone([], [], []));
      }
    }
  }

  /** Creating the destination directory changes no match's file-ness, so
      over distinct matches outside it the loop counts the files there at
      the very start. */
  lemma MadeDirsDistinct(fs: FS, root: Path, ts: nat, ms: seq<string>, dstDir: Path, autoRename: bool)
    requires WellFormed(fs) && Canonical(root)
    requires Canonical(dstDir) && Below(dstDir, root) && MakeDirs(fs, dstDir).Ok?
    requires DistinctOutside(root, ms, dstDir)
    ensures var fs1 := MakeDirs(fs, dstDir).value;
      && FilesAtTurn(fs1, root, ts, ms, dstDir, autoRename) == FileCount(fs, root, ms)
      && IsDir(BulkLoop(fs1, root, ts, ms, dstDir, autoRename, BulkDone([], [], [])).1, dstDir)
  {
    MakeDirsWellFormed(fs, dstDir);
    var fs1 := MakeDirs(fs, dstDir).value;
    forall i | 0 <= i < |ms|
      ensures IsFile(fs1, Resolve(root, ms[i])) == IsFile(fs, Resolve(root, ms[i]))
    {
    }
    FileCountFrame(fs, fs1, root, ms);
    BulkLoopDistinct(fs1, root, ts, ms, dstDir, autoRename, BulkDone([], [], []));
  }

  /** bulk_move_files over matches that resolve to distinct paths outside
      the destination directory: a completed call holds exactly one entry
      per matched file and leaves the destination a directory. */
  lemma BulkAccountingDistinct(fs: FS, root: Path, ts: nat, globs: seq<Result<seq<string>, Exc>>,
                               destinationDir: string, autoRename: bool)
    requires WellFormed(fs) && Canonical(root)
    requires SafePath(root, destinationDir).Ok?
    requires DistinctOutside(root, Globbed(globs), SafePath(root, destinationDir).value)
    ensures var r := BulkMoveFiles(fs, root, ts, globs, destinationDir, autoRename);
      r.0.BulkDone? ==>
        && Total(r.0) == FileCount(fs, root, Globbed(globs))
        && IsDir(r.1, SafePath(root, destinationDir).value)
  {
    var dstDir := SafePath(root, destinationDir).value;
    BulkAccounting(fs, root, ts, globs, destinationDir, autoRename);
    if MakeDirs(fs, dstDir).Ok? {
      MadeDirsDistinct(fs, root, ts, Globbed(globs), dstDir, autoRename);
    }
  }

  /** The loop over a single match that is a file inside the root, whose
      place in the existing destination directory is free, moves it there. */
  lemma BulkSingleMove(fs: FS, root: Path, ts: nat, s: string, dstDir: Path, autoRename: bool)
    requires WellFormed(fs) && Canonical(root)
    requires Canonical(dstDir) && Below(dstDir, root) && IsDir(fs, dstDir)
    requires SafePath(root, s).Ok? && IsFile(fs, SafePath(root, s).value)
    requires IsComponent(GlobName(root, s))
    requires dstDir + [GlobName(root, s)] !in fs
    ensures var l, src, dst := BulkLoop(fs, root, ts, [s], dstDir, autoRename, BulkDone([], [], [])),
                               SafePath(root, s).value, dstDir + [GlobName(root, s)];
      src !in l.1 && dst in l.1 && l.1[dst] == fs[src]
  {
    var dst := dstDir + [GlobName(root, s)];
    assert Canonical(dst) && Below(dst, root);
    assert BulkTarget(dstDir, GlobName(root, s)) == Render(dst);
    SafePathAbsolute(root, dst);
    ExistingWayClear(fs, dstDir);
    assert ClearWay(fs, dst) by {
      forall i | 0 <= i < |dst| ensures !IsFile(fs, dst[..i]) {
        if i == |dstDir| { assert dst[..i] == dstDir; } else { assert dst[..i] == dstDir[..i]; }
      }
    }
    MoveFileNoConflict(fs, root, ts, s, Render(dst), autoRename);
    var t := BulkTurn(fs, root, ts, s, dstDir, autoRename, BulkDone([], [], []));
    assert BulkLoop(fs, root, ts, [s], dstDir, autoRename, BulkDone([], [], []))
        == BulkLoop(t.1, root, ts, [], dstDir, autoRename, t.0);
  }

  /** A glob that raises after an earlier pattern's file was moved: the
      reply is the whole call's failure, yet the file stays moved into the
      destination directory. */
  lemma BulkGlobFailureKeepsMove(fs: FS, root: Path, ts: nat, s: string, e: Exc,
                                 rest: seq<Result<seq<string>, Exc>>, destinationDir: string,
                                 autoRename: bool)
    requires WellFormed(fs) && Canonical(root)
    requires SafePath(root, destinationDir).Ok? && MakeDirs(fs, SafePath(root, destinationDir).value).Ok?
    requires SafePath(root, s).Ok? && IsFile(fs, SafePath(root, s).value)
    requires IsComponent(GlobName(root, s))
    requires SafePath(root, destinationDir).value + [GlobName(root, s)] !in fs
    ensures var r, src, dst := BulkMoveFiles(fs, root, ts, [Ok([s]), Err(e)] + rest, destinationDir, autoRename),
                               SafePath(root, s).value, SafePath(root, destinationDir).value + [GlobName(root, s)];
      && r.0 == BulkFailed("Bulk move failed: " + Describe(e))
      && src !in r.1 && dst in r.1 && r.1[dst] == fs[src]
  {
    var globs: seq<Result<seq<string>, Exc>> := [Ok([s]), Err(e)] + rest;
    var src, dstDir := SafePath(root, s).value, SafePath(root, destinationDir).value;
    var fs1 := MakeDirs(fs, dstDir).value;
    MakeDirsWellFormed(fs, dstDir);
    assert Globbed(globs[1..]) == [];
    assert Globbed(globs) == [s] + Globbed(globs[1..]);
    assert FirstRejected(globs, 1);
    assert IsFile(fs1, src);
    assert dstDir + [GlobName(root, s)] !in fs1;
    BulkSingleMove(fs1, root, ts, s, dstDir, autoRename);
    var r := BulkMoveFiles(fs, root, ts, globs, destinationDir, autoRename);
    var i :| FirstRejected(globs, i) && r.0.error == "Bulk move failed: " + Describe(globs[i].error);
    assert i == 1;
  }
}

=== FILE: json.dfy ===
/** The values `json.loads` produces, with Python's truthiness and `str()`. */
module Json {
  import opened Text

  /** A decoded JSON value. Numbers are integers only. */
  datatype Json =
    | JNull
    | JBool(b: bool)
    | JNum(n: int)
    | JStr(s: string)
    | JArr(items: seq<Json>)
    | JObj(fields: map<string, Json>)

  /** `bool(v)` */
  predicate Truthy(j: Json)
  {
    match j
    case JNull => false
    case JBool(b) => b
    case JNum(n) => n != 0
    case JStr(s) => s != ""
    case JArr(a) => a != []
    case JObj(m) => m != map[]
  }

  /** Lists and dicts cannot be dictionary keys. */
  predicate Hashable(j: Json)
  {
    !j.JArr? && !j.JObj?
  }

  /** `str(v)` for a hashable value. */
  function Show(j: Json): (r: string)
    requires Hashable(j)
    ensures j.JStr? ==> r == j.s
  {
    match j
    case JNull => "None"
    case JBool(b) => if b then "True" else "False"
    case JNum(n) => IntToString(n)
    case JStr(s) => s
  }

  /** `d.get(k)`: an absent key reads as `None`. */
  function Get(m: map<string, Json>, k: string): (r: Json)
    ensures k !in m ==> r == JNull
    ensures k in m ==> r == m[k]
  {
    if k in m then m[k] else JNull
  }

  /** `a or b` */
  function Or(a: Json, b: Json): (r: Json)
    ensures Truthy(r) <==> Truthy(a) || Truthy(b)
    ensures Truthy(a) ==> r == a
  {
    if Truthy(a) then a else b
  }
}

=== FILE: naming.dfy ===
/** `_generate_safe_filename`: the conflict-free sibling name used when a
    move target is taken. */
module Naming {
  import opened Results
  import opened Text
  import opened Paths
  import opened Tree

  /** The last counter tried before falling back to the timestamp. */
  const MaxCounter: nat := 9999

  /** `f"{stem} ({k}){suffix}"` */
  function Numbered(stem: string, k: nat, suffix: string): string
  {
    stem + " (" + NatToString(k) + ")" + suffix
  }

  /** `f"{stem}_{timestamp}{suffix}"` */
  function Stamped(stem: string, ts: nat, suffix: string): string
  {
    stem + "_" + NatToString(ts) + suffix
  }

  /** The sibling of `p` tried for counter `k`. */
  function Candidate(p: Path, k: nat): Path
  {
    Parent(p) + [Numbered(Stem(Name(p)), k, Suffix(Name(p)))]
  }

  /** The timestamp sibling of `p`. */
  function Fallback(p: Path, ts: nat): Path
  {
    Parent(p) + [Stamped(Stem(Name(p)), ts, Suffix(Name(p)))]
  }

  /** The first counter from `k` to 9999 whose candidate is free. */
  function FirstFree(fs: FS, p: Path, k: nat): (r: Option<nat>)
    requires 1 <= k
    ensures r.Some? ==> k <= r.value <= MaxCounter && Candidate(p, r.value) !in fs
    ensures r.Some? ==> forall j | k <= j < r.value :: Candidate(p, j) in fs
    ensures r.None? ==> forall j | k <= j <= MaxCounter :: Candidate(p, j) in fs
    decreases MaxCounter + 1 - k
  {
    if k > MaxCounter then None
    else if Candidate(p, k) !in fs then Some(k)
    else FirstFree(fs, p, k + 1)
  }

  /** `_generate_safe_filename(p)` with `int(time.time())` passed as `ts`:
      the candidate of the smallest free counter in 1..9999, otherwise the
      timestamp name, which is returned without checking that it is free. */
  function SafeName(fs: FS, p: Path, ts: nat): (r: Path)
    ensures
      || (exists k | 1 <= k <= MaxCounter ::
            && r == Candidate(p, k) && r !in fs
            && forall j | 1 <= j < k :: Candidate(p, j) in fs)
      || ((forall j | 1 <= j <= MaxCounter :: Candidate(p, j) in fs) && r == Fallback(p, ts))
  {
    match FirstFree(fs, p, 1)
    case Some(k) => Candidate(p, k)
    case None => Fallback(p, ts)
  }

  /** The generated name is a sibling of `p` and never `p` itself, so a
      move that needed it always reports `renamed`. */
  lemma SafeNameSibling(fs: FS, p: Path, ts: nat)
    ensures Parent(SafeName(fs, p, ts)) == Parent(p)
    ensures SafeName(fs, p, ts) != p
  {
    var r := SafeName(fs, p, ts);
    var name := Name(p);
    var stem, suffix := Stem(name), Suffix(name);
    var n := Name(r);
    assert r == Parent(p) + [n];
    assert |n| > |stem + suffix|;
    assert Parent(r) == Parent(p);
    if p != [] {
      assert p == Parent(p) + [name];
    }
  }

  /** The pieces of a name hold no '/' when the name holds none. */
  lemma StemSuffixNoSlash(name: string)
    requires '/' !in name
    ensures '/' !in Stem(name) && '/' !in Suffix(name)
  {
    var stem, suffix := Stem(name), Suffix(name);
    assert stem + suffix == name;
    assert forall i | 0 <= i < |stem| :: stem[i] == name[i];
    assert forall i | 0 <= i < |suffix| :: suffix[i] == name[|stem| + i];
  }

  /** `stem + mid + digits + suffix` is a proper component when no piece has
      a '/' and `mid` starts with something other than '.'. */
  lemma JoinedIsComponent(stem: string, mid: string, digits: string, suffix: string)
    requires '/' !in stem && '/' !in mid && '/' !in digits && '/' !in suffix
    requires mid != [] && mid[0] != '.'
    ensures IsComponent(stem + mid + digits + suffix)
  {
    var n := stem + mid + digits + suffix;
    assert n[|stem|] == mid[0];
    assert forall i | 0 <= i < |n| :: n[i] in stem || n[i] in mid || n[i] in digits || n[i] in suffix by {
      forall i | 0 <= i < |n|
        ensures n[i] in stem || n[i] in mid || n[i] in digits || n[i] in suffix
      {
        if i < |stem| {
          assert n[i] == stem[i];
        } else if i < |stem| + |mid| {
          assert n[i] == mid[i - |stem|];
        } else if i < |stem| + |mid| + |digits| {
          assert n[i] == digits[i - |stem| - |mid|];
        } else {
          assert n[i] == suffix[i - |stem| - |mid| - |digits|];
        }
      }
    }
  }

  /** A canonical path's parent with a proper component added is canonical. */
  lemma SiblingCanonical(p: Path, n: string)
    requires Canonical(p) && IsComponent(n)
    ensures Canonical(Parent(p) + [n])
  {
    var q := Parent(p) + [n];
    forall i | 0 <= i < |q|
      ensures IsComponent(q[i])
    {
      if i < |q| - 1 {
        assert q[i] == p[i];
      }
    }
  }

  /** Every numbered candidate of a canonical path is canonical. */
  lemma CandidateCanonical(p: Path, k: nat)
    requires Canonical(p)
    ensures Canonical(Candidate(p, k))
  {
    var name := Name(p);
    assert p != [] ==> name == p[|p| - 1];
    StemSuffixNoSlash(name);
    var stem, suffix := Stem(name), Suffix(name);
    JoinedIsComponent(stem, " (", NatToString(k), ")" + suffix);
    assert Numbered(stem, k, suffix) == stem + " (" + NatToString(k) + (")" + suffix);
    SiblingCanonical(p, Numbered(stem, k, suffix));
  }

  /** The timestamp sibling of a canonical path is canonical. */
  lemma FallbackCanonical(p: Path, ts: nat)
    requires Canonical(p)
    ensures Canonical(Fallback(p, ts))
  {
    var name := Name(p);
    assert p != [] ==> name == p[|p| - 1];
    StemSuffixNoSlash(name);
    var stem, suffix := Stem(name), Suffix(name);
    JoinedIsComponent(stem, "_", NatToString(ts), suffix);
    SiblingCanonical(p, Stamped(stem, ts, suffix));
  }

  /** Resolved paths keep resolved names: the generated name is a proper
      component. */
  lemma SafeNameCanonical(fs: FS, p: Path, ts: nat)
    requires Canonical(p)
    ensures Canonical(SafeName(fs, p, ts))
  {
    match FirstFree(fs, p, 1)
    case Some(k) => CandidateCanonical(p, k);
    case None => FallbackCanonical(p, ts);
  }
}

=== FILE: paths.dfy ===
/** POSIX paths as `pathlib` treats them, and the sandbox resolver
    `_safe_path` / `_validate_path` of SafeFilesystemOperations. */
module Paths {
  import opened Results
  import opened Text
  import opened Errors

  /** An absolute path as its list of components: `[]` is "/",
      `["a", "b"]` is "/a/b". */
  type Path = seq<string>

  /** A component of a resolved path: non-empty, not "." or "..", no slash. */
  predicate IsComponent(c: string)
  {
    c != "" && c != "." && c != ".." && '/' !in c
  }

  /** What `Path.resolve()` can return: only proper components. */
  ghost predicate Canonical(p: Path)
  {
    forall i | 0 <= i < |p| :: IsComponent(p[i])
  }

  /** `p` is `q` or lies below it (`p.is_relative_to(q)` for resolved paths). */
  predicate Below(p: Path, q: Path)
  {
    q <= p
  }

  /** `s.split("/")` */
  function Split(s: string): (r: seq<string>)
    ensures |r| >= 1
    ensures forall i | 0 <= i < |r| :: '/' !in r[i]
    decreases |s|
  {
    var i := Find(s, '/');
    if i == -1 then [s] else [s[..i]] + Split(s[i + 1..])
  }

  /** `"/".join(ps)` */
  function Join(ps: seq<string>): string
    decreases |ps|
  {
    if |ps| == 0 then "" else if |ps| == 1 then ps[0] else ps[0] + "/" + Join(ps[1..])
  }

  /** The first slash of `a + "/" + b` is the one after `a`. */
  lemma FindSlashAfter(a: string, b: string)
    requires '/' !in a
    ensures Find(a + "/" + b, '/') == |a|
  {
    var s := a + "/" + b;
    assert s[|a|] == '/';
    assert forall j | 0 <= j < |a| :: s[j] == a[j];
    assert forall i | |a| < i <= |s| :: s[..i][|a|] == '/';
  }

  /** Splitting undoes joining when no part contains a slash. */
  lemma {:induction false} SplitJoin(ps: seq<string>)
    requires |ps| >= 1
    requires forall i | 0 <= i < |ps| :: '/' !in ps[i]
    ensures Split(Join(ps)) == ps
    decreases |ps|
  {
    if |ps| > 1 {
      var rest := Join(ps[1..]);
      var s := ps[0] + "/" + rest;
      assert Join(ps) == s;
      FindSlashAfter(ps[0], rest);
      assert s[..|ps[0]|] == ps[0];
      assert s[|ps[0]| + 1..] == rest;
      SplitJoin(ps[1..]);
      assert ps == [ps[0]] + ps[1..];
    }
  }

  /** One component applied the way `Path.resolve()` does without symlinks:
      "" and "." are skipped, ".." drops the last component (and stays at
      "/"), anything else is appended. */
  function Step(acc: Path, c: string): Path
  {
    if c == "" || c == "." then acc
    else if c == ".." then (if acc == [] then [] else acc[..|acc| - 1])
    else acc + [c]
  }

  function Walk(acc: Path, parts: seq<string>): Path
    decreases |parts|
  {
    if parts == [] then acc else Walk(Step(acc, parts[0]), parts[1..])
  }

  /** Resolving never produces a "", "." or ".." component. */
  lemma {:induction false} WalkCanonical(acc: Path, parts: seq<string>)
    requires Canonical(acc)
    requires forall i | 0 <= i < |parts| :: '/' !in parts[i]
    ensures Canonical(Walk(acc, parts))
    decreases |parts|
  {
    if parts != [] {
      WalkCanonical(Step(acc, parts[0]), parts[1..]);
    }
  }

  /** Resolving components that are already proper appends them unchanged. */
  lemma {:induction false} WalkAppends(acc: Path, q: Path)
    requires Canonical(q)
    ensures Walk(acc, q) == acc + q
    decreases |q|
  {
    if q != [] {
      assert Step(acc, q[0]) == acc + [q[0]];
      WalkAppends(acc + [q[0]], q[1..]);
      assert acc + [q[0]] + q[1..] == acc + q;
    }
  }

  /** Without a ".." component, resolving only ever extends `acc`. */
  lemma {:induction false} WalkExtends(acc: Path, parts: seq<string>)
    requires ".." !in parts
    ensures acc <= Walk(acc, parts)
    decreases |parts|
  {
    if parts != [] {
      assert ".." !in parts[1..] by {
        assert forall i | 0 <= i < |parts[1..]| :: parts[1..][i] == parts[i + 1];
      }
      WalkExtends(Step(acc, parts[0]), parts[1..]);
    }
  }

  /** `Path(s).is_absolute()` on POSIX. */
  predicate IsAbsolute(s: string)
  {
    |s| > 0 && s[0] == '/'
  }

  /** `Path(s)` taken as-is when absolute, joined to `root` otherwise, and
      then resolved. */
  function Resolve(root: Path, s: string): Path
  {
    Walk(if IsAbsolute(s) then [] else root, Split(s))
  }

  /** `_validate_path`: `p`, resolved once more, is the root or below it. */
  function ValidatePath(root: Path, p: Path): bool
  {
    Below(Walk([], p), root)
  }

  /** `_safe_path`: the resolved path when it is confined to `root`,
      otherwise the ValueError it raises. The constructor resolves the root,
      so it is canonical. */
  function SafePath(root: Path, s: string): (r: Result<Path, Exc>)
    requires Canonical(root)
    ensures r.Ok? <==> Below(Resolve(root, s), root)
    ensures r.Ok? ==> Below(r.value, root) && Canonical(r.value) && r.value == Resolve(root, s)
    ensures r.Err? ==> r.error == OutsideRoot(s)
  {
    var full := Resolve(root, s);
    WalkCanonical(if IsAbsolute(s) then [] else root, Split(s));
    WalkAppends([], full);
    if ValidatePath(root, full) then Ok(full) else Err(OutsideRoot(s))
  }

  /** A relative input without a ".." component can never leave the root. */
  lemma RelativeStaysInside(root: Path, s: string)
    requires Canonical(root)
    requires !IsAbsolute(s) && ".." !in Split(s)
    ensures SafePath(root, s).Ok?
  {
    WalkExtends(root, Split(s));
  }

  /** "../c" names the root's sibling `c`, which is outside the root unless
      it is the root itself. */
  lemma ParentThenNameEscapes(root: Path, c: string)
    requires Canonical(root) && root != [] && IsComponent(c) && root[|root| - 1] != c
    ensures SafePath(root, "../" + c).Err?
  {
    var s := "../" + c;
    assert s == ".." + "/" + c;
    FindSlashAfter("..", c);
    assert s[..2] == ".." && s[3..] == c;
    assert Split(s) == ["..", c];
    var up := root[..|root| - 1];
    var r := up + [c];
    assert Walk(root, ["..", c]) == Walk(up, [c]) == Walk(r, []);
    assert |r| == |root| && r[|root| - 1] == c;
  }

  /** "../outside_directory" fails under every root except "/" and a root
      whose own name is "outside_directory" (where it names the root itself). */
  lemma ParentTraversalRejected(root: Path, s: string)
    requires Canonical(root) && root != [] && root[|root| - 1] != "outside_directory"
    requires s == "../outside_directory"
    ensures SafePath(root, s).Err?
  {
    var c := "outside_directory";
    assert IsComponent(c);
    assert s == "../" + c;
    ParentThenNameEscapes(root, c);
  }

  /** An absolute input is resolved as written, so it fails exactly when the
      root is not one of its ancestors. */
  lemma AbsoluteOutsideFails(root: Path, p: Path)
    requires Canonical(root) && Canonical(p) && !Below(p, root)
    ensures SafePath(root, Render(p)).Err?
  {
    SafePathAbsoluteSplit(p);
    WalkAppends([], p);
  }

  /** "/absolute/path/outside" fails unless the root is one of its ancestors. */
  lemma AbsoluteOutsideRejected(root: Path, s: string)
    requires Canonical(root) && !(root <= ["absolute", "path", "outside"])
    requires s == "/absolute/path/outside"
    ensures SafePath(root, s).Err?
  {
    var p := ["absolute", "path", "outside"];
    SampleAbsolutePath();
    AbsoluteOutsideFails(root, p);
  }

  lemma SampleAbsolutePath()
    ensures Canonical(["absolute", "path", "outside"])
    ensures Render(["absolute", "path", "outside"]) == "/absolute/path/outside"
  {
    assert IsComponent("absolute") && IsComponent("path") && IsComponent("outside");
    assert Join(["outside"]) == "outside";
    assert Join(["path", "outside"]) == "path" + "/" + "outside";
    assert Join(["absolute", "path", "outside"]) == "absolute" + "/" + "path/outside";
  }

  function Parent(p: Path): Path
  {
    if p == [] then [] else p[..|p| - 1]
  }

  /** `Path.name`: the last component, "" for "/". */
  function Name(p: Path): string
  {
    if p == [] then "" else p[|p| - 1]
  }

  /** Where `Path.suffix` starts: the last dot, unless it is the first or the
      last character (pathlib of Python 3.9 to 3.13). */
  function SuffixStart(name: string): (i: int)
    ensures i == -1 || 0 < i < |name| - 1
    ensures 0 < i ==> name[i] == '.' && '.' !in name[i + 1..]
  {
    var i := RFind(name, '.');
    if 0 < i < |name| - 1 then i else -1
  }

  /** `Path.stem` */
  function Stem(name: string): string
  {
    var i := SuffixStart(name);
    if i == -1 then name else name[..i]
  }

  /** `Path.suffix`; stem and suffix always put the name back together. */
  function Suffix(name: string): (r: string)
    ensures Stem(name) + r == name
    ensures r == [] || (r[0] == '.' && '.' !in r[1..])
  {
    var i := SuffixStart(name);
    if i == -1 then "" else name[i..]
  }

  /** `str(p)` for an absolute path. */
  function Render(p: Path): string
  {
    "/" + Join(p)
  }

  /** `str(q)` for a relative path: "." when empty. */
  function RenderRel(q: Path): string
  {
    if q == [] then "." else Join(q)
  }

  /** `p.relative_to(root)`, which raises ValueError outside the root. */
  function RelativeTo(root: Path, p: Path): (r: Result<Path, Exc>)
    ensures r.Ok? <==> Below(p, root)
    ensures r.Ok? ==> root + r.value == p
  {
    if Below(p, root) then Ok(p[|root|..]) else Err(NotRelative)
  }

  /** Rendering a resolved absolute path and resolving it again gives it back:
      this is what lets bulk_move_files hand `str(dst_dir / name)` to
      move_file. */
  lemma SafePathAbsolute(root: Path, p: Path)
    requires Canonical(root) && Canonical(p) && Below(p, root)
    ensures SafePath(root, Render(p)) == Ok(p)
  {
    SafePathAbsoluteSplit(p);
    WalkAppends([], p);
    assert Resolve(root, Render(p)) == p;
  }

  /** `str(p)` of an absolute path splits into "" followed by its components. */
  lemma SafePathAbsoluteSplit(p: Path)
    requires Canonical(p)
    ensures IsAbsolute(Render(p))
    ensures Walk([], Split(Render(p))) == Walk([], p)
  {
    var s := Render(p);
    FindSlashAfter("", Join(p));
    assert s == "" + "/" + Join(p);
    assert s[1..] == Join(p);
    if p == [] {
      assert Split(s) == [""] + Split("");
      assert Split("") == [""];
      assert Walk([], [""]) == Walk([], []) == [];
      assert Walk([], ["", ""]) == Walk([], [""]);
    } else {
      SplitJoin(p);
      assert Split(s) == [""] + p;
      assert Step([], "") == [];
    }
  }

  /** Rendering a path relative to the root and resolving it against the root
      gives the absolute path back: the `relative_source` of bulk_move_files
      and every `final_path` name the entry they came from. */
  lemma SafePathRelative(root: Path, q: Path)
    requires Canonical(root) && Canonical(q)
    ensures SafePath(root, RenderRel(q)) == Ok(root + q)
  {
    if q == [] {
      assert '/' !in ".";
      assert Split(".") == ["."];
      assert Walk(root, ["."]) == Walk(root, []) == root;
      assert Resolve(root, ".") == root;
      assert root + q == root;
    } else {
      SplitJoin(q);
      assert RenderRel(q)[0] == Join(q)[0] == q[0][0] by { JoinHead(q); }
      WalkAppends(root, q);
      assert Resolve(root, RenderRel(q)) == root + q;
    }
  }

  lemma {:induction false} JoinHead(q: Path)
    requires q != [] && q[0] != ""
    ensures Join(q) != [] && Join(q)[0] == q[0][0]
  {
  }
}

=== FILE: patterns.dfy ===
/** `_contains_dangerous_patterns`: the eight regular expressions of the
    validator, searched case-insensitively, written out as predicates on
    the text. */
module Patterns {
  import opened Text

  /** The character `re.IGNORECASE` compares for a str pattern: the simple
      lower case (which maps A-Z, the KELVIN SIGN and the dotted capital I
      onto ASCII), plus the two extra equivalences the engine adds for
      ASCII letters: LONG S with "s" and DOTLESS I with "i". */
  function Fold(c: char): (r: char)
    ensures ('a' <= r <= 'z') <==> ('a' <= c <= 'z' || 'A' <= c <= 'Z' || c in "\U{17F}\U{212A}\U{131}\U{130}")
    ensures !('a' <= r <= 'z') ==> r == c
  {
    if 'A' <= c <= 'Z' then (c as int + 32) as char
    else if c == '\U{17F}' then 's'
    else if c == '\U{212A}' then 'k'
    else if c == '\U{131}' || c == '\U{130}' then 'i'
    else c
  }

  /** The literal `lit` (given in lower case) matches at position `i`. */
  predicate LitAt(t: string, i: nat, lit: string)
  {
    i + |lit| <= |t| && forall j | 0 <= j < |lit| :: Fold(t[i + j]) == lit[j]
  }

  /** `\s+` matches exactly `t[a..b]`. */
  predicate SpacesBetween(t: string, a: nat, b: nat)
  {
    a < b <= |t| && forall j | a <= j < b :: IsSpace(t[j])
  }

  /** `\s+` followed by the literal `lit` matches from `a`. */
  predicate SpacedLit(t: string, a: nat, lit: string)
  {
    exists b: nat | a < b <= |t| :: SpacesBetween(t, a, b) && LitAt(t, b, lit)
  }

  /** `[a-z]:` matches at `b`. */
  predicate DriveAt(t: string, b: nat)
  {
    b + 2 <= |t| && 'a' <= Fold(t[b]) <= 'z' && t[b + 1] == ':'
  }

  /** `\s+[a-z]:` matches from `a`. */
  predicate SpacedDrive(t: string, a: nat)
  {
    exists b: nat | a < b <= |t| :: SpacesBetween(t, a, b) && DriveAt(t, b)
  }

  /** The characters of the shell-injection class `[;|&`$()]`. */
  const ShellChars: string := ";|&`$()"

  /** One of the eight patterns matches starting at position `i`, in the
      order the validator lists them. */
  predicate DangerAt(t: string, i: nat)
  {
    || LitAt(t, i, "../")
    || LitAt(t, i, "\\.\\")
    || (i < |t| && t[i] in ShellChars)
    || (LitAt(t, i, "rm") && SpacedLit(t, i + 2, "-rf"))
    || (LitAt(t, i, "del") && (SpacedLit(t, i + 3, "/s") || SpacedLit(t, i + 3, "/q")))
    || (LitAt(t, i, "format") && SpacedDrive(t, i + 6))
    || LitAt(t, i, "sudo")
    || (LitAt(t, i, "chmod") && SpacedLit(t, i + 5, "777"))
  }

  /** `re.search` finds one of the patterns somewhere in the text. */
  predicate Dangerous(t: string)
  {
    exists i: nat | i <= |t| :: DangerAt(t, i)
  }

  /** Where the run of whitespace starting at `a` ends. */
  function SpaceEnd(t: string, a: nat): (r: nat)
    requires a <= |t|
    ensures a <= r <= |t|
    ensures forall j | a <= j < r :: IsSpace(t[j])
    ensures r == |t| || !IsSpace(t[r])
    decreases |t| - a
  {
    if a == |t| || !IsSpace(t[a]) then a else SpaceEnd(t, a + 1)
  }

  /** A character that folds onto a non-space was not a space. */
  lemma FoldKeepsSpaces(c: char)
    ensures IsSpace(c) ==> Fold(c) == c
  {
  }

  /** `\s+` then a literal that starts with a non-space can only match at
      the end of the whitespace run, so one look decides it. */
  lemma SpacedLitAtRunEnd(t: string, a: nat, lit: string)
    requires a <= |t| && lit != [] && !IsSpace(lit[0])
    ensures SpacedLit(t, a, lit) <==> SpaceEnd(t, a) > a && LitAt(t, SpaceEnd(t, a), lit)
  {
    var e := SpaceEnd(t, a);
    if SpacedLit(t, a, lit) {
      var b: nat :| a < b <= |t| && SpacesBetween(t, a, b) && LitAt(t, b, lit);
      FoldKeepsSpaces(t[b]);
      assert !IsSpace(t[b]);
      assert !(b < e);
      assert b == e;
    }
    if e > a && LitAt(t, e, lit) {
      assert SpacesBetween(t, a, e);
    }
  }

  /** The same for `\s+[a-z]:`. */
  lemma SpacedDriveAtRunEnd(t: string, a: nat)
    requires a <= |t|
    ensures SpacedDrive(t, a) <==> SpaceEnd(t, a) > a && DriveAt(t, SpaceEnd(t, a))
  {
    var e := SpaceEnd(t, a);
    if SpacedDrive(t, a) {
      var b: nat :| a < b <= |t| && SpacesBetween(t, a, b) && DriveAt(t, b);
      FoldKeepsSpaces(t[b]);
      assert !IsSpace(t[b]);
      assert !(b < e);
      assert b == e;
    }
    if e > a && DriveAt(t, e) {
      assert SpacesBetween(t, a, e);
    }
  }

  /** `\s+` then `lit`, decided by looking at the end of the whitespace run. */
  predicate RunThenLit(t: string, a: nat, lit: string)
  {
    a <= |t| && SpaceEnd(t, a) > a && LitAt(t, SpaceEnd(t, a), lit)
  }

  /** `\s+[a-z]:`, decided the same way. */
  predicate RunThenDrive(t: string, a: nat)
  {
    a <= |t| && SpaceEnd(t, a) > a && DriveAt(t, SpaceEnd(t, a))
  }

  /** A deterministic check for a match starting at `i`. */
  predicate DangerHere(t: string, i: nat)
  {
    || LitAt(t, i, "../")
    || LitAt(t, i, "\\.\\")
    || (i < |t| && t[i] in ShellChars)
    || (LitAt(t, i, "rm") && RunThenLit(t, i + 2, "-rf"))
    || (LitAt(t, i, "del") && (RunThenLit(t, i + 3, "/s") || RunThenLit(t, i + 3, "/q")))
    || (LitAt(t, i, "format") && RunThenDrive(t, i + 6))
    || LitAt(t, i, "sudo")
    || (LitAt(t, i, "chmod") && RunThenLit(t, i + 5, "777"))
  }

  /** The deterministic check agrees with the patterns at every position. */
  lemma DangerHereExact(t: string, i: nat)
    ensures DangerHere(t, i) <==> DangerAt(t, i)
  {
    if i + 2 <= |t| {
      SpacedLitAtRunEnd(t, i + 2, "-rf");
    }
    if i + 3 <= |t| {
      SpacedLitAtRunEnd(t, i + 3, "/s");
      SpacedLitAtRunEnd(t, i + 3, "/q");
    }
    if i + 6 <= |t| {
      SpacedDriveAtRunEnd(t, i + 6);
    }
    if i + 5 <= |t| {
      SpacedLitAtRunEnd(t, i + 5, "777");
    }
  }

  /** `_contains_dangerous_patterns(text)`: scans every start position. */
  method ContainsDangerousPatterns(text: string) returns (found: bool)
    ensures found <==> Dangerous(text)
  {
    var i: nat := 0;
    while i <= |text|
      invariant i <= |text| + 1
      invariant forall j: nat | j < i :: !DangerAt(text, j)
    {
      DangerHereExact(text, i);
      if DangerHere(text, i) {
        return true;
      }
      i := i + 1;
    }
    return false;
  }

  /** The text with every character folded. */
  function FoldAll(t: string): (r: string)
    ensures |r| == |t| && forall j | 0 <= j < |t| :: r[j] == Fold(t[j])
  {
    seq(|t|, j requires 0 <= j < |t| => Fold(t[j]))
  }

  /** Folding is idempotent and does not touch whitespace or punctuation. */
  lemma FoldFacts(c: char)
    ensures Fold(Fold(c)) == Fold(c)
    ensures IsSpace(Fold(c)) == IsSpace(c)
    ensures (Fold(c) in ShellChars) == (c in ShellChars)
    ensures (Fold(c) == ':') == (c == ':')
  {
  }

  /** Each pattern matches at `i` in the folded text exactly when it
      matches at `i` in the text. */
  lemma DangerAtFolded(t: string, i: nat)
    ensures DangerAt(FoldAll(t), i) <==> DangerAt(t, i)
  {
    var f := FoldAll(t);
    forall j | 0 <= j < |t|
      ensures Fold(f[j]) == Fold(t[j]) && IsSpace(f[j]) == IsSpace(t[j])
      ensures (f[j] in ShellChars) == (t[j] in ShellChars) && (f[j] == ':') == (t[j] == ':')
    {
      FoldFacts(t[j]);
    }
    assert forall a: nat, b: nat :: SpacesBetween(f, a, b) == SpacesBetween(t, a, b);
    assert forall b: nat, lit :: LitAt(f, b, lit) == LitAt(t, b, lit);
    assert forall b: nat :: DriveAt(f, b) == DriveAt(t, b);
    assert forall a: nat, lit :: SpacedLit(f, a, lit) == SpacedLit(t, a, lit);
    assert forall a: nat :: SpacedDrive(f, a) == SpacedDrive(t, a);
  }

  /** The patterns are case-insensitive: folding the text first changes
      nothing. */
  lemma DangerousIgnoresCase(t: string)
    ensures Dangerous(FoldAll(t)) <==> Dangerous(t)
  {
    forall i: nat | i <= |t|
      ensures DangerAt(FoldAll(t), i) <==> DangerAt(t, i)
    {
      DangerAtFolded(t, i);
    }
  }
}

=== FILE: results.dfy ===
/** Failure-carrying datatypes shared by every module of the model. */
module Results {

  /** A value that may be absent (Python's `None`). */
  datatype Option<+T> = None | Some(value: T)

  /** Either a value or the error that prevented computing it (a raised exception). */
  datatype Result<+T, +E> = Ok(value: T) | Err(error: E)
}

=== FILE: safety.dfy ===
/** SafetyValidator: the checks on actions, user input, the root folder
    and file paths. */
module Safety {
  import opened Results
  import opened Text
  import opened Errors
  import opened Json
  import opened Paths
  import opened Tree
  import opened Naming
  import opened Patterns

  /** The seven actions `validate_action` lets through. */
  const AllowedActions: set<string> := {
    "list_directory", "move_file", "move_directory", "rename_file",
    "create_directory", "remove_empty_directory", "get_file_info"
  }

  /** The actions whose source and destination are checked. */
  const TwoPathActions: set<string> := {"move_file", "move_directory", "rename_file"}

  /** The substrings `_is_system_file` looks for in the lower-cased path. */
  const SystemFileWords: seq<string> := [
    "system32", "windows", "program files", "boot.ini", "ntldr",
    "autoexec.bat", "config.sys", "pagefile.sys", "hiberfil.sys",
    "/etc/", "/bin/", "/sbin/", "/usr/bin/", "/usr/sbin/",
    "/boot/", "/sys/", "/proc/", "/dev/"
  ]

  /** `_is_system_file(path)` */
  predicate IsSystemFile(path: string)
  {
    exists k | 0 <= k < |SystemFileWords| :: Contains(Lower(path), SystemFileWords[k])
  }

  /** Some string-valued parameter matches a dangerous pattern; values of
      other types are never looked at. */
  predicate DangerousParameter(params: map<string, Json>)
  {
    exists k | k in params :: params[k].JStr? && Dangerous(params[k].s)
  }

  /** `parameters.get('source') or parameters.get('old_name')` */
  function SourceArg(params: map<string, Json>): Json
  {
    Or(Get(params, "source"), Get(params, "old_name"))
  }

  /** `parameters.get('destination') or parameters.get('new_name')` */
  function DestinationArg(params: map<string, Json>): Json
  {
    Or(Get(params, "destination"), Get(params, "new_name"))
  }

  /** `validate_action(action, parameters)`. The function has no handler of
      its own: a truthy destination that is not a string has no `lower`
      method, and the AttributeError propagates (`Err`). */
  function ValidateAction(action: string, params: map<string, Json>): (r: Result<bool, Exc>)
    ensures action !in AllowedActions ==> r == Ok(false)
    ensures DangerousParameter(params) ==> r == Ok(false)
    ensures r == Ok(true) ==> action in AllowedActions && !DangerousParameter(params)
    ensures action in TwoPathActions ==>
      (r == Ok(true) <==>
         && !DangerousParameter(params)
         && Truthy(SourceArg(params)) && DestinationArg(params).JStr?
         && DestinationArg(params).s != "" && !IsSystemFile(DestinationArg(params).s))
    ensures action in AllowedActions - TwoPathActions ==> r == Ok(!DangerousParameter(params))
    ensures r.Err? <==>
      && action in TwoPathActions && !DangerousParameter(params)
      && Truthy(SourceArg(params)) && Truthy(DestinationArg(params))
      && !DestinationArg(params).JStr?
  {
    if action !in AllowedActions then Ok(false)
    else if DangerousParameter(params) then Ok(false)
    else if action in TwoPathActions then
      var source, destination := SourceArg(params), DestinationArg(params);
      if !Truthy(source) || !Truthy(destination) then Ok(false)
      else if !destination.JStr? then Err(NoAttribute("lower"))
      else Ok(!IsSystemFile(destination.s))
    else Ok(true)
  }

  /** `validate_user_input(text)`: suspicious or very long input is only
      logged, never refused. */
  function ValidateUserInput(text: string): (r: bool)
    ensures r
  {
    true
  }

  /** The system directories `validate_root_path` refuses, as written. */
  const WindowsSystemDirs: seq<string> :=
    ["C:\\Windows", "C:\\Program Files", "C:\\Program Files (x86)", "C:\\System32"]
  const UnixSystemDirs: seq<string> :=
    ["/bin", "/sbin", "/usr/bin", "/usr/sbin", "/etc", "/sys", "/proc", "/dev", "/boot"]

  /** The lower-cased path string starts with a lower-cased system directory:
      a plain string prefix, not a path prefix. */
  predicate UnderSystemDir(pathStr: string)
  {
    || (exists k | 0 <= k < |WindowsSystemDirs| :: StartsWith(Lower(pathStr), Lower(WindowsSystemDirs[k])))
    || (exists k | 0 <= k < |UnixSystemDirs| :: StartsWith(Lower(pathStr), Lower(UnixSystemDirs[k])))
  }

  /** `validate_root_path(root_path)` given the resolved path and the tree
      it is looked up in. */
  function ValidateRootPath(fs: FS, resolved: Path): (r: bool)
    ensures r ==> IsDir(fs, resolved)
    ensures r ==> !UnderSystemDir(Render(resolved)) && !Dangerous(Render(resolved))
    ensures IsDir(fs, resolved) && !UnderSystemDir(Render(resolved)) && !Dangerous(Render(resolved)) ==> r
  {
    if resolved !in fs then false
    else if !fs[resolved].Dir? then false
    else if UnderSystemDir(Render(resolved)) then false
    else !Dangerous(Render(resolved))
  }

  /** `validate_file_path(file_path, root_path)` for a resolved root. */
  function ValidateFilePath(filePath: string, root: Path): (r: bool)
    requires Canonical(root)
    ensures r <==> SafePath(root, filePath).Ok? && !Dangerous(filePath)
  {
    Below(Resolve(root, filePath), root) && !Dangerous(filePath)
  }
}

module SafetyFacts {
  import opened Results
  import opened Text
  import opened Json
  import opened Paths
  import opened Tree
  import opened Naming
  import opened Patterns
  import opened Safety

  /** An opening or closing parenthesis anywhere makes a text dangerous. */
  lemma ParenthesisDangerous(t: string, i: nat)
    requires i < |t| && t[i] in "()"
    ensures Dangerous(t)
  {
    assert DangerAt(t, i);
  }

  /** Every name the renamer numbers, `stem (k)suffix`, is dangerous text. */
  lemma NumberedNameDangerous(stem: string, k: nat, suffix: string)
    ensures Dangerous(Numbered(stem, k, suffix))
  {
    var t := Numbered(stem, k, suffix);
    assert t[|stem| + 1] == '(';
    ParenthesisDangerous(t, |stem| + 1);
  }

  /** So any action that mentions an auto-renamed name in a string
      parameter is refused, whatever the action. */
  lemma NumberedNameRejected(action: string, params: map<string, Json>, key: string,
                             stem: string, k: nat, suffix: string)
    requires key in params && params[key] == JStr(Numbered(stem, k, suffix))
    ensures ValidateAction(action, params) == Ok(false)
  {
    NumberedNameDangerous(stem, k, suffix);
    assert DangerousParameter(params);
  }

  /** A "../" written anywhere in a file path rejects it, even when the
      path would resolve inside the root. */
  lemma TraversalTextRejected(filePath: string, root: Path, i: nat)
    requires Canonical(root)
    requires i + 3 <= |filePath| && filePath[i..i + 3] == "../"
    ensures !ValidateFilePath(filePath, root)
  {
    assert filePath[i] == '.' && filePath[i + 1] == '.' && filePath[i + 2] == '/';
    assert LitAt(filePath, i, "../");
    assert DangerAt(filePath, i);
  }

  /** `str.lower` distributes over concatenation. */
  lemma {:induction false} LowerAppend(a: string, b: string)
    ensures Lower(a + b) == Lower(a) + Lower(b)
    decreases |a|
  {
    if a != [] {
      assert (a + b)[1..] == a[1..] + b;
      LowerAppend(a[1..], b);
    } else {
      assert a + b == b;
    }
  }

  /** Text made of lower-case ASCII letters and '/' lowers to itself. */
  lemma {:induction false} LowerFixed(s: string)
    requires forall i | 0 <= i < |s| :: 'a' <= s[i] <= 'z' || s[i] == '/'
    ensures Lower(s) == s
    decreases |s|
  {
    if s != [] {
      LowerFixed(s[1..]);
    }
  }

  /** The lower-cased rendering of a path starts with "/" and the lower-cased
      first component. */
  lemma LowerRenderHead(p: Path)
    requires p != []
    ensures StartsWith(Lower(Render(p)), "/" + Lower(p[0]))
  {
    var tail := if |p| == 1 then "" else "/" + Join(p[1..]);
    assert Render(p) == "/" + p[0] + tail;
    LowerAppend("/" + p[0], tail);
    LowerAppend("/", p[0]);
    assert Lower("/") == "/";
    assert Lower(Render(p)) == ("/" + Lower(p[0])) + Lower(tail);
  }

  /** Every Unix system directory is written in lower case and starts
      with "/". */
  lemma UnixDirsLower(k: nat)
    requires k < |UnixSystemDirs|
    ensures Lower(UnixSystemDirs[k]) == UnixSystemDirs[k]
    ensures UnixSystemDirs[k] == "/" + UnixSystemDirs[k][1..]
  {
    var d := UnixSystemDirs[k];
    assert d in ["/bin", "/sbin", "/usr/bin", "/usr/sbin", "/etc", "/sys", "/proc", "/dev", "/boot"];
    assert forall i | 0 <= i < |d| :: 'a' <= d[i] <= 'z' || d[i] == '/';
    LowerFixed(d);
  }

  /** The system-directory test compares strings, not path components: a
      root whose first component merely starts with a Unix system
      directory's name, in any case ("/binary", "/Etcetera", "/devices"),
      is refused. */
  lemma SystemNamePrefixRejected(fs: FS, p: Path, k: nat)
    requires p != [] && 0 <= k < |UnixSystemDirs|
    requires StartsWith(Lower(p[0]), UnixSystemDirs[k][1..])
    ensures !ValidateRootPath(fs, p)
  {
    var d := UnixSystemDirs[k];
    UnixDirsLower(k);
    LowerRenderHead(p);
    var l := Lower(Render(p));
    var h := "/" + Lower(p[0]);
    assert StartsWith(h, d) by {
      assert h[..|d|] == "/" + Lower(p[0])[..|d| - 1];
    }
    assert l[..|d|] == h[..|d|];
    assert StartsWith(l, Lower(UnixSystemDirs[k]));
  }

  /** For instance "/binary". */
  lemma BinaryRejected(fs: FS)
    ensures !ValidateRootPath(fs, ["binary"])
  {
    LowerFixed("binary");
    SystemNamePrefixRejected(fs, ["binary"], 0);
  }

  /** "/" starts with none of the system directories: each is longer. */
  lemma SlashNotUnderSystemDir()
    ensures !UnderSystemDir("/")
  {
    assert Lower("/") == "/";
    forall k | 0 <= k < |WindowsSystemDirs|
      ensures !StartsWith("/", Lower(WindowsSystemDirs[k]))
    {
      WindowsDirLong(k);
    }
    forall k | 0 <= k < |UnixSystemDirs|
      ensures !StartsWith("/", Lower(UnixSystemDirs[k]))
    {
      UnixDirLong(k);
    }
  }

  /** Every lower-cased Windows system directory has at least two characters. */
  lemma WindowsDirLong(k: nat)
    requires k < |WindowsSystemDirs|
    ensures |Lower(WindowsSystemDirs[k])| >= 2
  {
    var d := WindowsSystemDirs[k];
    assert d in ["C:\\Windows", "C:\\Program Files", "C:\\Program Files (x86)", "C:\\System32"];
    assert |d| >= 2;
    LowerLength(d);
  }

  /** Every lower-cased Unix system directory has at least two characters. */
  lemma UnixDirLong(k: nat)
    requires k < |UnixSystemDirs|
    ensures |Lower(UnixSystemDirs[k])| >= 2
  {
    var d := UnixSystemDirs[k];
    assert d in ["/bin", "/sbin", "/usr/bin", "/usr/sbin", "/etc", "/sys", "/proc", "/dev", "/boot"];
    assert |d| >= 2;
    LowerLength(d);
  }

  /** Lower-casing never shortens a string. */
  lemma {:induction false} LowerLength(s: string)
    ensures |Lower(s)| >= |s|
    decreases |s|
  {
    if s != [] {
      LowerLength(s[1..]);
    }
  }

  /** No pattern matches in "/". */
  lemma SlashNotDangerous()
    ensures !Dangerous("/")
  {
    assert !DangerAt("/", 0);
    assert !DangerAt("/", 1);
  }

  /** "/" itself is no listed system directory and has no dangerous
      pattern: the filesystem root passes whenever it is a directory. */
  lemma RootDirectoryAccepted(fs: FS)
    requires WellFormed(fs)
    ensures ValidateRootPath(fs, [])
  {
    assert Render([]) == "/";
    SlashNotUnderSystemDir();
    SlashNotDangerous();
  }
}

=== FILE: text.dfy ===
/** String primitives the Python source takes from `str`: whitespace,
    stripping, searching, lower-casing and integer formatting. */
module Text {

  /** Python's `str.isspace()`; the regular-expression class `\s` of a str
      pattern accepts exactly the same characters. */
  predicate IsSpace(c: char)
  {
    || ('\t' <= c <= '\r')
    || ('\U{1C}' <= c <= ' ')
    || c == '\U{85}' || c == '\U{A0}' || c == '\U{1680}'
    || ('\U{2000}' <= c <= '\U{200A}')
    || c == '\U{2028}' || c == '\U{2029}' || c == '\U{202F}'
    || c == '\U{205F}' || c == '\U{3000}'
  }

  /** `s.startswith(p)` */
  predicate StartsWith(s: string, p: string)
  {
    |p| <= |s| && s[..|p|] == p
  }

  /** `p in s` for two strings */
  predicate Contains(s: string, p: string)
  {
    exists i | 0 <= i <= |s| :: StartsWith(s[i..], p)
  }

  /** Drops leading whitespace. */
  function TrimStart(s: string): (r: string)
    ensures |r| <= |s| && r == s[|s| - |r|..]
    ensures r == [] || !IsSpace(r[0])
    ensures forall i | 0 <= i < |s| - |r| :: IsSpace(s[i])
    decreases |s|
  {
    if s != [] && IsSpace(s[0]) then TrimStart(s[1..]) else s
  }

  /** Drops trailing whitespace. */
  function TrimEnd(s: string): (r: string)
    ensures |r| <= |s| && r == s[..|r|]
    ensures r == [] || !IsSpace(r[|r| - 1])
    ensures forall i | |r| <= i < |s| :: IsSpace(s[i])
    decreases |s|
  {
    if s != [] && IsSpace(s[|s| - 1]) then TrimEnd(s[..|s| - 1]) else s
  }

  /** `r` is `s` with a whitespace-only prefix of length `i` and a
      whitespace-only suffix removed, and `r` neither starts nor ends with
      whitespace. */
  ghost predicate StrippedAt(r: string, s: string, i: nat)
  {
    && i + |r| <= |s|
    && r == s[i..i + |r|]
    && (forall j | 0 <= j < i :: IsSpace(s[j]))
    && (forall j | i + |r| <= j < |s| :: IsSpace(s[j]))
    && (r == [] || (!IsSpace(r[0]) && !IsSpace(r[|r| - 1])))
  }

  /** `str.strip()` with no argument. */
  function Strip(s: string): (r: string)
    ensures exists i: nat :: StrippedAt(r, s, i)
  {
    var t := TrimStart(s);
    var r := TrimEnd(t);
    assert StrippedAt(r, s, |s| - |t|);
    r
  }

  /** `s.find(c)`: the first index of `c`, or -1. */
  function Find(s: string, c: char): (r: int)
    ensures -1 <= r < |s|
    ensures r == -1 <==> c !in s
    ensures 0 <= r ==> s[r] == c && c !in s[..r]
  {
    if s == [] then -1
    else if s[0] == c then 0
    else
      var t := Find(s[1..], c);
      if t == -1 then -1
      else
        assert s[..t + 1] == [s[0]] + s[1..][..t];
        t + 1
  }

  /** `s.rfind(c)`: the last index of `c`, or -1. */
  function RFind(s: string, c: char): (r: int)
    ensures -1 <= r < |s|
    ensures r == -1 <==> c !in s
    ensures 0 <= r ==> s[r] == c && c !in s[r + 1..]
    decreases |s|
  {
    if s == [] then -1
    else if s[|s| - 1] == c then |s| - 1
    else
      var t := RFind(s[..|s| - 1], c);
      assert s == s[..|s| - 1] + [s[|s| - 1]];
      if t == -1 then -1
      else
        assert s[t + 1..] == s[..|s| - 1][t + 1..] + [s[|s| - 1]];
        t
  }

  /** `str.lower()` as far as it can produce an ASCII letter: A-Z, the
      KELVIN SIGN (to "k") and LATIN CAPITAL LETTER I WITH DOT ABOVE (to
      "i" followed by COMBINING DOT ABOVE). Every other non-ASCII character
      is kept, which cannot change whether an ASCII pattern occurs. */
  function LowerChar(c: char): string
  {
    if 'A' <= c <= 'Z' then [(c as int + 32) as char]
    else if c == '\U{212A}' then "k"
    else if c == '\U{130}' then "i\U{307}"
    else [c]
  }

  function Lower(s: string): string
    decreases |s|
  {
    if s == [] then [] else LowerChar(s[0]) + Lower(s[1..])
  }

  predicate IsDigit(c: char)
  {
    '0' <= c <= '9'
  }

  function DigitChar(d: nat): (c: char)
    requires d < 10
    ensures IsDigit(c)
  {
    "0123456789"[d]
  }

  /** `str(n)` for a non-negative integer. */
  function NatToString(n: nat): (r: string)
    ensures |r| >= 1
    ensures forall i | 0 <= i < |r| :: IsDigit(r[i])
    decreases n
  {
    if n < 10 then [DigitChar(n)] else NatToString(n / 10) + [DigitChar(n % 10)]
  }

  /** `str(n)` for any integer. */
  function IntToString(n: int): string
  {
    if n < 0 then "-" + NatToString(-n) else NatToString(n)
  }

  /** `sep.join(parts)` */
  function JoinWith(sep: string, parts: seq<string>): (r: string)
    ensures parts == [] ==> r == ""
    ensures |parts| == 1 ==> r == parts[0]
    decreases |parts|
  {
    if parts == [] then ""
    else if |parts| == 1 then parts[0]
    else parts[0] + sep + JoinWith(sep, parts[1..])
  }

  /** The joined text ends with the last part. */
  lemma {:induction false} JoinWithEnds(sep: string, parts: seq<string>)
    requires parts != []
    ensures EndsWith(JoinWith(sep, parts), parts[|parts| - 1])
    decreases |parts|
  {
    if |parts| > 1 {
      JoinWithEnds(sep, parts[1..]);
      var rest := JoinWith(sep, parts[1..]);
      var last := parts[|parts| - 1];
      assert (parts[0] + sep + rest)[|parts[0] + sep + rest| - |last|..] == rest[|rest| - |last|..];
    }
  }

  /** `s.endswith(p)` */
  predicate EndsWith(s: string, p: string)
  {
    |p| <= |s| && s[|s| - |p|..] == p
  }

  /** The index `Find` reports is the first occurrence, and only it. */
  lemma FindIs(s: string, c: char, x: nat)
    requires x < |s| && s[x] == c && c !in s[..x]
    ensures Find(s, c) == x
  {
    var r := Find(s, c);
    assert s[..x + 1][x] == c;
    assert forall j | 0 <= j < x :: s[..x][j] == s[j];
  }

  /** The index `RFind` reports is the last occurrence, and only it. */
  lemma RFindIs(s: string, c: char, x: nat)
    requires x < |s| && s[x] == c && c !in s[x + 1..]
    ensures RFind(s, c) == x
  {
    var r := RFind(s, c);
    assert forall j | x < j < |s| :: s[x + 1..][j - x - 1] == s[j];
  }

  /** At most one string is `s` stripped. */
  lemma StrippedUnique(r1: string, r2: string, s: string, i1: nat, i2: nat)
    requires StrippedAt(r1, s, i1) && StrippedAt(r2, s, i2)
    ensures r1 == r2
  {
    if r1 != [] && r2 != [] {
      assert s[i1] == r1[0] && s[i2] == r2[0];
      assert i1 == i2;
      assert s[i1 + |r1| - 1] == r1[|r1| - 1] && s[i2 + |r2| - 1] == r2[|r2| - 1];
      assert |r1| == |r2|;
    }
  }

  /** Padding `x` with whitespace moves where its stripped text sits. */
  lemma StrippedPadded(r: string, x: string, i: nat, a: string, b: string)
    requires StrippedAt(r, x, i)
    requires forall j | 0 <= j < |a| :: IsSpace(a[j])
    requires forall j | 0 <= j < |b| :: IsSpace(b[j])
    ensures StrippedAt(r, a + x + b, |a| + i)
  {
    var s := a + x + b;
    assert s[|a| + i..|a| + i + |r|] == x[i..i + |r|];
    forall j | 0 <= j < |a| + i
      ensures IsSpace(s[j])
    {
      if j >= |a| {
        assert s[j] == x[j - |a|];
      }
    }
    forall j | |a| + i + |r| <= j < |s|
      ensures IsSpace(s[j])
    {
      if j < |a| + |x| {
        assert s[j] == x[j - |a|];
      } else {
        assert s[j] == b[j - |a| - |x|];
      }
    }
  }

  /** Whitespace added at either end does not change the stripped text. */
  lemma StripPadded(a: string, x: string, b: string)
    requires forall j | 0 <= j < |a| :: IsSpace(a[j])
    requires forall j | 0 <= j < |b| :: IsSpace(b[j])
    ensures Strip(a + x + b) == Strip(x)
  {
    var r := Strip(x);
    var i: nat :| StrippedAt(r, x, i);
    StrippedPadded(r, x, i, a, b);
    StripIsStrippedAt(r, a + x + b, |a| + i);
  }

  /** Any stripped form of a string is the one Strip computes. */
  lemma StripIsStrippedAt(r: string, s: string, i: nat)
    requires StrippedAt(r, s, i)
    ensures Strip(s) == r
  {
    var i2: nat :| StrippedAt(Strip(s), s, i2);
    StrippedUnique(Strip(s), r, s, i2, i);
  }
}

=== FILE: tree.dfy ===
/** The filesystem as an immutable map from resolved absolute paths to
    entries, and the primitive mutations the source reaches through
    `Path.mkdir`, `os.rename`, `shutil.move` and `Path.rmdir`. */
module Tree {
  import opened Results
  import opened Errors
  import opened Paths

  /** Contents are kept only for files; size and modification time are not modelled. */
  datatype Node = File(content: string) | Dir

  type FS = map<Path, Node>

  /** A directory tree: "/" is a directory, every path is resolved, and every
      entry other than "/" sits in a directory. */
  ghost predicate WellFormed(fs: FS)
  {
    && [] in fs && fs[[]] == Dir
    && (forall p | p in fs :: Canonical(p))
    && (forall p | p in fs && p != [] :: Parent(p) in fs && fs[Parent(p)] == Dir)
  }

  predicate IsFile(fs: FS, p: Path)
  {
    p in fs && fs[p].File?
  }

  predicate IsDir(fs: FS, p: Path)
  {
    p in fs && fs[p] == Dir
  }

  /** Every proper ancestor of an entry is a directory. */
  lemma {:induction false} AncestorsAreDirs(fs: FS, p: Path, q: Path)
    requires WellFormed(fs) && p in fs && q < p
    ensures IsDir(fs, q)
    decreases |p|
  {
    var pp := Parent(p);
    assert pp == p[..|p| - 1];
    assert q <= pp;
    if q != pp {
      AncestorsAreDirs(fs, pp, q);
    }
  }

  /** Nothing lies below a file. */
  lemma NothingBelowFile(fs: FS, p: Path, q: Path)
    requires WellFormed(fs) && IsFile(fs, p) && p < q
    ensures q !in fs
  {
    if q in fs {
      AncestorsAreDirs(fs, q, p);
    }
  }

  /** The entries directly inside `p` (`p.iterdir()`). */
  function Children(fs: FS, p: Path): set<Path>
  {
    set q | q in fs.Keys && |q| == |p| + 1 && p <= q
  }

  /** `p` and all its ancestors. */
  function Ancestry(p: Path): set<Path>
  {
    set i | 0 <= i <= |p| :: p[..i]
  }

  /** `Path(p).mkdir(parents=True, exist_ok=True)`: it fails, creating
      nothing, when `p` or one of its ancestors is a file; otherwise it
      creates the missing ones as directories and leaves the rest alone. */
  function MakeDirs(fs: FS, p: Path): (r: Result<FS, Exc>)
    ensures r.Err? <==> exists i | 0 <= i <= |p| :: IsFile(fs, p[..i])
    ensures r.Ok? ==> IsDir(r.value, p)
    ensures r.Ok? ==> forall q | q in fs :: q in r.value && r.value[q] == fs[q]
    ensures r.Ok? ==> forall q | q in r.value && q !in fs :: q <= p && r.value[q] == Dir
  {
    if IsFile(fs, p) then
      assert p[..|p|] == p;
      Err(OsFailure(FileExists))
    else if exists i | 0 <= i < |p| :: IsFile(fs, p[..i]) then
      Err(OsFailure(NotADirectory))
    else
      assert p[..|p|] == p;
      Ok(map q | q in fs.Keys + Ancestry(p) :: if q in fs then fs[q] else Dir)
  }

  /** Creating directories keeps the tree well formed. */
  lemma MakeDirsWellFormed(fs: FS, p: Path)
    requires WellFormed(fs) && Canonical(p) && MakeDirs(fs, p).Ok?
    ensures WellFormed(MakeDirs(fs, p).value)
  {
    var r := MakeDirs(fs, p).value;
    forall q | q in r
      ensures Canonical(q)
      ensures q != [] ==> Parent(q) in r && r[Parent(q)] == Dir
    {
      if q !in fs {
        assert q <= p;
        if q != [] {
          var pq := Parent(q);
          assert pq == p[..|q| - 1];
          assert pq in Ancestry(p);
          assert !IsFile(fs, p[..|q| - 1]);
        }
      }
    }
  }

  /** The tree after `os.rename(src, dst)` succeeds: the subtree at `src`
      reappears at `dst` (replacing the file there, if any). */
  function Transplant(fs: FS, src: Path, dst: Path): FS
  {
    var moved := set k | k in fs.Keys && src <= k :: dst + k[|src|..];
    var kept := set k | k in fs.Keys && !(src <= k);
    map k | k in moved + kept ::
      if dst <= k && src + k[|dst|..] in fs then fs[src + k[|dst|..]]
      else if k in fs then fs[k]
      else Dir
  }

  /** An entry of the moved subtree appears under `dst` unchanged. */
  lemma TransplantMoved(fs: FS, src: Path, dst: Path, k: Path)
    requires k in fs && src <= k
    ensures dst + k[|src|..] in Transplant(fs, src, dst)
    ensures Transplant(fs, src, dst)[dst + k[|src|..]] == fs[k]
  {
    var t := dst + k[|src|..];
    assert t[|dst|..] == k[|src|..];
    assert src + k[|src|..] == k;
  }

  /** An entry outside both the source and the target subtree is untouched. */
  lemma TransplantKept(fs: FS, src: Path, dst: Path, k: Path)
    requires k in fs && !(src <= k) && !(dst <= k)
    ensures k in Transplant(fs, src, dst) && Transplant(fs, src, dst)[k] == fs[k]
  {
  }

  /** Every entry of the result is either a moved entry or an untouched one. */
  lemma TransplantOrigin(fs: FS, src: Path, dst: Path, k: Path)
    requires k in Transplant(fs, src, dst)
    ensures (k in fs && !(src <= k)) || (dst <= k && src + k[|dst|..] in fs)
  {
    if !(k in fs && !(src <= k)) {
      var k' :| k' in fs && src <= k' && k == dst + k'[|src|..];
      assert k[|dst|..] == k'[|src|..];
      assert src + k'[|src|..] == k';
    }
  }

  /** The side conditions under which `os.rename(src, dst)` succeeds on a
      well-formed tree: the target's parent is a directory, a directory is
      not moved into itself, and only a file may replace a file. */
  ghost predicate CanTransplant(fs: FS, src: Path, dst: Path)
  {
    && WellFormed(fs)
    && src in fs
    && Canonical(dst) && dst != []
    && IsDir(fs, Parent(dst))
    && !(src < dst)
    && (dst in fs ==> fs[dst].File? && fs[src].File?)
  }

  /** Renaming keeps the tree well formed. */
  lemma TransplantWellFormed(fs: FS, src: Path, dst: Path)
    requires CanTransplant(fs, src, dst)
    ensures WellFormed(Transplant(fs, src, dst))
  {
    var t := Transplant(fs, src, dst);
    TransplantRootKept(fs, src, dst);
    forall k | k in t
      ensures Canonical(k)
      ensures k != [] ==> Parent(k) in t && t[Parent(k)] == Dir
    {
      TransplantOrigin(fs, src, dst, k);
      if k in fs && !(src <= k) {
        TransplantKeptEntry(fs, src, dst, k);
      } else {
        TransplantMovedEntry(fs, src, dst, k);
      }
    }
  }

  /** "/" and the target's parent stay directories. */
  lemma TransplantRootKept(fs: FS, src: Path, dst: Path)
    requires CanTransplant(fs, src, dst)
    ensures src != []
    ensures IsDir(Transplant(fs, src, dst), [])
    ensures IsDir(Transplant(fs, src, dst), Parent(dst))
  {
    assert [] <= dst;
    assert dst == Parent(dst) + [Name(dst)];
    assert !(dst <= Parent(dst));
    assert !(src <= Parent(dst));
    TransplantKept(fs, src, dst, []);
    TransplantKept(fs, src, dst, Parent(dst));
  }

  lemma TransplantKeptEntry(fs: FS, src: Path, dst: Path, k: Path)
    requires CanTransplant(fs, src, dst)
    requires k in fs && !(src <= k)
    ensures Canonical(k)
    ensures k != [] ==> IsDir(Transplant(fs, src, dst), Parent(k))
  {
    if k != [] {
      var pk := Parent(k);
      assert pk < k;
      assert !(src <= pk);
      assert !(dst <= pk) by {
        if dst == pk {
        } else if dst < pk {
          AncestorsAreDirs(fs, pk, dst);
        }
      }
      TransplantKept(fs, src, dst, pk);
    }
  }

  /** A canonical path extended by canonical components is canonical. */
  lemma CanonicalJoin(a: Path, b: Path)
    requires Canonical(a) && Canonical(b)
    ensures Canonical(a + b)
  {
    forall i | 0 <= i < |a + b|
      ensures IsComponent((a + b)[i])
    {
      if i >= |a| {
        assert (a + b)[i] == b[i - |a|];
      }
    }
  }

  lemma TransplantMovedEntry(fs: FS, src: Path, dst: Path, k: Path)
    requires CanTransplant(fs, src, dst)
    requires dst <= k && src + k[|dst|..] in fs
    ensures Canonical(k)
    ensures k != [] ==> IsDir(Transplant(fs, src, dst), Parent(k))
  {
    var k' := src + k[|dst|..];
    assert k[|dst|..] == k'[|src|..];
    assert k == dst + k'[|src|..];
    CanonicalJoin(dst, k'[|src|..]);
    if k' == src {
      assert k == dst;
      TransplantRootKept(fs, src, dst);
    } else {
      var pk' := Parent(k');
      assert src <= pk';
      TransplantMoved(fs, src, dst, pk');
      assert dst + pk'[|src|..] == Parent(k);
    }
  }

  /** The rename step of `shutil.move`: `os.rename(src, dst)` followed by
      shutil's recovery when it fails. A directory is never moved into
      itself, a directory never replaces anything, a file silently replaces
      a file, and the target's parent must be an existing directory. */
  function ShutilRename(fs: FS, src: Path, dst: Path): (r: Result<FS, Exc>)
    ensures r.Err? ==> r.error.OsFailure?
    ensures r.Ok? ==> r.value == Transplant(fs, src, dst)
    ensures src in fs && fs[src] == Dir && src <= dst ==> r == Err(OsFailure(IntoItself))
  {
    if src !in fs then Err(OsFailure(FileNotFound))
    else if fs[src] == Dir && src <= dst then Err(OsFailure(IntoItself))
    else if IsDir(fs, dst) then Err(OsFailure(IsADirectory))
    else if dst in fs && fs[src] == Dir then Err(OsFailure(FileExists))
    else if dst == [] || !IsDir(fs, Parent(dst)) then Err(OsFailure(FileNotFound))
    else Ok(Transplant(fs, src, dst))
  }

  /** On a well-formed tree the rename step of shutil.move succeeds exactly
      under the transplant side conditions. */
  lemma ShutilRenameCanTransplant(fs: FS, src: Path, dst: Path)
    requires WellFormed(fs) && Canonical(dst)
    ensures ShutilRename(fs, src, dst).Ok? <==> CanTransplant(fs, src, dst)
  {
    if ShutilRename(fs, src, dst).Ok? {
      if fs[src].File? && src < dst {
        assert src <= Parent(dst);
        if src == Parent(dst) {
        } else {
          AncestorsAreDirs(fs, Parent(dst), src);
        }
      }
    }
    if CanTransplant(fs, src, dst) {
      assert !(fs[src] == Dir && src <= dst) by {
        if src == dst {
          assert fs[dst].File?;
        }
      }
    }
  }

  /** The lookup of `p`'s parent directory from the prefix of length `i`
      on: the first prefix that is missing gives ENOENT, the first that is a
      file gives ENOTDIR. */
  function WayBlocked(fs: FS, p: Path, i: nat): (r: Option<OsReason>)
    ensures r.None? <==> forall j | i <= j < |p| :: IsDir(fs, p[..j])
    ensures r == Some(NotADirectory) ==> exists j | i <= j < |p| :: IsFile(fs, p[..j])
    ensures r.Some? ==> r.value == FileNotFound || r.value == NotADirectory
    decreases |p| - i
  {
    if i >= |p| then None
    else if p[..i] !in fs then Some(FileNotFound)
    else if fs[p[..i]].File? then Some(NotADirectory)
    else WayBlocked(fs, p, i + 1)
  }

  /** In a well-formed tree the lookup stops on a file exactly when some
      prefix of the path is a file: a missing prefix has no file below it. */
  lemma {:induction false} WayBlockedByFile(fs: FS, p: Path, i: nat)
    requires WellFormed(fs)
    ensures WayBlocked(fs, p, i) == Some(NotADirectory) <==>
      exists j | i <= j < |p| :: IsFile(fs, p[..j])
    decreases |p| - i
  {
    if i < |p| && (exists j | i <= j < |p| :: IsFile(fs, p[..j])) {
      var j :| i <= j < |p| && IsFile(fs, p[..j]);
      if p[..i] !in fs {
        assert p[..i] < p[..j] by {
          assert p[..j][..i] == p[..i];
        }
        AncestorsAreDirs(fs, p[..j], p[..i]);
      } else if fs[p[..i]] == Dir {
        assert j != i;
        WayBlockedByFile(fs, p, i + 1);
      }
    }
  }

  /** `Path.rename` (a bare `os.rename(src, dst)`) onto a target that does
      not exist. The lookup of the target's parent fails first (ENOENT or
      ENOTDIR), then renaming "/" or to "/" is refused (EBUSY), then a
      missing source (ENOENT), then a directory moved inside itself
      (EINVAL). */
  function OsRename(fs: FS, src: Path, dst: Path): (r: Result<FS, Exc>)
    requires dst !in fs
    ensures r.Err? ==> r.error.OsFailure?
    ensures r.Ok? ==> r.value == Transplant(fs, src, dst)
  {
    var blocked := WayBlocked(fs, dst, 0);
    if blocked.Some? then Err(OsFailure(blocked.value))
    else if src == [] || dst == [] then Err(OsFailure(Busy))
    else if src !in fs then Err(OsFailure(FileNotFound))
    else if src <= dst then Err(OsFailure(InvalidArgument))
    else Ok(Transplant(fs, src, dst))
  }

  /** On a well-formed tree, os.rename onto a free target succeeds exactly
      under the transplant side conditions. */
  lemma OsRenameCanTransplant(fs: FS, src: Path, dst: Path)
    requires WellFormed(fs) && Canonical(dst) && dst !in fs
    ensures OsRename(fs, src, dst).Ok? <==> CanTransplant(fs, src, dst)
  {
    if CanTransplant(fs, src, dst) {
      TransplantRootKept(fs, src, dst);
      WayToParentOpen(fs, dst);
      assert src != dst;
    }
    if OsRename(fs, src, dst).Ok? {
      assert IsDir(fs, dst[..|dst| - 1]);
    }
  }

  /** Every proper prefix of a path whose parent is a directory of a
      well-formed tree is a directory. */
  lemma WayToParentOpen(fs: FS, dst: Path)
    requires WellFormed(fs) && dst != [] && IsDir(fs, Parent(dst))
    ensures forall j | 0 <= j < |dst| :: IsDir(fs, dst[..j])
  {
    forall j | 0 <= j < |dst|
      ensures IsDir(fs, dst[..j])
    {
      if j < |dst| - 1 {
        AncestorsAreDirs(fs, Parent(dst), dst[..j]);
      }
    }
  }

  /** os.rename of a directory to a free path inside itself fails with
      EINVAL once the target's parent exists (EBUSY when it is "/"). */
  lemma OsRenameIntoItself(fs: FS, src: Path, dst: Path)
    requires WellFormed(fs) && dst !in fs
    requires IsDir(fs, src) && src < dst && IsDir(fs, Parent(dst))
    ensures OsRename(fs, src, dst) == Err(OsFailure(if src == [] then Busy else InvalidArgument))
  {
    WayToParentOpen(fs, dst);
  }

  /** os.rename to a path below a file fails with ENOTDIR. */
  lemma OsRenameUnderFile(fs: FS, src: Path, dst: Path, j: nat)
    requires WellFormed(fs) && dst !in fs
    requires j < |dst| && IsFile(fs, dst[..j])
    ensures OsRename(fs, src, dst) == Err(OsFailure(NotADirectory))
  {
    WayBlockedByFile(fs, dst, 0);
  }

  /** `shutil.move(src, dst)`: an existing directory target receives the
      entry under its own name, unless that name is taken there; anything
      else is the rename step. */
  function ShutilMove(fs: FS, src: Path, dst: Path): (r: Result<FS, Exc>)
    ensures r.Err? ==> r.error.OsFailure?
    ensures r.Ok? ==> r.value == fs || r.value == Transplant(fs, src, MoveTarget(fs, src, dst))
    ensures IsDir(fs, dst) && dst != src && dst + [Name(src)] in fs ==> r == Err(OsFailure(AlreadyThere))
  {
    if IsDir(fs, dst) then
      if dst == src then Ok(fs)
      else
        var target := dst + [Name(src)];
        if target in fs then Err(OsFailure(AlreadyThere)) else ShutilRename(fs, src, target)
    else ShutilRename(fs, src, dst)
  }

  /** Where `shutil.move(src, dst)` puts the entry. */
  function MoveTarget(fs: FS, src: Path, dst: Path): Path
  {
    if IsDir(fs, dst) && dst != src then dst + [Name(src)] else dst
  }

  /** shutil.move keeps the tree well formed, and what it changes lies in
      the source subtree or the subtree of its target. */
  lemma ShutilMoveWellFormed(fs: FS, src: Path, dst: Path)
    requires WellFormed(fs) && Canonical(dst) && src in fs && ShutilMove(fs, src, dst).Ok?
    ensures WellFormed(ShutilMove(fs, src, dst).value)
  {
    var target := MoveTarget(fs, src, dst);
    if IsDir(fs, dst) && dst == src {
    } else {
      if IsDir(fs, dst) {
        assert [] <= target;
        assert src != [];
        assert Canonical([src[|src| - 1]]);
      }
      assert Canonical(target);
      ShutilRenameCanTransplant(fs, src, target);
      TransplantWellFormed(fs, src, target);
    }
  }

  /** `Path.rmdir()` of an empty directory other than "/". */
  function RemoveLeaf(fs: FS, p: Path): (r: FS)
    ensures r.Keys == fs.Keys - {p}
  {
    fs - {p}
  }

  /** Removing an entry with no children keeps the tree well formed. */
  lemma RemoveLeafWellFormed(fs: FS, p: Path)
    requires WellFormed(fs) && p in fs && p != [] && Children(fs, p) == {}
    ensures WellFormed(RemoveLeaf(fs, p))
  {
    var r := RemoveLeaf(fs, p);
    forall k | k in r && k != []
      ensures Parent(k) in r
    {
      assert |k| == |p| + 1 && p <= k ==> k in Children(fs, p);
      assert Parent(k) != p;
    }
  }
}
